=== FILE: README.md ===
# A Dafny model of trident's client-side bookkeeping

Trident (`pydent`) is the Python client of the Aquarium laboratory server.
The server does the real work. The client decides what to ask the server,
guards what it sends, and shapes and caches what comes back. This project
models that client-side bookkeeping as immutable Dafny data and pure
functions. Every call to the server is a function parameter the model never
looks inside.

The modules follow the program's files:

- `AqHttp` (`pydent/aqhttp.py`): the `remember_token` cookie rewrite, the
  login body, the top-level null guard on outgoing JSON, the `errors` check
  on responses, and the opt-in request history keyed by (url, verb, body).
- `Session` (`pydent/aq/session.py`): `create_from_json`, which either
  creates one session from the whole config or one named session per
  top-level entry. Each `create(**kwargs)` call binds its keyword arguments.
  The older connector's cookie rewrite and login body are the same code as
  in `AqHttp`, and the model reuses it. The older login does not check
  that the response has a `set-cookie` header.
- `Relationships` and `Inflection` (`pydent/relationships.py`): the four
  relationship descriptors are a closed datatype. `Params` is the parameter
  callable each one installs. `inflection.underscore` is written out, and
  `pluralize` is a parameter.
- `FieldExtensions` and `JsonText` (`pydent/marshaller/field_extensions.py`):
  - the `Relation` field's `params` normalisation, defaults, option
    decomposition and nested dumping;
  - the `JSON` field, with `json.dumps` (Python's `ensure_ascii` escaping)
    and `json.loads` written out over the JSON value type.
- `Browser` (`pydent/browser.py`): the model cache. It covers query
  matching, the cache merge that keeps a cached instance and overwrites its
  attributes, grouping by class and by attribute, `cached_where`, which only
  asks the server for the ids it has not cached, and the argument checks of
  `retrieve`.
- `Models` (`pydent/models.py`): latest-code selection, `FieldType`
  construction and its AllowableFieldTypes, creating and filling a
  `FieldValue`, and the FieldValue lookups and setters of an `Operation`.
- `AqOperationType` and `AqPlan` (`py/aq/models/`): the older API's code
  selection, and a plan's defaults, wiring, save and cost estimate.
- `AsyncRequests` (`pydent/utils/async_requests.py`): `chunkify`.
- Shared vocabulary:
  - `Wrappers`: `Option`, `Result` and the exception kinds.
  - `JsonValue`: JSON values with Python truthiness.
  - `Strings`: `str.split` and `join`.
  - `Lists`: the order-preserving filter that `filter_list` and the list
    comprehensions perform.
  - `ODict`: insertion-ordered dicts.

Python exceptions are `Failure` values of the kind the source raises. When
the source mutates a record and then raises, the model returns the mutated
record together with the error. A dict whose order the program shows is an
`ODict`. A dict used only for lookup is a Dafny `map`.

Some behaviours of the code are easy to miss, and the model keeps them:

- When several AllowableFieldTypes fit, `set_value` only warns and selects
  nothing (`Models.SetValueSelectsAllowableFieldType`).
- Several operations keep what they changed before raising:
  - `set_field_value` keeps the FieldValue it appended;
  - `set_field_value_array` keeps the FieldValues already set;
  - the cache grouping keeps the groups already merged;
  - `estimate_cost` keeps the costs already assigned.

  The model returns that partial state with the error.
- The older connector's login reads `set-cookie` without a check and raises
  KeyError when it is missing (`Session.LoginCookie`).

## Model

| member | source | states |
|---|---|---|
| AqHttp.FixRememberToken | pydent/aqhttp.py:84-93 | The result is `remember_token=<tok>; ` followed by the untouched header, so the header is a suffix. `tok` comes from the last `;`-segment whose text before `=` starts with `remember_token`, and is "" when none qualifies. A qualifying segment without `=` raises IndexError, and that is the only failure. |
| Session.LoginCookie | pydent/aq/session.py:39-51 | The older login installs one `cookie` header. Its value is the response's `set-cookie` header with `remember_token=<tok>; ` prepended, where `<tok>` comes from the last segment naming `remember_token`, as in the newer client. `set-cookie` is looked up without regard to case, and several such lines are joined with `", "`. A response without `set-cookie` raises KeyError, and a qualifying segment without `=` raises IndexError. |
| Session.HeaderValue | pydent/aq/session.py:39 | `r.headers["set-cookie"]` finds a value iff some header line has that name in any case. |
| Session.OnlyHeader | pydent/aq/session.py:39 | A single header line with that name, in any case, is read unchanged. |
| Session.SetCookieAnyCase | pydent/aq/session.py:39 | A response that spells the header `Set-Cookie` is read like one spelling it `set-cookie`. |
| AqHttp.LastTokenIsLastQualifying | pydent/aqhttp.py:87-92 | The token is the one of the last qualifying segment: later segments that do not qualify change nothing. |
| AqHttp.LastTokenWithoutQualifying | pydent/aqhttp.py:87-92 | With no qualifying segment the token is "". |
| AqHttp.TokenTruncatedAtEquals | pydent/aqhttp.py:90-92 | A token value followed by a further `=` is cut at that `=`, because only `cparts[1]` is kept. |
| AqHttp.LeadingSpaceDoesNotQualify | pydent/aqhttp.py:91 | `re.match` is anchored and does not skip spaces, so ` remember_token=...` does not qualify. |
| AqHttp.CreateSessionJson | pydent/aqhttp.py:46-54 | The login body is a dict with the single key `session`, holding exactly `login` and `password`. |
| Session.CreateSession | pydent/aq/session.py:27-33 | The older connector's login body is a dict with the single key `session`, holding exactly the connector's `login` and `password`. |
| AqHttp.DisallowNullInJson | pydent/aqhttp.py:162-166 | For a dict, it raises JsonDataIncomplete iff some top-level value is None. A non-dict has no `.values()` and raises AttributeError. |
| AqHttp.LoginBodyPassesNullGuard | pydent/aqhttp.py:162-166 | Nested nulls are not inspected: the login body passes the guard even with a None login or password. |
| AqHttp.RequestToJson | pydent/aqhttp.py:146-160 | A response succeeds only if it is JSON, and then it is returned unchanged. A body that is not JSON raises RequestError. `"errors" in result_json` follows Python's `in`: a dict succeeds iff it has no `errors` key, a list iff it has no `"errors"` element, and a string iff it does not contain `errors`. A flagged dict raises RequestError. For a flagged list or string, building the message indexes `result_json['errors']`, which raises TypeError first. None, a boolean or a number makes the `in` test itself raise TypeError. RequestError arises exactly for a body that is not JSON or a dict with `errors`. |
| AqHttp.PathJoin | pydent/aqhttp.py:130 | `os.path.join` keeps the path as the suffix of the URL, and an absolute path replaces the base. |
| AqHttp.Request | pydent/aqhttp.py:107-144 | The null guard runs first, only on a `json` body, and an error from it leaves the connection untouched. The history answers only when `fromHistory` holds and the key is present. Otherwise the request is performed: it appends one call to the server and overwrites the history entry of its (url, verb, body) key. A missing body counts as `{}`. Login and URL never change. |
| AqHttp.HistoryReplay | pydent/aqhttp.py:138-143 | Repeating a request that may use the history gives the same result and makes no new call. |
| AqHttp.PostWithoutDataRaises | pydent/aqhttp.py:168-185 | `AqHttp.Post` (like `AqHttp.Put`) always passes `json=`, so a post without data raises AttributeError before any call. |
| AqHttp.GetSkipsNullGuard | pydent/aqhttp.py:206-221 | `AqHttp.Get` passes no `json`, so it always reaches the history or the server. |
| AqHttp.ClearHistory | pydent/aqhttp.py:95-97 | The history becomes empty, and login, URL and the calls made are unchanged. |
| Session.BindCreate | pydent/aq/session.py:82-85 | The keyword arguments bind to `create(login, password, aquarium_url, session_name=None)` iff the three required names are present and no other name is given. Otherwise it raises TypeError. |
| Session.CreateNamed | pydent/aq/session.py:92-93 | One named entry binds iff it is a dict with the required keys, only accepted keys, and no `session_name` of its own. The session is named by the entry's key. |
| Session.CreateEach | pydent/aq/session.py:91-93 | Entries are created in config order. Each call is that entry's binding. The loop stops at the first entry that raises, with that entry's error. |
| Session.CreateFromJson | pydent/aq/session.py:87-93 | A config with a `login` key leads to exactly one `create` attempt, on the whole config. Its keyword binding fails only with TypeError. Otherwise there is one `create` per top-level entry, in order and named by its key. The loop stops at the first entry that raises, with that entry's error. |
| Inflection.Underscore | pydent/relationships.py:67-69 | `inflection.underscore` leaves no capital and no `-`. |
| Inflection.UnderscoreIdempotent | pydent/relationships.py:67-69 | Underscoring twice is underscoring once. |
| Inflection.SnakeCaseUnchanged | pydent/relationships.py:67-69 | A name with no capital and no `-` is its own underscore form. |
| Inflection.SampleTypeExample | pydent/relationships.py:61 | `SampleType` becomes `sample_type`, as the `HasOne` documentation says. |
| Relationships.GetAttr | pydent/relationships.py:70 | `getattr` succeeds iff the attribute exists, and raises AttributeError otherwise. |
| Relationships.IdensOf | pydent/relationships.py:87 | `[getattr(x, iden) for x in ...]` succeeds iff every association has the attribute. It keeps one entry per association, in order. |
| Relationships.ThroughParams | pydent/relationships.py:81-87 | The through query is `{attr: [...]}` with one id per association, in order. A missing through attribute raises AttributeError. |
| Relationships.Params | pydent/relationships.py:53-124 | HasOne reads `<underscore(model)>_<attr>` of the owner. HasMany without `through` gives `{<underscore(ref_model)>_<attr>: self.<attr>}`. HasMany with `through`, and HasManyThrough, give the association query. HasManyGeneric gives `{"parent_id": self.id}`. |
| Relationships.One | pydent/relationships.py:11-29 | `One` defaults the callback to `find_using_session` and is never `many`. |
| Relationships.Many | pydent/relationships.py:32-50 | `Many` defaults the callback to `where_using_session` and is always `many`. |
| Relationships.ToRelation | pydent/relationships.py:53-124 | HasOne builds a `One` and the other descriptors a `Many`. Params is a one-element tuple holding the descriptor's callable. |
| Relationships.DefaultCallbacks | pydent/relationships.py:27-29 | With no callback, HasOne finds one record and defaults to None, and the others query many and default to `[]`. |
| Relationships.HasOneSampleType | pydent/relationships.py:54-70 | `HasOne("SampleType")` reads `sample_type_id`. |
| Relationships.HasManySampleType | pydent/relationships.py:108-117 | `HasMany("Sample", "SampleType")` queries `{sample_type_id: self.id}`. |
| Relationships.HasManyThroughAgree | pydent/relationships.py:112-115 | `HasMany` with `through` derives the same query as `HasManyThrough`. |
| FieldExtensions.NormaliseParams | pydent/marshaller/field_extensions.py:64-66 | A list or tuple is kept as it is. Any other value is wrapped in a one-element tuple. |
| FieldExtensions.NormaliseParamsIdempotent | pydent/marshaller/field_extensions.py:64-66 | Normalising twice is normalising once. |
| FieldExtensions.NewRelation | pydent/marshaller/field_extensions.py:43-66 | The constructor keeps model, callback, `many` and `allow_none`, resets `default` to None, and normalises `params`. |
| FieldExtensions.GetDefault | pydent/marshaller/field_extensions.py:68-84 | A type default is instantiated and a value default is returned. |
| FieldExtensions.ConstructedDefault | pydent/marshaller/field_extensions.py:62-84 | A freshly constructed relation defaults to `[]` when `many` and to None otherwise. |
| FieldExtensions.DecomposeOpts | pydent/marshaller/field_extensions.py:93-101 | The result is `opts[attr]` when `opts` is a dict holding `attr`, and `{}` in every other case. |
| FieldExtensions.DumpList | pydent/marshaller/field_extensions.py:119-125 | A nested list is dumped element by element, with the same length and order. None stays None, and a model is dumped with its decomposed options. |
| FieldExtensions.SerializeRelation | pydent/marshaller/field_extensions.py:90-128 | A falsy nested object becomes None. A non-empty list is dumped element-wise, a model is dumped, and a truthy plain value passes through. |
| FieldExtensions.EmptyListSerialisesToNone | pydent/marshaller/field_extensions.py:118 | An empty nested list is dumped as None, not `[]`. |
| JsonText.NumberRoundTrip | pydent/marshaller/field_extensions.py:17 | Every integer's decimal text parses back to the integer. |
| JsonText.Hex4RoundTrip | pydent/marshaller/field_extensions.py:17 | A `\uXXXX` escape reads back as the code unit it writes. |
| JsonText.CombineSurrogates | pydent/marshaller/field_extensions.py:17 | A character above U+FFFF splits into a high and a low surrogate that combine back to it. |
| JsonText.EscapeParses | pydent/marshaller/field_extensions.py:17-25 | The escaped text of any string, followed by a closing quote, parses back to the string. |
| JsonText.Dumps | pydent/marshaller/field_extensions.py:17 | The text `json.dumps` writes is non-empty and does not start with whitespace. |
| JsonText.LoadsDumps | pydent/marshaller/field_extensions.py:17-25 | `JsonText.Loads` (`json.loads`) inverts `JsonText.Dumps`: `json.loads(json.dumps(v)) == v` for every JSON value, under every key ordering that depends only on a dict's key set. |
| JsonText.SerializeField | pydent/marshaller/field_extensions.py:13-19 | None serialises to `''`, and any other value to text that loads back to it. |
| JsonText.DeserializeField | pydent/marshaller/field_extensions.py:21-27 | None deserialises to `''`. A string succeeds iff `JsonText.Loads` parses it, giving the parsed value. Text that does not parse, `''` included, raises ValidationError. A value that is neither None nor a string raises TypeError. |
| JsonText.FieldRoundTrip | pydent/marshaller/field_extensions.py:13-27 | Deserialising a serialised value gives it back, except None. None serialises to `''`, and `json.loads('')` fails, so deserialising it raises ValidationError. |
| Browser.Clear | pydent/browser.py:101-104 | Clearing empties the model cache and the list cache. |
| Browser.ClearForgets | pydent/browser.py:101-104 | After clearing, no class has cached models and no query finds anything in the cache. |
| Browser.MatchQuery | pydent/browser.py:296-318 | A model matches iff every query key is in its data, with list values matching by membership and others by equality. The match is the projection of the data onto the query keys. |
| Browser.FindMatches | pydent/browser.py:320-329 | The found models are the input models whose projection is non-empty, in input order. The projections form a parallel list of the same length. |
| Browser.EmptyQueryFindsNothing | pydent/browser.py:318-326 | An empty query projects to `{}`, which is falsy, so nothing is found. |
| Browser.MergeAllKeys | pydent/browser.py:350-356 | Merging keeps the existing keys in place and appends the new keys in input order. |
| Browser.MergeAllEntries | pydent/browser.py:350-356 | A cached model keeps its identity and takes the new attributes over its own. A new model is inserted. Keys not given are untouched. |
| Browser.UpdateModelCacheHelper | pydent/browser.py:342-357 | The class's cache is merged as above, other classes and the list cache are unchanged, and the result lists the merged models in input key order. |
| Browser.KeyedById | pydent/browser.py:370 | `{m._primary_key: m for m in ...}` fails with TypeError iff some id is unhashable. Otherwise each key is the id of some model, and the keys appear in the order in which their ids first occur among the models. |
| Browser.KeyedByIdLastWins | pydent/browser.py:370 | Each id maps to the last model carrying it. |
| Browser.GroupModelsAndUpdateCache | pydent/browser.py:359-372 | Models are grouped by class name in first-occurrence order, and a None model only opens a `NoneType` group. Each group is merged into its class's cache, and other classes are unchanged. A group whose ids are unhashable raises TypeError. The earlier groups stay merged, and the failing group and every later one leave their class's cache untouched. |
| Browser.GroupByAttribute | pydent/browser.py:544-551 | A missing attribute raises AttributeError and an unhashable value raises TypeError, the first offender in input order deciding which. |
| Browser.GroupByAttributeGroups | pydent/browser.py:544-551 | Every model lands in the group of its attribute value. Each group holds exactly the models with that value, in input order. |
| Browser.Requested | pydent/browser.py:401-404 | The requested ids are `set(query_id_list)`, with a scalar id made a singleton. A list with an unhashable element, and None, raise TypeError. |
| Browser.Remaining | pydent/browser.py:404 | The ids still to fetch are exactly the requested ids not found in the cache. |
| Browser.CachedWhere | pydent/browser.py:392-419 | A query with an empty-list value returns `[]` with no server call. When every requested id is cached, the cached matches come back and the server is not asked. Otherwise the server is asked only for the missing ids. Its models and the cached ones are merged into the cache, cached models winning on equal ids, and the merged list is returned. |
| Browser.RetrieveCheck | pydent/browser.py:734-767 | Empty input retrieves nothing. Models of several classes fail the assertion. An unknown relation raises in strict mode and retrieves nothing otherwise. An explicit relation whose name already exists raises, and so does a relation type outside the accepted four. An accepted relation is fetched through its association iff it has a `through`. |
| Models.LatestCodeIsLast | pydent/models.py:105-122 | `Models.LatestCode` (`code(name)`) is None when there are no codes or no code of that name is a latest version. Otherwise it is the last such code. |
| Models.NewFieldType | pydent/models.py:247-277 | Both an operation type and a sample type raise. Otherwise the parent class and id come from whichever is given. Pairings become AllowableFieldTypes only when no list is given. |
| Models.AddPairings | pydent/models.py:274-277 | Each pairing appends one AllowableFieldType, in order, and the existing ones are kept. |
| Models.GetAllowableFieldTypes | pydent/models.py:283-288 | An empty list is normalised to None, and any other list is returned unchanged. |
| Models.CreateAllowableFieldType | pydent/models.py:290-298 | The new AllowableFieldType points at the given sample and object type and is appended at the end. Nothing else changes. |
| Models.InitializeFieldValue | pydent/models.py:300-316 | A missing FieldValue is created with the FieldType's name, role and id. A FieldType with AllowableFieldTypes selects the first one, record and id together, and every other attribute is unchanged. |
| Models.SetOperation | pydent/models.py:483-486 | The parent becomes the Operation, and nothing else changes. |
| Models.SetHelper | pydent/models.py:440-456 | An item outside the given container raises. Otherwise an item sets `child_item_id`, the sample defaults to the item's, and a container overrides the object type. Everything else is kept. |
| Models.CandidatesFit | pydent/models.py:462-466 | The two `filter_list` calls select exactly the AllowableFieldTypes that fit the stored sample and object type. |
| Models.SetValueSelectsAllowableFieldType | pydent/models.py:458-481 | `Models.SetValue` after a successful `_set_helper`, with a sample, item or container: no fitting AllowableFieldType raises, and exactly one is selected (record and id together). Several only warn and select nothing. |
| Models.SetValueWithoutModels | pydent/models.py:458-460 | Without sample, item or container, `set_value` only stores a truthy value. |
| Models.SetValueKeepsNameAndRole | pydent/models.py:458-481 | `set_value` never renames a FieldValue or moves it to another role. |
| Models.FieldTypeIsFirst | pydent/models.py:810-814 | `Models.FieldTypeOf` (`field_type(name, role)`) is None iff no FieldType matches, and otherwise the first match. |
| Models.FieldValueLookup | pydent/models.py:658-669 | `Models.FieldValueOf` (`field_value`) is None iff nothing matches. It raises iff two or more match. Otherwise it is the only match. |
| Models.SetFieldValueRejects | pydent/models.py:709-715 | In `Models.SetFieldValue`, a missing or array FieldType raises ModelError and leaves the Operation as it was. |
| Models.SetFieldValueLeavesOne | pydent/models.py:700-728 | `Models.SetFieldValue` past its checks: exactly one FieldValue has that name and role afterwards. It is `set_value` (`Models.SetValue`) applied to the existing match, or to a new FieldValue that is appended, belongs to the Operation and points at the FieldType. The error of that `set_value` is the error returned, and the other FieldValues are unchanged. |
| Models.ApplyValues | pydent/models.py:685-686 | The k-th FieldValue of that name and role gets the k-th arguments. The others are untouched. |
| Models.SetFieldValueArrayRejects | pydent/models.py:673-684 | In `Models.SetFieldValueArray`, when `Models.FieldValueArray` finds no FieldValues to fill (`len(None)`, TypeError) or their count differs from the number of values (ModelError), it raises and changes nothing. |
| Models.SetFieldValueArrayInOrder | pydent/models.py:673-688 | When `Models.SetFieldValueArray` succeeds, the k-th matching FieldValue is set from the k-th values and all others keep their value. |
| AqOperationType.Code | py/aq/models/operation_type.py:11-16 | `OperationTypeRecord.code` returns only one of the record's own codes. |
| AqOperationType.CodeIsOnlyQualifying | py/aq/models/operation_type.py:11-16 | A code returned by `AqOperationType.Code` is one of the codes, has the name and a falsy child id, and is the only such code. None means that no code, or more than one, qualifies. |
| AqOperationType.OlderAndNewerCode | py/aq/models/operation_type.py:11-16 | With plain child ids, the older and newer APIs agree when exactly one code qualifies. When several qualify, the older gives None and the newer the last. When none qualifies, both give None. |
| AqPlan.NewPlan | py/aq/models/plan.py:5-15 | A new plan is named "Untitled Plan", has no id, and has status "planning", with no operations or wires. |
| AqPlan.AddWire | py/aq/models/plan.py:20-25 | One wire from source to destination is appended, and nothing else changes. |
| AqPlan.ToJson | py/aq/models/plan.py:62-70 | The JSON has exactly the six keys. Operations and wires are listed with the same length and order, name, status and `rid` are the plan's, and `layout` is the fixed `{"id": 0, "parent_id": -1, "wires": [], "name": "no name"}`. |
| AqPlan.SavingTwiceRaises | py/aq/models/plan.py:50-52 | `AqPlan.SaveAsWritten`: as written, saving a plan that already has an integer id raises TypeError instead of warning. |
| AqPlan.SaveOnce | py/aq/models/plan.py:40-53 | In `AqPlan.Save`, the corrected `save`, an unsaved plan posts its JSON exactly once. A response with `errors` raises and keeps the id unset. A dict raises the plain `Exception`. For a list or string, `r["errors"]` in the message raises TypeError, and a scalar response makes the `in` test raise TypeError. Otherwise the plan takes the server's id, operations and wires and keeps its name and status. A saved plan is left alone and nothing is posted. |
| AqPlan.SaveIsIdempotent | py/aq/models/plan.py:40-53 | Once a save has given the plan an id, a second save changes nothing and posts nothing. |
| AqPlan.AssignCostIsLastMatch | py/aq/models/plan.py:58-60 | Over well-formed entries, an operation's cost becomes the last entry carrying its id, and stays as it was when none does. |
| AqPlan.EstimateCostByOperationId | py/aq/models/plan.py:55-60 | `AqPlan.EstimateCost` (`estimate_cost`) sets each operation's cost from the entries with its id, touches no other operation, and keeps order and ids. A plan without operations never reads the response. |
| AsyncRequests.Chunkify | pydent/utils/async_requests.py:7-10 | With `n > 0`, the chunks concatenate back to the list. Every chunk but the last is full, the last is non-empty, and there are ceil(len/n) chunks. `n == 0` raises ValueError, and a negative `n` gives `[]`. |
| AsyncRequests.ChunkCount | pydent/utils/async_requests.py:10 | A well-chunked sequence has ceil(len/n) chunks. |

## Left out

- The HTTP transport, login and timeouts (`requests`, sessions) are outside the model. The server is an uninterpreted function from call to response, and login is reduced to the cookie rewrite and the login body.
- `Upload.data` and the other model methods that only call the server are left out.
- Async fan-out (`exec_async_fxn`, `asyncfunc`, `make_async`) is concurrency and is not modelled. Only `chunkify` is.
- Regular-expression and difflib search and pandas export rely on foreign libraries and are not modelled.
- `ModelBase`, the marshaller registry, `filter_list`, `magiclist` and `PlanValidator` are not part of this model. `filter_list` is modelled as an order-preserving attribute-equality filter (`Lists.Filter`), with a missing list read as empty.
- The relation interface the browser's fetch paths use (`ref`, `build_query`, `QUERY_TYPE`) is not defined by the relationship descriptors. `retrieve` is modelled up to its argument checks and its choice between the through-association path and the by-reference path. The two fetch paths are not modelled.
- Python's `True == 1` (and equal hashes) is not modelled: booleans and integers are distinct JSON values.
- Inflection.Underscore: only ASCII letters and digits are classified, as the library's regular expressions do for ASCII input. Non-ASCII capitals are not lower-cased.
- JsonText.LoadsDumps: JSON floats, NaN and Infinity are not JSON values here. `json.loads` of a number with a fraction or an exponent gives no value.
- JsonText.LoadsDumps: a lone surrogate escape is rejected instead of being decoded to a lone surrogate.
- JsonText.LoadsDumps: the key order `json.dumps` writes (a dict's insertion order) is a parameter that depends only on the key set, and the round trip is proved for every such ordering. Two nested dicts with the same keys but different insertion orders are therefore not covered.
- JsonText.SerializeField: `json.dumps` raising TypeError for objects outside JSON cannot happen here, because the values are JSON by construction.
- The `aq.Record` data overlay in `PlanRecord.__init__` (server data on top of the defaults) and the record's association helpers are not modelled. `NewPlan` is a plan with no server data.
- Browser.CachedWhere: the order of the ids sent to the server is unspecified, because the source builds the list from a set. The model states only that each missing id is sent once.
- Browser.CachedWhere, Browser.KeyedById, Browser.KeyedByIdLastWins, Browser.GroupModelsAndUpdateCache: `_primary_key` and `primary_key` are both taken to be the `id` attribute, the source's default.
- Models.NewAllowableFieldType, Models.CreateAllowableFieldType, Models.AddPairings, Models.NewFieldType, Models.CandidatesFit: `AllowableFieldType.__init__` sets both ids to None and then calls `set_model_attribute`, which belongs to `ModelBase`. The model assumes that call copies the given sample type's and object type's ids into `sample_type_id` and `object_type_id`. Filtering candidates by `sample_type_id` relies on this assumption.
- AqPlan.EstimateCost, AqPlan.EstimateCostByOperationId: the request `post('/launcher/estimate', {"id": self.id})` is sent every time, even for a plan without operations. The model takes the server's response as a parameter and does not model the request or its failures.
- Browser.UpdateModelCacheHelper: `vars(cached).update(vars(model))` is modelled as overwriting the cached model's attribute map, keeping its id.
- Models.SetValueSelectsAllowableFieldType: errors from binding `set_value(**val)` keyword arguments are not modelled. The values are already split into value, sample, item and container.
- `find_field_parent`, `add_to_field_value_array`, `choose_item` and the other `Operation` conveniences that only forward to the modelled setters are left out.
- `update_cache` (which flattens nested models through `ModelBase`) and `cached_find` are left out. Both feed the modelled cache merge.
- `PlanRecord.submit` and `show` only print or call the server, and are left out.
- Logging and `warnings.warn` are represented only by the `warned` flag of `set_value`.

## Findings

| source | as written | input that shows it | evidently intended | confidence | as-written member | corrected member |
|---|---|---|---|---|---|---|
| py/aq/models/plan.py:51 | `"WARNING: Plan " + self.id + ...` concatenates a string with the plan id | a plan whose id is the integer 42 that the server assigned: the second `save` raises TypeError | print the warning with `str(self.id)` and return the plan unchanged | not executed | AqPlan.SavingTwiceRaises | AqPlan.SaveOnce |

=== FILE: aq_operation_type.dfy ===
/**
 * `OperationTypeRecord.code` of the older `aq` API
 * (`py/aq/models/operation_type.py`), and how it relates to
 * `HasCodeMixin.code` of `pydent/models.py`: the older one accepts a code
 * only when exactly one qualifies, the newer one takes the last.
 */
module AqOperationType {
  import opened Wrappers
  import opened JsonValue
  import opened Lists
  import Models

  /** A code record of the older API, whose `child_id` comes from the server's JSON. */
  datatype CodeRecord = CodeRecord(name: string, childId: Json)

  /** `not code.child_id and code.name == name`. */
  function Qualifies(name: string): CodeRecord -> bool
  {
    (c: CodeRecord) => !Truthy(c.childId) && c.name == name
  }

  /** `OperationTypeRecord.code`. */
  function Code(codes: seq<CodeRecord>, name: string): (r: Option<CodeRecord>)
    ensures r.Some? ==> r.value in codes
  {
    var latest := Filter(codes, Qualifies(name));
    if |latest| == 1 then Some(latest[0]) else None
  }

  /**
   * A returned code is one of the codes, has the name and a falsy child id,
   * and is the only such code; None means no code or several codes qualify.
   */
  lemma CodeIsOnlyQualifying(codes: seq<CodeRecord>, name: string)
    ensures Code(codes, name).Some? ==>
      Code(codes, name).value in codes &&
      Code(codes, name).value.name == name && !Truthy(Code(codes, name).value.childId) &&
      exists i :: OnlyMatch(codes, Qualifies(name), i) && Code(codes, name).value == codes[i]
    ensures Code(codes, name).None? <==>
      (forall i :: 0 <= i < |codes| ==> !Qualifies(name)(codes[i])) || TwoMatches(codes, Qualifies(name))
  {
    FilterEmpty(codes, Qualifies(name));
    FilterTwo(codes, Qualifies(name));
    if |Filter(codes, Qualifies(name))| == 1 {
      FilterOne(codes, Qualifies(name));
    }
  }

  /**
   * A server child id the newer API can read: None or a non-zero integer.
   * For these, "falsy" and "is None" agree.
   */
  predicate PlainChildId(j: Json)
  {
    j.JNull? || (j.JInt? && j.i != 0)
  }

  /** The newer API's view of a code record. */
  function AsCode(c: CodeRecord): Models.Code
    requires PlainChildId(c.childId)
  {
    Models.Code(c.name, Some(if c.childId.JInt? then Some(c.childId.i) else None))
  }

  function AsCodes(codes: seq<CodeRecord>): (r: seq<Models.Code>)
    requires forall i :: 0 <= i < |codes| ==> PlainChildId(codes[i].childId)
    ensures |r| == |codes|
    ensures forall i :: 0 <= i < |codes| ==> r[i] == AsCode(codes[i])
  {
    seq(|codes|, i requires 0 <= i < |codes| => AsCode(codes[i]))
  }

  /**
   * With plain child ids both APIs agree when exactly one code qualifies;
   * when several qualify the older API gives None and the newer one the
   * last of them; when none qualifies both give None.
   */
  lemma OlderAndNewerCode(codes: seq<CodeRecord>, name: string)
    requires forall i :: 0 <= i < |codes| ==> PlainChildId(codes[i].childId)
    ensures var newer := Models.LatestCode(Some(AsCodes(codes)), name);
      && (Code(codes, name).Some? ==> newer == Some(AsCode(Code(codes, name).value)))
      && (TwoMatches(codes, Qualifies(name)) ==>
            Code(codes, name).None? && newer.Some? &&
            exists i :: LastMatch(codes, Qualifies(name), i) && newer.value == AsCode(codes[i]))
      && ((forall i :: 0 <= i < |codes| ==> !Qualifies(name)(codes[i])) ==>
            Code(codes, name).None? && newer.None?)
  {
    var newer := Models.LatestCode(Some(AsCodes(codes)), name);
    if Code(codes, name).Some? {
      OnlyCodeAgrees(codes, name);
    }
    if TwoMatches(codes, Qualifies(name)) {
      SeveralCodesLatest(codes, name);
    }
    if forall i :: 0 <= i < |codes| ==> !Qualifies(name)(codes[i]) {
      CodeIsOnlyQualifying(codes, name);
      QualifiesSelectable(codes, name);
      Models.LatestCodeIsLast(Some(AsCodes(codes)), name);
    }
  }

  /** A code qualifies for the older API iff its converted code is selectable for the newer one. */
  lemma QualifiesSelectable(codes: seq<CodeRecord>, name: string)
    requires forall i :: 0 <= i < |codes| ==> PlainChildId(codes[i].childId)
    ensures forall i :: 0 <= i < |codes| ==>
      (Qualifies(name)(codes[i]) <==> Models.Selectable(name)(AsCodes(codes)[i]))
  {
  }

  /** When exactly one code qualifies, the newer API returns it too. */
  lemma OnlyCodeAgrees(codes: seq<CodeRecord>, name: string)
    requires forall i :: 0 <= i < |codes| ==> PlainChildId(codes[i].childId)
    requires Code(codes, name).Some?
    ensures Models.LatestCode(Some(AsCodes(codes)), name) == Some(AsCode(Code(codes, name).value))
  {
    var cs := AsCodes(codes);
    var p := Qualifies(name);
    var q := Models.Selectable(name);
    QualifiesSelectable(codes, name);
    CodeIsOnlyQualifying(codes, name);
    Models.LatestCodeIsLast(Some(cs), name);
    var newer := Models.LatestCode(Some(cs), name);
    var i :| OnlyMatch(codes, p, i) && Code(codes, name).value == codes[i];
    assert q(cs[i]);
    var k :| LastMatch(cs, q, k) && newer.value == cs[k];
    assert k == i;
  }

  /** When several codes qualify, the older API gives None and the newer one the last of them. */
  lemma SeveralCodesLatest(codes: seq<CodeRecord>, name: string)
    requires forall i :: 0 <= i < |codes| ==> PlainChildId(codes[i].childId)
    requires TwoMatches(codes, Qualifies(name))
    ensures Code(codes, name).None?
    ensures var newer := Models.LatestCode(Some(AsCodes(codes)), name);
      newer.Some? && exists i :: LastMatch(codes, Qualifies(name), i) && newer.value == AsCode(codes[i])
  {
    var cs := AsCodes(codes);
    var p := Qualifies(name);
    var q := Models.Selectable(name);
    QualifiesSelectable(codes, name);
    CodeIsOnlyQualifying(codes, name);
    Models.LatestCodeIsLast(Some(cs), name);
    var newer := Models.LatestCode(Some(cs), name);
    var i, j :| 0 <= i < j < |codes| && p(codes[i]) && p(codes[j]);
    assert q(cs[i]);
    var k :| LastMatch(cs, q, k) && newer.value == cs[k];
    assert LastMatch(codes, p, k);
  }
}

=== FILE: aq_plan.dfy ===
/**
 * `PlanRecord` of the older `aq` API (`py/aq/models/plan.py`): a new plan's
 * defaults, wiring, the save-once state machine against an abstract server
 * response, cost assignment by operation id, and the JSON sent to the
 * server. Records of this API wrap the server's JSON, so ids, wire ends and
 * costs are `Json` values.
 */
module AqPlan {
  import opened Wrappers
  import opened JsonValue
  import opened Lists
  import AqHttp

  datatype PlanOperation = PlanOperation(id: Json, cost: Option<Json>)

  datatype Wire = Wire(source: Json, destination: Json)

  datatype Plan = Plan(
    name: string,
    id: Json,
    status: string,
    rid: int,
    operations: seq<PlanOperation>,
    wires: seq<Wire>)

  const UntitledPlan := "Untitled Plan"
  const Planning := "planning"

  /** `PlanRecord.__init__` with no server data on top of the defaults. */
  function NewPlan(rid: int): (p: Plan)
    ensures p.name == UntitledPlan && p.id == JNull && p.status == Planning
    ensures !Truthy(p.id) && p.operations == [] && p.wires == []
  {
    Plan(UntitledPlan, JNull, Planning, rid, [], [])
  }

  /** `PlanRecord.wire`: one new wire from `source` to `destination` at the end. */
  function AddWire(plan: Plan, source: Json, destination: Json): (r: Plan)
    ensures |r.wires| == |plan.wires| + 1
    ensures r.wires[..|plan.wires|] == plan.wires
    ensures r.wires[|plan.wires|].source == source && r.wires[|plan.wires|].destination == destination
    ensures r == plan.(wires := r.wires)
  {
    plan.(wires := plan.wires + [Wire(source, destination)])
  }

  // ---------------------------------------------------------------- to_json

  /** The fixed `layout` entry of a plan's JSON. */
  const Layout: Json := JObj(map[
    "id" := JInt(0), "parent_id" := JInt(-1), "wires" := JArr([]), "name" := JStr("no name")])

  /**
   * `PlanRecord.to_json`, given how operations and wires turn themselves
   * into JSON (their own `to_json`, which is not part of this model).
   */
  function ToJson(plan: Plan, operationJson: PlanOperation -> Json, wireJson: Wire -> Json): (j: Json)
    ensures j.JObj? && j.fields.Keys == {"name", "operations", "wires", "rid", "layout", "status"}
    ensures j.fields["name"] == JStr(plan.name) && j.fields["status"] == JStr(plan.status)
    ensures j.fields["operations"].JArr? && |j.fields["operations"].items| == |plan.operations|
    ensures forall i :: 0 <= i < |plan.operations| ==>
      j.fields["operations"].items[i] == operationJson(plan.operations[i])
    ensures j.fields["wires"].JArr? && |j.fields["wires"].items| == |plan.wires|
    ensures forall i :: 0 <= i < |plan.wires| ==> j.fields["wires"].items[i] == wireJson(plan.wires[i])
    ensures j.fields["rid"] == JInt(plan.rid)
    ensures j.fields["layout"] ==
      JObj(map["id" := JInt(0), "parent_id" := JInt(-1), "wires" := JArr([]), "name" := JStr("no name")])
  {
    JObj(map[
      "name" := JStr(plan.name),
      "operations" := JArr(seq(|plan.operations|, i requires 0 <= i < |plan.operations| =>
                                 operationJson(plan.operations[i]))),
      "wires" := JArr(seq(|plan.wires|, i requires 0 <= i < |plan.wires| => wireJson(plan.wires[i]))),
      "rid" := JInt(plan.rid),
      "layout" := Layout,
      "status" := JStr(plan.status)])
  }

  // ------------------------------------------------------------------- save

  /** The server's view of a saved plan: `aq.Plan.record(r)`, which is not part of this model. */
  datatype SavedPlan = SavedPlan(id: Json, operations: seq<PlanOperation>, wires: seq<Wire>)

  /** What `save` leaves behind: the plan, the body it posted (if any), the error it raised. */
  datatype SaveOutcome = SaveOutcome(plan: Plan, posted: Option<Json>, error: Option<Error>)

  /** The first branch of `save`: post the plan and adopt the server's copy. */
  function SaveNew(plan: Plan, body: Json, response: Json, record: Json -> SavedPlan): SaveOutcome
  {
    match AqHttp.ErrorsIn(response)
    case Failure(e) => SaveOutcome(plan, Some(body), Some(e))
    case Success(flagged) =>
      if flagged then SaveOutcome(plan, Some(body), Some(AqHttp.FlaggedError(response, GenericException)))
      else
        var saved := record(response);
        SaveOutcome(plan.(id := saved.id, operations := saved.operations, wires := saved.wires), Some(body), None)
  }

  /**
   * `PlanRecord.save` as written. An already-saved plan takes the `else`
   * branch, whose warning concatenates `"WARNING: Plan "` with the id: that
   * raises `TypeError` unless the id is a string.
   */
  function SaveAsWritten(plan: Plan, server: Json -> Json, record: Json -> SavedPlan,
                         operationJson: PlanOperation -> Json, wireJson: Wire -> Json): SaveOutcome
  {
    if !Truthy(plan.id) then
      var body := ToJson(plan, operationJson, wireJson);
      SaveNew(plan, body, server(body), record)
    else if plan.id.JStr? then SaveOutcome(plan, None, None)
    else SaveOutcome(plan, None, Some(TypeError))
  }

  /** The integer id the server assigns makes a second `save` raise instead of warning. */
  lemma SavingTwiceRaises(plan: Plan, server: Json -> Json, record: Json -> SavedPlan,
                          operationJson: PlanOperation -> Json, wireJson: Wire -> Json)
    requires plan.id == JInt(42)
    ensures SaveAsWritten(plan, server, record, operationJson, wireJson) == SaveOutcome(plan, None, Some(TypeError))
  {
  }

  /**
   * `PlanRecord.save` as evidently intended: an already-saved plan only
   * warns. This is the definition the rest of the model uses.
   */
  function Save(plan: Plan, server: Json -> Json, record: Json -> SavedPlan,
                operationJson: PlanOperation -> Json, wireJson: Wire -> Json): SaveOutcome
  {
    if !Truthy(plan.id) then
      var body := ToJson(plan, operationJson, wireJson);
      SaveNew(plan, body, server(body), record)
    else SaveOutcome(plan, None, None)
  }

  /**
   * `save` posts an unsaved plan's JSON exactly once. A response with
   * `errors` raises and the plan keeps its unset id: a dict raises the
   * plain `Exception`, while a list or string fails on `r["errors"]` with
   * `TypeError`, as does a scalar on the `in` test. Otherwise the plan
   * takes id, operations and wires from the server's record and keeps its
   * name and status. A saved plan is left alone and nothing is posted.
   */
  lemma SaveOnce(plan: Plan, server: Json -> Json, record: Json -> SavedPlan,
                 operationJson: PlanOperation -> Json, wireJson: Wire -> Json)
    ensures var out := Save(plan, server, record, operationJson, wireJson);
      var body := ToJson(plan, operationJson, wireJson);
      && (!Truthy(plan.id) ==> out.posted == Some(body))
      && (!Truthy(plan.id) && AqHttp.ErrorsIn(server(body)) != Success(false) ==>
            out.plan == plan && !Truthy(out.plan.id))
      && (!Truthy(plan.id) && server(body).JObj? && "errors" in server(body).fields ==>
            out.error == Some(GenericException))
      && (!Truthy(plan.id) && !server(body).JObj? && AqHttp.ErrorsIn(server(body)) != Success(false) ==>
            out.error == Some(TypeError))
      && (!Truthy(plan.id) && AqHttp.ErrorsIn(server(body)) == Success(false) ==>
            out.error.None? &&
            out.plan.id == record(server(body)).id &&
            out.plan.operations == record(server(body)).operations &&
            out.plan.wires == record(server(body)).wires &&
            out.plan.name == plan.name && out.plan.status == plan.status)
      && (Truthy(plan.id) ==> out == SaveOutcome(plan, None, None))
  {
  }

  /** A plan saved once is left alone by a second save, whatever the server would say. */
  lemma SaveIsIdempotent(plan: Plan, server: Json -> Json, record: Json -> SavedPlan,
                         operationJson: PlanOperation -> Json, wireJson: Wire -> Json)
    requires Truthy(record(server(ToJson(plan, operationJson, wireJson))).id)
    ensures var first := Save(plan, server, record, operationJson, wireJson);
      first.error.None? ==>
        Save(first.plan, server, record, operationJson, wireJson) == SaveOutcome(first.plan, None, None)
  {
  }

  // ---------------------------------------------------------- estimate_cost

  /** `r["costs"]` iterated: a list gives its items; anything else raises or cannot be iterated usefully. */
  function CostEntries(response: Json): Result<seq<Json>>
  {
    if !response.JObj? then Failure(TypeError)
    else if "costs" !in response.fields then Failure(KeyError)
    else match response.fields["costs"]
      case JArr(items) => Success(items)
      // iterating a dict yields its keys and a string its characters, and
      // `c["id"]` on a string raises; only an empty one gets through
      case JObj(m) => if m == map[] then Success([]) else Failure(TypeError)
      case JStr(s) => if s == "" then Success([]) else Failure(TypeError)
      case _ => Failure(TypeError)
  }

  /** `c["id"]` on one cost entry. */
  function CostId(c: Json): Result<Json>
  {
    if !c.JObj? then Failure(TypeError)
    else if "id" !in c.fields then Failure(KeyError)
    else Success(c.fields["id"])
  }

  /** The inner loop: every entry whose id equals the operation's overwrites its cost. */
  function AssignCost(op: PlanOperation, costs: seq<Json>): (PlanOperation, Option<Error>)
    decreases |costs|
  {
    if costs == [] then (op, None)
    else match CostId(costs[0])
      case Failure(e) => (op, Some(e))
      case Success(id) =>
        AssignCost(if id == op.id then op.(cost := Some(costs[0])) else op, costs[1..])
  }

  /** The outer loop over the plan's operations; `r["costs"]` is read once per operation. */
  function AssignCosts(ops: seq<PlanOperation>, costs: Result<seq<Json>>): (r: (seq<PlanOperation>, Option<Error>))
    ensures |r.0| == |ops|
    ensures forall i :: 0 <= i < |ops| ==> r.0[i].id == ops[i].id
    decreases |ops|
  {
    if ops == [] then ([], None)
    else if costs.Failure? then (ops, Some(costs.error))
    else
      var (op, e) := AssignCost(ops[0], costs.value);
      AssignCostKeepsId(ops[0], costs.value);
      if e.Some? then ([op] + ops[1..], e)
      else
        var (rest, e2) := AssignCosts(ops[1..], costs);
        ([op] + rest, e2)
  }

  lemma {:induction false} AssignCostKeepsId(op: PlanOperation, costs: seq<Json>)
    ensures AssignCost(op, costs).0.id == op.id
    decreases |costs|
  {
    if costs != [] && CostId(costs[0]).Success? {
      var id := CostId(costs[0]).value;
      AssignCostKeepsId(if id == op.id then op.(cost := Some(costs[0])) else op, costs[1..]);
    }
  }

  /**
   * `PlanRecord.estimate_cost` given the server's response to the estimate
   * request. An error part-way leaves the earlier assignments in place.
   */
  function EstimateCost(plan: Plan, response: Json): (Plan, Option<Error>)
  {
    var (ops, e) := AssignCosts(plan.operations, CostEntries(response));
    (plan.(operations := ops), e)
  }

  /** A well-formed cost entry: a dict with an `id`. */
  predicate WellFormedCost(c: Json)
  {
    c.JObj? && "id" in c.fields
  }

  /** The cost entry carries the given operation id. */
  function CostOf(id: Json): Json -> bool
  {
    (c: Json) => WellFormedCost(c) && c.fields["id"] == id
  }

  /**
   * Over well-formed entries, an operation ends with the last entry whose
   * id equals its own as its cost, and keeps its cost when there is none.
   */
  lemma {:induction false} AssignCostIsLastMatch(op: PlanOperation, costs: seq<Json>)
    requires forall k :: 0 <= k < |costs| ==> WellFormedCost(costs[k])
    ensures AssignCost(op, costs).1.None?
    ensures (forall k :: 0 <= k < |costs| ==> !CostOf(op.id)(costs[k])) ==> AssignCost(op, costs).0 == op
    ensures forall k :: LastMatch(costs, CostOf(op.id), k) ==> AssignCost(op, costs).0 == op.(cost := Some(costs[k]))
    decreases |costs|
  {
    if costs != [] {
      var next := if CostOf(op.id)(costs[0]) then op.(cost := Some(costs[0])) else op;
      assert next.id == op.id;
      AssignCostIsLastMatch(next, costs[1..]);
      forall k | LastMatch(costs, CostOf(op.id), k)
        ensures AssignCost(op, costs).0 == op.(cost := Some(costs[k]))
      {
        if k > 0 {
          assert LastMatch(costs[1..], CostOf(op.id), k - 1);
        } else {
          assert forall j :: 0 <= j < |costs[1..]| ==> !CostOf(op.id)(costs[1..][j]) by {
            forall j | 0 <= j < |costs[1..]| ensures !CostOf(op.id)(costs[1..][j]) {
              assert costs[1..][j] == costs[j + 1];
            }
          }
        }
      }
      if forall k :: 0 <= k < |costs| ==> !CostOf(op.id)(costs[k]) {
        assert forall j :: 0 <= j < |costs[1..]| ==> !CostOf(op.id)(costs[1..][j]) by {
          forall j | 0 <= j < |costs[1..]| ensures !CostOf(op.id)(costs[1..][j]) {
            assert costs[1..][j] == costs[j + 1];
          }
        }
      }
    }
  }

  /**
   * `estimate_cost` with a well-formed response sets each operation's cost
   * to the last entry carrying its id, touches no operation without one,
   * and keeps the operations' order and ids. A plan without operations
   * never inspects the response.
   */
  lemma EstimateCostByOperationId(plan: Plan, response: Json)
    ensures plan.operations == [] ==> EstimateCost(plan, response) == (plan, None)
    ensures CostEntries(response).Success? &&
            (forall k :: 0 <= k < |CostEntries(response).value| ==> WellFormedCost(CostEntries(response).value[k])) ==>
      var costs := CostEntries(response).value;
      var (after, e) := EstimateCost(plan, response);
      && e.None?
      && after == plan.(operations := after.operations)
      && |after.operations| == |plan.operations|
      && forall i :: 0 <= i < |plan.operations| ==>
           var op := plan.operations[i];
           && after.operations[i].id == op.id
           && ((forall k :: 0 <= k < |costs| ==> !CostOf(op.id)(costs[k])) ==> after.operations[i] == op)
           && (forall k :: LastMatch(costs, CostOf(op.id), k) ==> after.operations[i] == op.(cost := Some(costs[k])))
  {
    if CostEntries(response).Success? &&
       (forall k :: 0 <= k < |CostEntries(response).value| ==> WellFormedCost(CostEntries(response).value[k])) {
      AssignCostsEach(plan.operations, CostEntries(response).value);
    }
  }

  lemma {:induction false} AssignCostsEach(ops: seq<PlanOperation>, costs: seq<Json>)
    requires forall k :: 0 <= k < |costs| ==> WellFormedCost(costs[k])
    ensures AssignCosts(ops, Success(costs)).1.None?
    ensures forall i :: 0 <= i < |ops| ==> AssignCosts(ops, Success(costs)).0[i] == AssignCost(ops[i], costs).0
    ensures forall i :: 0 <= i < |ops| ==>
      ((forall k :: 0 <= k < |costs| ==> !CostOf(ops[i].id)(costs[k])) ==> AssignCost(ops[i], costs).0 == ops[i]) &&
      (forall k :: LastMatch(costs, CostOf(ops[i].id), k) ==> AssignCost(ops[i], costs).0 == ops[i].(cost := Some(costs[k])))
    decreases |ops|
  {
    if ops != [] {
      AssignCostIsLastMatch(ops[0], costs);
      AssignCostsEach(ops[1..], costs);
      forall i | 0 <= i < |ops|
        ensures AssignCosts(ops, Success(costs)).0[i] == AssignCost(ops[i], costs).0
      {
        if i > 0 {
          assert ops[1..][i - 1] == ops[i];
        }
      }
      forall i | 0 <= i < |ops|
        ensures ((forall k :: 0 <= k < |costs| ==> !CostOf(ops[i].id)(costs[k])) ==> AssignCost(ops[i], costs).0 == ops[i])
        ensures (forall k :: LastMatch(costs, CostOf(ops[i].id), k) ==> AssignCost(ops[i], costs).0 == ops[i].(cost := Some(costs[k])))
      {
        AssignCostIsLastMatch(ops[i], costs);
      }
    }
  }
}

=== FILE: aqhttp.dfy ===
/**
 * The HTTP wrapper `AqHTTP`: the login cookie fix-up, the outgoing-body null
 * guard, the `errors` check on responses, and the opt-in request history.
 * The server is an uninterpreted function from the call it receives to the
 * response it gives.
 */
module AqHttp {
  import opened Wrappers
  import opened JsonValue
  import opened Strings

  const RememberToken: string := "remember_token"

  // ---------------------------------------------------------------------------
  // Cookie fix-up

  /** `re.match('remember_token', part.split('=')[0])`: anchored, no space skipping. */
  predicate Qualifies(part: string) {
    StartsWith(Head(part, '='), RememberToken)
  }

  /** `part.split('=')[1]`, the text between the first and the second `=`. */
  function TokenOf(part: string): string {
    var cparts := Split(part, '=');
    if |cparts| >= 2 then cparts[1] else ""
  }

  /** Every qualifying segment has an `=`, so `cparts[1]` exists for each. */
  predicate TokensPresent(parts: seq<string>) {
    forall i :: 0 <= i < |parts| && Qualifies(parts[i]) ==> |Split(parts[i], '=')| >= 2
  }

  /** The token of the last qualifying segment, or "" when none qualifies. */
  function LastToken(parts: seq<string>): string
    decreases |parts|
  {
    if |parts| == 0 then ""
    else if Qualifies(parts[|parts| - 1]) then TokenOf(parts[|parts| - 1])
    else LastToken(parts[..|parts| - 1])
  }

  /**
   * `fix_remember_token`: scans the `;`-segments of a `set-cookie` header and
   * prepends `remember_token=<tok>; ` to the unchanged header. A qualifying
   * segment without `=` makes `cparts[1]` raise `IndexError`.
   */
  method FixRememberToken(header: string) returns (r: Result<string>)
    ensures r.Success? <==> TokensPresent(Split(header, ';'))
    ensures r.Success? ==> r.value == RememberToken + "=" + LastToken(Split(header, ';')) + "; " + header
    ensures r.Success? ==> EndsWith(r.value, "; " + header)
    ensures r.Failure? ==> r.error == IndexError
  {
    var parts := Split(header, ';');
    var rtok := "";
    var i := 0;
    while i < |parts|
      invariant 0 <= i <= |parts|
      invariant rtok == LastToken(parts[..i])
      invariant TokensPresent(parts[..i])
    {
      var cparts := Split(parts[i], '=');
      assert parts[..i + 1][..i] == parts[..i];
      if StartsWith(cparts[0], RememberToken) {
        if |cparts| < 2 {
          assert !TokensPresent(parts) by {
            assert Qualifies(parts[i]);
          }
          return Failure(IndexError);
        }
        rtok := cparts[1];
      }
      i := i + 1;
    }
    assert parts[..i] == parts;
    var fixed := RememberToken + "=" + rtok + "; " + header;
    assert fixed == (RememberToken + "=" + rtok) + ("; " + header);
    r := Success(fixed);
  }

  /** The token is the one of the last qualifying segment... */
  lemma {:induction false} LastTokenIsLastQualifying(parts: seq<string>, i: int)
    requires 0 <= i < |parts| && Qualifies(parts[i])
    requires forall j :: i < j < |parts| ==> !Qualifies(parts[j])
    ensures LastToken(parts) == TokenOf(parts[i])
    decreases |parts|
  {
    if i < |parts| - 1 {
      var front := parts[..|parts| - 1];
      assert forall j :: i < j < |front| ==> front[j] == parts[j];
      LastTokenIsLastQualifying(front, i);
    }
  }

  /** ...and "" when no segment qualifies. */
  lemma {:induction false} LastTokenWithoutQualifying(parts: seq<string>)
    requires forall j :: 0 <= j < |parts| ==> !Qualifies(parts[j])
    ensures LastToken(parts) == ""
    decreases |parts|
  {
    if |parts| > 0 {
      var front := parts[..|parts| - 1];
      assert forall j :: 0 <= j < |front| ==> front[j] == parts[j];
      LastTokenWithoutQualifying(front);
    }
  }

  /** Splitting at a first separator peels off the text before it. */
  lemma {:induction false} SplitAtFirst(x: string, y: string, sep: char)
    requires sep !in x
    ensures Split(x + [sep] + y, sep) == [x] + Split(y, sep)
    decreases |x|
  {
    var s := x + [sep] + y;
    if |x| == 0 {
      assert s[1..] == y;
    } else {
      assert s[1..] == x[1..] + [sep] + y;
      SplitAtFirst(x[1..], y, sep);
      assert [x[0]] + x[1..] == x;
    }
  }

  /** A token value that itself contains `=` is cut at that `=`. */
  lemma TokenTruncatedAtEquals(value: string, rest: string)
    requires '=' !in value
    ensures Qualifies(RememberToken + "=" + value + "=" + rest)
    ensures TokenOf(RememberToken + "=" + value + "=" + rest) == value
  {
    var part := RememberToken + "=" + value + "=" + rest;
    SplitAtFirst(RememberToken, value + "=" + rest, '=');
    assert part == RememberToken + ['='] + (value + "=" + rest);
    SplitAtFirst(value, rest, '=');
    assert value + "=" + rest == value + ['='] + rest;
  }

  /** A segment with a leading space does not qualify: the match is anchored. */
  lemma LeadingSpaceDoesNotQualify(rest: string)
    ensures !Qualifies(" " + rest)
  {
    var part := " " + rest;
    var h := Head(part, '=');
    assert h[0] == ' ' by {
      assert part == [' '] + rest;
    }
  }

  // ---------------------------------------------------------------------------
  // Login body and the null guard

  /** `create_session_json`: login and password nested under `session`. */
  function CreateSessionJson(login: Json, password: Json): (r: Json)
    ensures r.JObj? && r.fields.Keys == {"session"}
    ensures r.fields["session"] == JObj(map["login" := login, "password" := password])
  {
    JObj(map["session" := JObj(map["login" := login, "password" := password])])
  }

  /**
   * `_disallow_null_in_json`: `None in json_data.values()`. Only top-level
   * values are inspected; a non-dict has no `.values()`.
   */
  function DisallowNullInJson(data: Json): (r: Result<()>)
    ensures data.JObj? ==> (r.Failure? <==> exists k :: k in data.fields && data.fields[k] == JNull)
    ensures data.JObj? && r.Failure? ==> r.error == JsonDataIncomplete
    ensures !data.JObj? ==> r == Failure(AttributeError)
  {
    match data
    case JObj(m) =>
      if JNull in m.Values then Failure(JsonDataIncomplete) else Success(())
    case _ => Failure(AttributeError)
  }

  /** The login body never trips the guard, even with a `None` login: nested nulls are not seen. */
  lemma LoginBodyPassesNullGuard(login: Json, password: Json)
    ensures DisallowNullInJson(CreateSessionJson(login, password)).Success?
  {
    var r := CreateSessionJson(login, password);
    assert r.fields.Values == {r.fields["session"]};
  }

  // ---------------------------------------------------------------------------
  // Responses

  /** What the transport hands back: a body that is not JSON, or a decoded JSON value. */
  datatype Response = NotJson | JsonBody(body: Json)

  /**
   * Python's `"errors" in result_json`: key membership for a dict, element
   * membership for a list, substring test for a string, `TypeError` otherwise.
   */
  function ErrorsIn(j: Json): Result<bool>
  {
    match j
    case JObj(m) => Success("errors" in m)
    case JArr(xs) => Success(JStr("errors") in xs)
    case JStr(s) => Success(Contains(s, "errors"))
    case _ => Failure(TypeError)
  }

  /**
   * `result_json['errors']`, evaluated for the message once `"errors" in
   * result_json` holds: only a dict can be indexed by a string, so a flagged
   * list or string raises `TypeError` before `raised` can be.
   */
  function FlaggedError(j: Json, raised: Error): Error
  {
    if j.JObj? then raised else TypeError
  }

  /** `_request_to_json`: a decoded body is returned unchanged unless it carries `errors`. */
  function RequestToJson(resp: Response): (r: Result<Json>)
    ensures r.Success? ==> resp.JsonBody?
    ensures r.Success? ==> r.value == resp.body
    ensures resp.NotJson? ==> r == Failure(RequestError)
    ensures resp.JsonBody? && resp.body.JObj? ==> (r.Success? <==> "errors" !in resp.body.fields)
    ensures resp.JsonBody? && resp.body.JArr? ==>
      r == (if JStr("errors") in resp.body.items then Failure(TypeError) else Success(resp.body))
    ensures resp.JsonBody? && resp.body.JStr? ==>
      r == (if Contains(resp.body.s, "errors") then Failure(TypeError) else Success(resp.body))
    ensures resp.JsonBody? && (resp.body.JNull? || resp.body.JBool? || resp.body.JInt?) ==> r == Failure(TypeError)
    ensures r == Failure(RequestError) <==> resp.NotJson? || (resp.body.JObj? && "errors" in resp.body.fields)
    ensures r.Failure? ==> r.error == RequestError || r.error == TypeError
  {
    match resp
    case NotJson => Failure(RequestError)
    case JsonBody(body) =>
      var flagged :- ErrorsIn(body);
      if flagged then Failure(FlaggedError(body, RequestError)) else Success(body)
  }

  // ---------------------------------------------------------------------------
  // Requests and the history

  /** `os.path.join(base, path)` for two POSIX components. */
  function PathJoin(base: string, path: string): (r: string)
    ensures EndsWith(r, path)
    ensures StartsWith(path, "/") ==> r == path
  {
    if StartsWith(path, "/") then path
    else if base == [] || base[|base| - 1] == '/' then base + path
    else base + "/" + path
  }

  /** What the server receives: the verb, the full URL and the `json` keyword, if any. */
  datatype Call = Call(verb: string, url: string, json: Option<Json>)

  /** The history key `(url, verb, body)`; a dict body compares without regard to key order, as `sort_keys=True` makes it. */
  datatype HistoryKey = HistoryKey(url: string, verb: string, body: Json)

  /**
   * A connection: the login, the base URL, the request history, and the
   * calls the model has handed to the server so far (an observation only).
   */
  datatype Connection = Connection(
    login: string,
    aquariumUrl: string,
    history: map<HistoryKey, Response>,
    sent: seq<Call>)

  datatype Reply = Reply(conn: Connection, result: Result<Json>)

  /** The history key of a request: a missing `json` keyword counts as `{}`. */
  function KeyOf(conn: Connection, verb: string, path: string, json: Option<Json>): HistoryKey {
    HistoryKey(PathJoin(conn.aquariumUrl, path), verb, if json.Some? then json.value else EmptyObj)
  }

  function CallOf(conn: Connection, verb: string, path: string, json: Option<Json>): Call {
    Call(verb, PathJoin(conn.aquariumUrl, path), json)
  }

  /**
   * `request`: the null guard runs first and only on a `json` body; the
   * history is read only when `fromHistory` holds; every performed request
   * overwrites the history entry of its key, whatever the response.
   */
  function Request(conn: Connection, server: Call -> Response, verb: string, path: string,
                   json: Option<Json>, fromHistory: bool): (r: Reply)
    ensures json.Some? && DisallowNullInJson(json.value).Failure? ==>
              r == Reply(conn, Failure(DisallowNullInJson(json.value).error))
    ensures r.conn.login == conn.login && r.conn.aquariumUrl == conn.aquariumUrl
    ensures r.conn != conn ==>
              && r.conn.history == conn.history[KeyOf(conn, verb, path, json) := server(CallOf(conn, verb, path, json))]
              && r.conn.sent == conn.sent + [CallOf(conn, verb, path, json)]
              && r.result == RequestToJson(server(CallOf(conn, verb, path, json)))
    ensures (json.None? || DisallowNullInJson(json.value).Success?)
              && !(fromHistory && KeyOf(conn, verb, path, json) in conn.history) ==>
              && r.conn.sent == conn.sent + [CallOf(conn, verb, path, json)]
              && r.conn.history == conn.history[KeyOf(conn, verb, path, json) := server(CallOf(conn, verb, path, json))]
              && r.result == RequestToJson(server(CallOf(conn, verb, path, json)))
    ensures fromHistory && (json.None? || DisallowNullInJson(json.value).Success?)
              && KeyOf(conn, verb, path, json) in conn.history ==>
              r == Reply(conn, RequestToJson(conn.history[KeyOf(conn, verb, path, json)]))
  {
    if json.Some? && DisallowNullInJson(json.value).Failure? then
      Reply(conn, Failure(DisallowNullInJson(json.value).error))
    else
      var key := KeyOf(conn, verb, path, json);
      if fromHistory && key in conn.history then
        Reply(conn, RequestToJson(conn.history[key]))
      else
        var call := CallOf(conn, verb, path, json);
        var response := server(call);
        Reply(conn.(history := conn.history[key := response], sent := conn.sent + [call]),
              RequestToJson(response))
  }

  /** `post`: always passes a `json` keyword, `None` by default. */
  function Post(conn: Connection, server: Call -> Response, path: string, jsonData: Json, fromHistory: bool): Reply {
    Request(conn, server, "post", path, Some(jsonData), fromHistory)
  }

  /** `put`: always passes a `json` keyword. */
  function Put(conn: Connection, server: Call -> Response, path: string, jsonData: Json, fromHistory: bool): Reply {
    Request(conn, server, "put", path, Some(jsonData), fromHistory)
  }

  /** `get`: never passes a `json` keyword, so the null guard never runs. */
  function Get(conn: Connection, server: Call -> Response, path: string, fromHistory: bool): Reply {
    Request(conn, server, "get", path, None, fromHistory)
  }

  /** `clear_history`: the history becomes empty and nothing else changes. */
  function ClearHistory(conn: Connection): (r: Connection)
    ensures r.history == map[]
    ensures r.login == conn.login && r.aquariumUrl == conn.aquariumUrl && r.sent == conn.sent
  {
    conn.(history := map[])
  }

  /** A repeated request that may use the history is answered from it, with no new call. */
  lemma HistoryReplay(conn: Connection, server: Call -> Response, verb: string, path: string,
                      json: Option<Json>, fromHistory: bool)
    requires json.None? || DisallowNullInJson(json.value).Success?
    ensures var first := Request(conn, server, verb, path, json, fromHistory);
            var second := Request(first.conn, server, verb, path, json, true);
            second.conn == first.conn && second.result == first.result
  {
  }

  /** A `post` without data sends `json=None`, which has no `.values()`: it raises before any call. */
  lemma PostWithoutDataRaises(conn: Connection, server: Call -> Response, path: string, fromHistory: bool)
    ensures Post(conn, server, path, JNull, fromHistory) == Reply(conn, Failure(AttributeError))
  {
  }

  /** A `get` never trips the null guard: it always reaches the history or the server. */
  lemma GetSkipsNullGuard(conn: Connection, server: Call -> Response, path: string, fromHistory: bool)
    ensures var r := Get(conn, server, path, fromHistory);
            r.result == RequestToJson(
              if fromHistory && KeyOf(conn, "get", path, None) in conn.history
              then conn.history[KeyOf(conn, "get", path, None)]
              else server(CallOf(conn, "get", path, None)))
  {
  }
}

=== FILE: async_requests.dfy ===
/**
 * `chunkify` of `pydent/utils/async_requests.py`: the list comprehension
 * `[l[i:i + n] for i in range(0, len(l), n)]`. A zero step makes `range`
 * raise `ValueError`; a negative step gives an empty range.
 */
module AsyncRequests {
  import opened Wrappers

  /** `itertools.chain(*chunks)`. */
  function Flatten<T>(chunks: seq<seq<T>>): seq<T>
    decreases |chunks|
  {
    if chunks == [] then [] else Flatten(chunks[..|chunks| - 1]) + chunks[|chunks| - 1]
  }

  /** Every chunk holds exactly `n` elements. */
  predicate AllFull<T>(chunks: seq<seq<T>>, n: int)
  {
    forall k :: 0 <= k < |chunks| ==> |chunks[k]| == n
  }

  /**
   * The shape `chunkify` promises: every chunk but the last is full, and the
   * last one is non-empty and at most full.
   */
  predicate WellChunked<T>(chunks: seq<seq<T>>, n: int)
  {
    chunks != [] ==>
      AllFull(chunks[..|chunks| - 1], n) && 0 < |chunks[|chunks| - 1]| <= n
  }

  /** Chunks of exactly `n` elements flatten to `n` elements each. */
  lemma {:induction false} FullChunksLength<T>(chunks: seq<seq<T>>, n: int)
    requires AllFull(chunks, n)
    ensures |Flatten(chunks)| == |chunks| * n
    decreases |chunks|
  {
    if chunks != [] {
      var front := chunks[..|chunks| - 1];
      assert AllFull(front, n) by {
        forall k | 0 <= k < |front| ensures |front[k]| == n {
          assert front[k] == chunks[k];
        }
      }
      FullChunksLength(front, n);
    }
  }

  /** `a * n < b * n` with a positive `n` orders the factors. */
  lemma MulCancel(a: int, b: int, n: int)
    requires n > 0 && a * n < b * n
    ensures a < b
  {
    assert (b - a) * n == b * n - a * n;
  }

  /** `count` with `(count - 1) * n < len <= count * n` is the ceiling of `len / n`. */
  lemma CeilingDivision(len: int, n: int, count: int)
    requires n > 0 && (count - 1) * n < len <= count * n
    ensures count == (len + n - 1) / n
  {
    var q := (len + n - 1) / n;
    assert q * n <= len + n - 1 < q * n + n;
    assert (count - 1) * n + n == count * n;
    assert (q + 1) * n == q * n + n;
    assert (count + 1) * n == count * n + n;
    MulCancel(count, q + 1, n);
    MulCancel(q, count + 1, n);
  }

  /** The number of chunks of a well-chunked sequence is the ceiling of `len / n`. */
  lemma ChunkCount<T>(chunks: seq<seq<T>>, n: int)
    requires n > 0 && chunks != [] && WellChunked(chunks, n)
    ensures |chunks| == (|Flatten(chunks)| + n - 1) / n
  {
    var count := |chunks|;
    var front := chunks[..count - 1];
    assert Flatten(chunks) == Flatten(front) + chunks[count - 1];
    FullChunksLength(front, n);
    var full := |front| * n;
    var len := full + |chunks[count - 1]|;
    assert |Flatten(chunks)| == len;
    assert full == (count - 1) * n;
    assert (count - 1) * n + n == count * n;
    CeilingDivision(len, n, count);
  }

  /** Appending one chunk appends its elements. */
  lemma FlattenSnoc<T>(chunks: seq<seq<T>>, c: seq<T>)
    ensures Flatten(chunks + [c]) == Flatten(chunks) + c
  {
    assert (chunks + [c])[..|chunks|] == chunks;
  }

  /**
   * `chunkify(l, n)`: the chunks put back together give `l`, every chunk
   * but the last holds `n` elements, and there are ceil(len(l) / n) of them.
   */
  method Chunkify<T>(l: seq<T>, n: int) returns (r: Result<seq<seq<T>>>)
    ensures n == 0 <==> r.Failure?
    ensures r.Failure? ==> r.error == ValueError
    ensures n < 0 ==> r == Success([])
    ensures n > 0 ==> r.Success? && Flatten(r.value) == l && WellChunked(r.value, n)
    ensures n > 0 && r.Success? ==> |r.value| == (|l| + n - 1) / n
    ensures l == [] && n != 0 ==> r == Success([])
  {
    if n == 0 {
      return Failure(ValueError);
    }
    if n < 0 {
      return Success([]);
    }
    var chunks: seq<seq<T>> := [];
    var i := 0;
    while i < |l|
      invariant 0 <= i
      invariant i < |l| ==> Flatten(chunks) == l[..i] && AllFull(chunks, n)
      invariant i >= |l| ==> Flatten(chunks) == l
      invariant WellChunked(chunks, n)
      decreases |l| - i
    {
      var end := if i + n < |l| then i + n else |l|;
      var chunk := l[i..end];
      assert l[..end] == l[..i] + chunk;
      FlattenSnoc(chunks, chunk);
      assert (chunks + [chunk])[..|chunks|] == chunks;
      chunks := chunks + [chunk];
      i := i + n;
      if i >= |l| {
        assert l[..end] == l;
      }
    }
    if l != [] {
      ChunkCount(chunks, n);
    }
    r := Success(chunks);
  }
}

=== FILE: browser.dfy ===
/**
 * The model cache of `pydent/browser.py`: matching queries against cached
 * models, merging models into the cache, the cache-first `cached_where`,
 * grouping, the argument checks of `retrieve`, and `clear`.
 *
 * A model is its class name and its attribute dictionary. The cache maps a
 * model class name to an insertion-ordered dictionary from primary key to
 * model. Python updates a cached instance in place, so "the same instance"
 * is the entry at the same key: it keeps its class and position and takes
 * the new attributes.
 */
module Browser {
  import opened Wrappers
  import opened JsonValue
  import opened Lists
  import opened ODict

  datatype Model = Model(cls: string, data: map<string, Json>)

  /** A model's `id`, None when it has none. */
  function Id(m: Model): Json
  {
    if "id" in m.data then m.data["id"] else JNull
  }

  /** Only scalars can be dictionary keys or set elements. */
  predicate Hashable(j: Json)
  {
    !j.JArr? && !j.JObj?
  }

  type Cache = Dict<Json, Model>

  datatype State = State(modelCache: map<string, Cache>, modelListCache: map<string, Json>)

  predicate ValidState(s: State)
  {
    forall c :: c in s.modelCache ==> Valid(s.modelCache[c])
  }

  /** `self.model_cache.get(model, {})`. */
  function CacheOf(s: State, modelName: string): Cache
  {
    if modelName in s.modelCache then s.modelCache[modelName] else []
  }

  /** `Browser.clear`. */
  function Clear(s: State): (r: State)
    ensures r.modelCache == map[] && r.modelListCache == map[]
    ensures ValidState(r)
  {
    State(map[], map[])
  }

  // -------------------------------------------------------------- matching

  /** One query entry accepts a model value: by membership for a list, by equality otherwise. */
  predicate Accepts(queryVal: Json, modelVal: Json)
  {
    if queryVal.JArr? then modelVal in queryVal.items else modelVal == queryVal
  }

  /** Every query key is an attribute of the model and accepts its value. */
  predicate Matches(query: map<string, Json>, data: map<string, Json>)
  {
    forall k :: k in query ==> k in data && Accepts(query[k], data[k])
  }

  /** The model's attributes restricted to the query keys. */
  function Projection(query: map<string, Json>, data: map<string, Json>): map<string, Json>
  {
    map k | k in query && k in data :: data[k]
  }

  /** `Browser._match_query`: None for `False`, else the projection. */
  method MatchQuery(query: map<string, Json>, data: map<string, Json>) returns (r: Option<map<string, Json>>)
    ensures r.Some? <==> Matches(query, data)
    ensures r.Some? ==> r.value.Keys == query.Keys && forall k :: k in query ==> r.value[k] == data[k]
  {
    var keys := query.Keys;
    while keys != {}
      invariant keys <= query.Keys
      invariant forall k :: k in query && k !in keys ==> k in data && Accepts(query[k], data[k])
      decreases keys
    {
      var k :| k in keys;
      if k !in data {
        return None;
      }
      var queryVal := query[k];
      var modelVal := data[k];
      if queryVal.JArr? {
        if modelVal !in queryVal.items {
          return None;
        }
      } else if modelVal != queryVal {
        return None;
      }
      keys := keys - {k};
    }
    return Some(map k | k in query :: data[k]);
  }

  /** The models `_find_matches` keeps: a match whose projection is truthy, i.e. non-empty. */
  predicate Found(query: map<string, Json>, m: Model)
  {
    query != map[] && Matches(query, m.data)
  }

  function IsFound(query: map<string, Json>): Model -> bool
  {
    (m: Model) => Found(query, m)
  }

  /**
   * `Browser._find_matches`: the matching models as a subsequence of the
   * input, in input order, with their projections alongside.
   */
  method FindMatches(query: map<string, Json>, models: seq<Model>)
    returns (found: seq<Model>, projections: seq<map<string, Json>>)
    ensures found == Filter(models, IsFound(query))
    ensures |projections| == |found|
    ensures forall i :: 0 <= i < |found| ==> projections[i] == Projection(query, found[i].data)
  {
    found := [];
    projections := [];
    for i := 0 to |models|
      invariant found == Filter(models[..i], IsFound(query))
      invariant |projections| == |found|
      invariant forall j :: 0 <= j < |found| ==> projections[j] == Projection(query, found[j].data)
    {
      var m := models[i];
      var projection := MatchQuery(query, m.data);
      assert models[..i + 1] == models[..i] + [m];
      FilterSnoc(models[..i], m, IsFound(query));
      MatchFound(query, m, projection);
      if projection.Some? && projection.value != map[] {
        found := found + [m];
        projections := projections + [projection.value];
      }
    }
    assert models[..|models|] == models;
  }

  /** A model is found iff its match is a non-empty projection, which is then its projection. */
  lemma MatchFound(query: map<string, Json>, m: Model, projection: Option<map<string, Json>>)
    requires projection.Some? <==> Matches(query, m.data)
    requires projection.Some? ==>
      projection.value.Keys == query.Keys && forall k :: k in query ==> projection.value[k] == m.data[k]
    ensures projection.Some? && projection.value != map[] <==> Found(query, m)
    ensures projection.Some? ==> projection.value == Projection(query, m.data)
  {
    if projection.Some? && query != map[] {
      var k :| k in query;
      assert k in projection.value;
    }
  }

  /** An empty query's projection is `{}`, which is falsy: nothing is found. */
  lemma EmptyQueryFindsNothing(models: seq<Model>)
    ensures Filter(models, IsFound(map[])) == []
  {
    FilterEmpty(models, IsFound(map[]));
  }

  // ---------------------------------------------------------- cache merge

  /** `vars(cached_model).update(vars(model))`: the cached instance takes the new attributes. */
  function Merge(cached: Model, m: Model): (r: Model)
    ensures r.cls == cached.cls
    ensures r.data.Keys == cached.data.Keys + m.data.Keys
    ensures forall k :: k in m.data ==> r.data[k] == m.data[k]
    ensures forall k :: k in cached.data && k !in m.data ==> r.data[k] == cached.data[k]
  {
    Model(cached.cls, cached.data + m.data)
  }

  /** What the cache entry for a key of the new models ends as. */
  function Merged(before: Cache, k: Json, m: Model): Model
    requires Valid(before)
  {
    if HasKey(before, k) then Merge(Get(before, k), m) else m
  }

  function IsNewKey(before: Cache): Json -> bool
    requires Valid(before)
  {
    (k: Json) => !HasKey(before, k)
  }

  /** The models merged one after the other into a class's cache. */
  function MergeAll(cache: Cache, models: Dict<Json, Model>): (r: Cache)
    requires Valid(cache)
    ensures Valid(r)
    decreases |models|
  {
    if models == [] then cache
    else
      var init := MergeAll(cache, models[..|models| - 1]);
      var (k, m) := models[|models| - 1];
      SetGet(init, k, Merged(init, k, m));
      Set(init, k, Merged(init, k, m))
  }

  /** Dropping a dictionary's last entry leaves a valid dictionary without its key. */
  lemma DropLast<V>(models: Dict<Json, V>)
    requires Valid(models) && models != []
    ensures var n := |models| - 1;
      && Valid(models[..n])
      && Keys(models) == Keys(models[..n]) + [models[n].0]
      && !HasKey(models[..n], models[n].0)
      && forall k :: HasKey(models, k) <==> HasKey(models[..n], k) || k == models[n].0
  {
    var n := |models| - 1;
    var front := models[..n];
    assert Keys(models) == Keys(front) + [models[n].0];
    assert forall i :: 0 <= i < n ==> Keys(front)[i] == Keys(models)[i];
  }

  /** Merging keeps the cached keys in place and appends the new ones in the given order. */
  lemma {:induction false} MergeAllKeys(before: Cache, models: Dict<Json, Model>)
    requires Valid(before) && Valid(models)
    ensures Keys(MergeAll(before, models)) == Keys(before) + Filter(Keys(models), IsNewKey(before))
    ensures forall k :: HasKey(MergeAll(before, models), k) <==> HasKey(before, k) || HasKey(models, k)
    decreases |models|
  {
    if models != [] {
      var n := |models| - 1;
      var (k, m) := models[n];
      DropLast(models);
      MergeAllKeys(before, models[..n]);
      FilterSnoc(Keys(models[..n]), k, IsNewKey(before));
    }
  }

  /** Keys not given keep their models, given keys end merged. */
  lemma MergeAllEntries(before: Cache, models: Dict<Json, Model>)
    requires Valid(before) && Valid(models)
    ensures forall k :: HasKey(before, k) && !HasKey(models, k) ==>
      HasKey(MergeAll(before, models), k) && Get(MergeAll(before, models), k) == Get(before, k)
    ensures forall i :: 0 <= i < |models| ==>
      HasKey(MergeAll(before, models), models[i].0) &&
      Get(MergeAll(before, models), models[i].0) == Merged(before, models[i].0, models[i].1)
  {
    forall k | HasKey(before, k) && !HasKey(models, k)
      ensures HasKey(MergeAll(before, models), k) && Get(MergeAll(before, models), k) == Get(before, k)
    {
      MergeAllKept(before, models, k);
    }
    forall i | 0 <= i < |models|
      ensures HasKey(MergeAll(before, models), models[i].0) &&
        Get(MergeAll(before, models), models[i].0) == Merged(before, models[i].0, models[i].1)
    {
      MergeAllMerged(before, models, i);
    }
  }

  /** A cached key that is not given keeps its model. */
  lemma {:induction false} MergeAllKept(before: Cache, models: Dict<Json, Model>, k: Json)
    requires Valid(before) && Valid(models) && HasKey(before, k) && !HasKey(models, k)
    ensures HasKey(MergeAll(before, models), k) && Get(MergeAll(before, models), k) == Get(before, k)
    decreases |models|
  {
    if models != [] {
      var n := |models| - 1;
      var front := models[..n];
      DropLast(models);
      MergeAllKept(before, front, k);
      var init := MergeAll(before, front);
      assert MergeAll(before, models) == Set(init, models[n].0, Merged(init, models[n].0, models[n].1));
      SetGet(init, models[n].0, Merged(init, models[n].0, models[n].1));
    }
  }

  /** A given key ends holding its cached model merged with the given one. */
  lemma {:induction false} MergeAllMerged(before: Cache, models: Dict<Json, Model>, i: int)
    requires Valid(before) && Valid(models) && 0 <= i < |models|
    ensures HasKey(MergeAll(before, models), models[i].0) &&
      Get(MergeAll(before, models), models[i].0) == Merged(before, models[i].0, models[i].1)
    decreases |models|
  {
    var n := |models| - 1;
    var front := models[..n];
    var (k, m) := models[n];
    DropLast(models);
    var init := MergeAll(before, front);
    assert MergeAll(before, models) == Set(init, k, Merged(init, k, m));
    SetGet(init, k, Merged(init, k, m));
    if i < n {
      assert models[i] == front[i];
      assert Keys(models)[i] != Keys(models)[n];
      MergeAllMerged(before, front, i);
    } else {
      assert !HasKey(front, k);
      MergeAllKeys(before, front);
      if HasKey(before, k) {
        MergeAllKept(before, front, k);
      }
      assert Merged(init, k, m) == Merged(before, k, m);
    }
  }

  /**
   * How a class's cache `after` and the returned list `out` relate to the
   * cache `before` and the given models: the cached keys stay in place and
   * the new ones follow in the given order, keys not given keep their
   * models, and every given key ends merged and is listed in the given order.
   */
  ghost predicate Updated(before: Cache, models: Dict<Json, Model>, after: Cache, out: seq<Model>)
    requires Valid(before)
  {
    && Keys(after) == Keys(before) + Filter(Keys(models), IsNewKey(before))
    && (forall k :: HasKey(before, k) && !HasKey(models, k) ==> HasKey(after, k) && Get(after, k) == Get(before, k))
    && (forall i :: 0 <= i < |models| ==>
          HasKey(after, models[i].0) && Get(after, models[i].0) == Merged(before, models[i].0, models[i].1))
    && |out| == |models|
    && (forall i :: 0 <= i < |models| ==> out[i] == Merged(before, models[i].0, models[i].1))
  }

  /**
   * `Browser._update_model_cache_helper`: a cached model with the same key
   * keeps its place and takes the new attributes, a new model is appended,
   * other entries and other model classes are untouched, and the result
   * lists the merged models in the order of the given dictionary.
   */
  method UpdateModelCacheHelper(s: State, modelName: string, models: Dict<Json, Model>)
    returns (s': State, r: seq<Model>)
    requires ValidState(s) && Valid(models)
    ensures ValidState(s')
    ensures s'.modelListCache == s.modelListCache
    ensures forall c :: c != modelName ==>
      (c in s'.modelCache <==> c in s.modelCache) && CacheOf(s', c) == CacheOf(s, c)
    ensures modelName in s'.modelCache
    ensures Updated(CacheOf(s, modelName), models, s'.modelCache[modelName], r)
  {
    var before := CacheOf(s, modelName);
    var cache := before;
    for i := 0 to |models|
      invariant cache == MergeAll(before, models[..i])
    {
      var (k, m) := models[i];
      var entry := if HasKey(cache, k) then Merge(Get(cache, k), m) else m;
      MergeAllStep(before, models, i);
      cache := Set(cache, k, entry);
    }
    assert models[..|models|] == models;
    MergeAllEntries(before, models);
    r := seq(|models|, j requires 0 <= j < |models| && HasKey(cache, models[j].0) => Get(cache, models[j].0));
    MergeAllUpdated(before, models, r);
    s' := s.(modelCache := s.modelCache[modelName := cache]);
    assert forall c :: c != modelName ==> CacheOf(s', c) == CacheOf(s, c);
  }

  /** Merging one more model sets its key to the merged entry. */
  lemma MergeAllStep(before: Cache, models: Dict<Json, Model>, i: nat)
    requires Valid(before) && i < |models|
    ensures var cache := MergeAll(before, models[..i]);
      var (k, m) := models[i];
      MergeAll(before, models[..i + 1]) ==
        Set(cache, k, if HasKey(cache, k) then Merge(Get(cache, k), m) else m)
  {
    assert models[..i + 1][..i] == models[..i];
  }

  /** The merged cache, and its entries for the given models in their order, are the update. */
  lemma MergeAllUpdated(before: Cache, models: Dict<Json, Model>, out: seq<Model>)
    requires Valid(before) && Valid(models) && |out| == |models|
    requires forall j :: 0 <= j < |models| ==>
      HasKey(MergeAll(before, models), models[j].0) && out[j] == Get(MergeAll(before, models), models[j].0)
    ensures Updated(before, models, MergeAll(before, models), out)
  {
    MergeAllKeys(before, models);
    MergeAllEntries(before, models);
  }

  // --------------------------------------------------------------- keying

  /** The `(id, model)` pairs a `{m.id: m for m in models}` comprehension assigns in order. */
  function IdPairs(ms: seq<Model>): (ps: seq<(Json, Model)>)
    ensures |ps| == |ms|
    ensures forall i :: 0 <= i < |ms| ==> ps[i] == (Id(ms[i]), ms[i])
  {
    seq(|ms|, i requires 0 <= i < |ms| => (Id(ms[i]), ms[i]))
  }

  /**
   * `{m.id: m for m in models}`, the primary key being `id`: a TypeError
   * when some id cannot be hashed. The ids are kept in the order in which
   * they first occur: `IndexOf(IdPairs(ms), k)` is the first model with id `k`.
   */
  function KeyedById(ms: seq<Model>): (r: Result<Dict<Json, Model>>)
    ensures r.Success? <==> forall i :: 0 <= i < |ms| ==> Hashable(Id(ms[i]))
    ensures r.Failure? ==> r.error == TypeError
    ensures r.Success? ==> Valid(r.value)
    ensures r.Success? ==> forall a :: 0 <= a < |r.value| ==> HasKey(IdPairs(ms), r.value[a].0)
    ensures r.Success? ==> forall a, b :: 0 <= a < b < |r.value| ==>
      IndexOf(IdPairs(ms), r.value[a].0) < IndexOf(IdPairs(ms), r.value[b].0)
  {
    if forall i :: 0 <= i < |ms| ==> Hashable(Id(ms[i])) then
      FromPairsOrder(IdPairs(ms));
      Success(FromPairs(IdPairs(ms)))
    else Failure(TypeError)
  }

  /** Keyed by id, the keys are exactly the models' ids. */
  lemma KeyedByIdKeys(ms: seq<Model>)
    requires KeyedById(ms).Success?
    ensures forall k :: HasKey(KeyedById(ms).value, k) <==> exists i :: 0 <= i < |ms| && Id(ms[i]) == k
  {
    var ps := IdPairs(ms);
    assert KeyedById(ms).value == FromPairs(ps);
    FromPairsKeys(ps);
    forall k ensures HasKey(KeyedById(ms).value, k) <==> exists i :: 0 <= i < |ms| && Id(ms[i]) == k {
      if exists i :: 0 <= i < |ms| && Id(ms[i]) == k {
        var i :| 0 <= i < |ms| && Id(ms[i]) == k;
        assert ps[i].0 == k;
      }
    }
  }

  /** Keyed by id, each id holds the last model carrying it. */
  lemma KeyedByIdLastWins(ms: seq<Model>, i: int)
    requires KeyedById(ms).Success? && 0 <= i < |ms|
    requires forall j :: i < j < |ms| ==> Id(ms[j]) != Id(ms[i])
    ensures HasKey(KeyedById(ms).value, Id(ms[i])) && Get(KeyedById(ms).value, Id(ms[i])) == ms[i]
  {
    var ps := IdPairs(ms);
    FromPairsLastWins(ps);
    assert forall j :: i < j < |ps| ==> ps[j].0 != ps[i].0;
    assert ps[i] == (Id(ms[i]), ms[i]);
  }

  // ------------------------------------------------------------- grouping

  /** `model.__class__.__name__`, which is `NoneType` for None. */
  function ClassName(o: Option<Model>): string
  {
    if o.Some? then o.value.cls else "NoneType"
  }

  /** The models of a group, without the Nones that only opened it. */
  function Present(os: seq<Option<Model>>): (ms: seq<Model>)
    ensures |ms| <= |os|
    ensures forall i :: 0 <= i < |ms| ==> Some(ms[i]) in os
    ensures forall i :: 0 <= i < |os| && os[i].Some? ==> os[i].value in ms
  {
    if os == [] then []
    else (if os[0].Some? then [os[0].value] else []) + Present(os[1..])
  }

  /** Every model, None aside, has an id that can be hashed. */
  predicate AllKeyed(models: seq<Option<Model>>)
  {
    forall i :: 0 <= i < |models| && models[i].Some? ==> Hashable(Id(models[i].value))
  }

  /** The models grouped by class name, in order of first appearance. */
  function ByClass(models: seq<Option<Model>>): (g: Dict<string, seq<Option<Model>>>)
    ensures Valid(g)
  {
    GroupBy(models, ClassName)
  }

  /** A group keyed without error exactly when all its models are. */
  lemma GroupKeyed(models: seq<Option<Model>>, j: int)
    requires 0 <= j < |ByClass(models)|
    ensures KeyedById(Present(ByClass(models)[j].1)).Failure? ==> !AllKeyed(models)
  {
    GroupByGroups(models, ClassName);
    GetAt(ByClass(models), j);
    var ms := Present(ByClass(models)[j].1);
    if KeyedById(ms).Failure? {
      var i :| 0 <= i < |ms| && !Hashable(Id(ms[i]));
      var j :| 0 <= j < |models| && models[j] == Some(ms[i]);
    }
  }

  /** When all groups are keyed without error, so is every model. */
  lemma AllGroupsKeyed(models: seq<Option<Model>>)
    requires forall j :: 0 <= j < |ByClass(models)| ==> KeyedById(Present(ByClass(models)[j].1)).Success?
    ensures AllKeyed(models)
  {
    var g := ByClass(models);
    GroupByGroups(models, ClassName);
    forall i | 0 <= i < |models| && models[i].Some? ensures Hashable(Id(models[i].value)) {
      var c := ClassName(models[i]);
      assert HasKey(g, c);
      var j := IndexOf(g, c);
      GetAt(g, j);
      assert models[i] in Filter(models, HasKeyOf(ClassName, c));
      var ms := Present(g[j].1);
      var k :| 0 <= k < |ms| && ms[k] == models[i].value;
    }
  }

  /** The result of merging the `j`-th class group is in place. */
  ghost predicate GroupDone(s: State, s': State, g: Dict<string, seq<Option<Model>>>, r: Dict<string, seq<Model>>, j: int)
    requires ValidState(s) && 0 <= j < |g| && j < |r|
  {
    && r[j].0 == g[j].0
    && KeyedById(Present(g[j].1)).Success?
    && g[j].0 in s'.modelCache
    && Updated(CacheOf(s, g[j].0), KeyedById(Present(g[j].1)).value, s'.modelCache[g[j].0], r[j].1)
  }

  /** The `i`-th class name is no other group's and is a key of the grouping. */
  lemma OtherClasses<V>(g: Dict<string, V>, i: int)
    requires Valid(g) && 0 <= i < |g|
    ensures forall j :: 0 <= j < |g| && j != i ==> g[j].0 != g[i].0
    ensures forall c :: !HasKey(g, c) ==> c != g[i].0
  {
    forall j | 0 <= j < |g| && j != i ensures g[j].0 != g[i].0 {
      assert Keys(g)[j] != Keys(g)[i];
    }
    assert Keys(g)[i] == g[i].0;
  }

  /** Merging another class leaves a merged group as it was. */
  lemma GroupDoneFrame(s: State, prev: State, s': State, g: Dict<string, seq<Option<Model>>>,
                       rPrev: Dict<string, seq<Model>>, r: Dict<string, seq<Model>>, j: int)
    requires ValidState(s) && 0 <= j < |g| && j < |rPrev| && j < |r| && r[j] == rPrev[j]
    requires GroupDone(s, prev, g, rPrev, j)
    requires g[j].0 in s'.modelCache && s'.modelCache[g[j].0] == prev.modelCache[g[j].0]
    ensures GroupDone(s, s', g, r, j)
  {
  }

  /**
   * `Browser._group_models_and_update_cache`: the models grouped by class
   * name in order of first appearance, each group keyed by id and merged
   * into its class's cache. A None opens a `NoneType` group and adds
   * nothing to it. A TypeError from an unhashable id stops the loop: the
   * classes before it stay updated.
   */
  method GroupModelsAndUpdateCache(s: State, models: seq<Option<Model>>)
    returns (s': State, r: Dict<string, seq<Model>>, err: Option<Error>)
    requires ValidState(s)
    ensures ValidState(s')
    ensures s'.modelListCache == s.modelListCache
    ensures err.None? <==> AllKeyed(models)
    ensures err.Some? ==> err.value == TypeError
    ensures forall c :: !HasKey(ByClass(models), c) ==>
      (c in s'.modelCache <==> c in s.modelCache) && CacheOf(s', c) == CacheOf(s, c)
    ensures |r| <= |ByClass(models)|
    ensures err.None? ==> |r| == |ByClass(models)|
    ensures forall j :: 0 <= j < |r| ==> GroupDone(s, s', ByClass(models), r, j)
    ensures forall j :: |r| <= j < |ByClass(models)| ==>
      (ByClass(models)[j].0 in s'.modelCache <==> ByClass(models)[j].0 in s.modelCache) &&
      CacheOf(s', ByClass(models)[j].0) == CacheOf(s, ByClass(models)[j].0)
  {
    var g := ByClass(models);
    s' := s;
    r := [];
    err := None;
    for i := 0 to |g|
      invariant ValidState(s')
      invariant s'.modelListCache == s.modelListCache
      invariant |r| == i
      invariant forall c :: !HasKey(g, c) ==>
        (c in s'.modelCache <==> c in s.modelCache) && CacheOf(s', c) == CacheOf(s, c)
      invariant forall j :: i <= j < |g| ==>
        (g[j].0 in s'.modelCache <==> g[j].0 in s.modelCache) && CacheOf(s', g[j].0) == CacheOf(s, g[j].0)
      invariant forall j :: 0 <= j < i ==> GroupDone(s, s', g, r, j)
    {
      var (c, grp) := g[i];
      var d := KeyedById(Present(grp));
      if d.Failure? {
        GroupKeyed(models, i);
        err := Some(d.error);
        return;
      }
      var out;
      ghost var prev, rPrev := s', r;
      s', out := UpdateModelCacheHelper(s', c, d.value);
      r := r + [(c, out)];
      OtherClasses(g, i);
      forall j | 0 <= j < i ensures GroupDone(s, s', g, r, j) {
        GroupDoneFrame(s, prev, s', g, rPrev, r, j);
      }
      assert GroupDone(s, s', g, r, i);
    }
    forall j | 0 <= j < |g| ensures KeyedById(Present(g[j].1)).Success? {
      assert GroupDone(s, s', g, r, j);
    }
    AllGroupsKeyed(models);
  }

  /** A missing attribute or an unhashable value of it: the error `_group_by_attribute` meets. */
  function AttributeProblem(attribute: string, m: Model): Option<Error>
  {
    if attribute !in m.data then Some(AttributeError)
    else if !Hashable(m.data[attribute]) then Some(TypeError)
    else None
  }

  function AttributeOf(attribute: string): Model -> Json
  {
    (m: Model) => if attribute in m.data then m.data[attribute] else JNull
  }

  /**
   * `Browser._group_by_attribute`: the models grouped by the attribute's
   * value; the first model in input order without a usable value decides
   * the error.
   */
  function GroupByAttribute(models: seq<Model>, attribute: string): (r: Result<Dict<Json, seq<Model>>>)
    ensures r.Success? <==> forall i :: 0 <= i < |models| ==> AttributeProblem(attribute, models[i]).None?
    ensures r.Failure? ==> exists i ::
      && 0 <= i < |models|
      && (forall j :: 0 <= j < i ==> AttributeProblem(attribute, models[j]).None?)
      && AttributeProblem(attribute, models[i]) == Some(r.error)
    ensures r.Success? ==> Valid(r.value)
    decreases |models|
  {
    if models == [] then Success([])
    else if AttributeProblem(attribute, models[0]).Some? then Failure(AttributeProblem(attribute, models[0]).value)
    else
      var rest := GroupByAttribute(models[1..], attribute);
      if rest.Failure? then
        assert forall j :: 1 <= j < |models| ==> models[j] == models[1..][j - 1];
        Failure(rest.error)
      else
        assert forall j :: 1 <= j < |models| ==> models[j] == models[1..][j - 1];
        Success(GroupBy(models, AttributeOf(attribute)))
  }

  /**
   * When grouping succeeds every model lies in the group of its attribute
   * value, and each group holds exactly the models with that value, in input
   * order.
   */
  lemma GroupByAttributeGroups(models: seq<Model>, attribute: string)
    requires GroupByAttribute(models, attribute).Success?
    ensures var d := GroupByAttribute(models, attribute).value;
      && (forall v :: HasKey(d, v) <==> exists i :: 0 <= i < |models| && models[i].data[attribute] == v)
      && (forall v :: HasKey(d, v) ==> Get(d, v) == Filter(models, HasKeyOf(AttributeOf(attribute), v)))
  {
    GroupByGroups(models, AttributeOf(attribute));
  }

  // ---------------------------------------------------------- cached_where

  /** `[] in query.values()`. */
  predicate AsksForNothing(query: map<string, Json>)
  {
    exists k :: k in query && query[k] == JArr([])
  }

  /** The cached models of a class that `_find_matches` keeps, in cache order. */
  function CachedMatches(s: State, modelName: string, query: map<string, Json>): seq<Model>
  {
    Filter(Values(CacheOf(s, modelName)), IsFound(query))
  }

  /**
   * The primary-key values of the found models, `[q[primary_key] for q in
   * found_queries]`; every found model carries the key when it is queried.
   */
  function FoundKeys(found: seq<Model>, primaryKey: string): (ks: seq<Json>)
    ensures |ks| == |found|
  {
    seq(|found|, i requires 0 <= i < |found| =>
      if primaryKey in found[i].data then found[i].data[primaryKey] else JNull)
  }

  /**
   * `set(query_id_list)` after a string or integer (a bool is an integer)
   * was wrapped in a list: a list gives its elements, a dict its keys, and
   * None or an unhashable element a TypeError.
   */
  function Requested(v: Json): (r: Result<set<Json>>)
    ensures r.Failure? ==> r.error == TypeError
    ensures r.Success? ==> forall x :: x in r.value ==> Hashable(x)
    ensures v.JNull? ==> r.Failure?
    ensures Hashable(v) && !v.JNull? ==> r == Success({v})
    ensures v.JArr? ==> (r.Success? <==> forall i :: 0 <= i < |v.items| ==> Hashable(v.items[i]))
    ensures v.JArr? && r.Success? ==> forall x :: x in r.value <==> x in v.items
    ensures v.JObj? ==> r.Success? && forall x :: x in r.value <==> x.JStr? && x.s in v.fields
  {
    match v
    case JNull => Failure(TypeError)
    case JArr(xs) =>
      if forall i :: 0 <= i < |xs| ==> Hashable(xs[i]) then Success(set i | 0 <= i < |xs| :: xs[i])
      else Failure(TypeError)
    case JObj(m) => Success(set k | k in m :: JStr(k))
    case _ => Success({v})
  }

  /**
   * `set(query_id_list).difference(set(found_ids))`: the ids still asked of
   * the server and the ids found in the cache split the requested ids, every
   * requested id lies in exactly one of them and nothing else is asked.
   */
  function Remaining(requested: Json, found: seq<Json>): (r: Result<set<Json>>)
    ensures r.Failure? ==> r.error == TypeError
    ensures r.Success? <==> Requested(requested).Success? && forall i :: 0 <= i < |found| ==> Hashable(found[i])
    ensures r.Success? ==> forall x :: x in r.value <==> x in Requested(requested).value && x !in found
  {
    var req :- Requested(requested);
    if exists i :: 0 <= i < |found| && !Hashable(found[i]) then Failure(TypeError)
    else Success(req - set i | 0 <= i < |found| :: found[i])
  }

  /** `list(...)` of a set: its elements once each, in an order Python does not fix. */
  method ListOf(xs: set<Json>) returns (r: seq<Json>)
    ensures Distinct(r)
    ensures forall x :: x in r <==> x in xs
  {
    r := [];
    var rest := xs;
    while rest != {}
      invariant rest <= xs
      invariant forall x :: x in r <==> x in xs && x !in rest
      invariant Distinct(r)
      decreases rest
    {
      var x :| x in rest;
      r := r + [x];
      rest := rest - {x};
    }
  }

  /**
   * `Browser.cached_where`, with the server's `where` as `serverWhere`. It
   * returns the new state, the models or the error, and the query sent to
   * the server, None when none was sent.
   */
  method CachedWhere(s: State, query: map<string, Json>, modelName: string, primaryKey: string,
                     serverWhere: map<string, Json> -> seq<Model>)
    returns (s': State, r: Result<seq<Model>>, sent: Option<map<string, Json>>)
    requires ValidState(s)
    ensures ValidState(s')
    ensures s'.modelListCache == s.modelListCache
    ensures forall c :: c != modelName ==>
      (c in s'.modelCache <==> c in s.modelCache) && CacheOf(s', c) == CacheOf(s, c)
    ensures r.Failure? ==> r.error == TypeError && s' == s
    // an empty id list asks for nothing: no server call, no result
    ensures AsksForNothing(query) ==> s' == s && r == Success([]) && sent == None
    ensures var found := CachedMatches(s, modelName, query);
      !AsksForNothing(query) && KeyedById(found).Failure? ==> r.Failure? && sent == None
    ensures var found := CachedMatches(s, modelName, query);
      && !AsksForNothing(query) && KeyedById(found).Success? && primaryKey in query
      && Remaining(query[primaryKey], FoundKeys(found, primaryKey)).Failure?
      ==> r.Failure? && sent == None
    // every requested id was cached: the cached models, no server call
    ensures var found := CachedMatches(s, modelName, query);
      && !AsksForNothing(query) && KeyedById(found).Success? && primaryKey in query
      && Remaining(query[primaryKey], FoundKeys(found, primaryKey)) == Success({})
      ==> s' == s && sent == None && r == Success(Values(KeyedById(found).value))
    // otherwise the server is asked for the query, with the ids still missing
    ensures sent.Some? ==>
      && !AsksForNothing(query)
      && sent.value.Keys == query.Keys
      && (forall k :: k in query && k != primaryKey ==> sent.value[k] == query[k])
    ensures sent.Some? && primaryKey in query ==>
      var missing := Remaining(query[primaryKey], FoundKeys(CachedMatches(s, modelName, query), primaryKey));
      && missing.Success? && missing.value != {}
      && sent.value[primaryKey].JArr? && Distinct(sent.value[primaryKey].items)
      && forall x :: x in sent.value[primaryKey].items <==> x in missing.value
    ensures var found := CachedMatches(s, modelName, query);
      && !AsksForNothing(query) && KeyedById(found).Success?
      && (primaryKey in query ==> Remaining(query[primaryKey], FoundKeys(found, primaryKey)).Success? &&
                                  Remaining(query[primaryKey], FoundKeys(found, primaryKey)) != Success({}))
      ==> sent.Some?
    // the server's models, with the cached ones laid over them, merged into the cache
    ensures sent.Some? && r.Success? ==>
      var found := KeyedById(CachedMatches(s, modelName, query));
      var fetched := KeyedById(serverWhere(sent.value));
      && found.Success? && fetched.Success?
      && modelName in s'.modelCache
      && Updated(CacheOf(s, modelName), Update(fetched.value, found.value), s'.modelCache[modelName], r.value)
    ensures sent.Some? && r.Failure? ==> KeyedById(serverWhere(sent.value)).Failure?
  {
    s' := s;
    sent := None;
    if exists k :: k in query && query[k] == JArr([]) {
      return s', Success([]), None;
    }
    var found, foundQueries := FindMatches(query, Values(CacheOf(s, modelName)));
    var foundDict := KeyedById(found);
    if foundDict.Failure? {
      return s', Failure(foundDict.error), None;
    }
    var remainingQuery := query;
    if primaryKey in query {
      var missing := Remaining(query[primaryKey], FoundKeys(found, primaryKey));
      if missing.Failure? {
        return s', Failure(missing.error), None;
      }
      var remainingIds := ListOf(missing.value);
      remainingQuery := query[primaryKey := JArr(remainingIds)];
      if remainingIds == [] {
        assert missing.value == {};
        return s', Success(Values(foundDict.value)), None;
      }
      assert remainingIds[0] in missing.value;
    }
    sent := Some(remainingQuery);
    var fetched := KeyedById(serverWhere(remainingQuery));
    if fetched.Failure? {
      return s', Failure(fetched.error), sent;
    }
    var out;
    s', out := UpdateModelCacheHelper(s, modelName, Update(fetched.value, foundDict.value));
    r := Success(out);
  }

  /** After `clear` no class has cached models, so nothing is found in the cache. */
  lemma ClearForgets(s: State, modelName: string, query: map<string, Json>)
    ensures CacheOf(Clear(s), modelName) == []
    ensures CachedMatches(Clear(s), modelName, query) == []
  {
    FilterEmpty(Values(CacheOf(Clear(s), modelName)), IsFound(query));
  }

  // -------------------------------------------------------------- retrieve

  /**
   * What `retrieve` needs of a relation: its class name and whether it has
   * a `through_model_attr`. The relation objects the browser consumes are
   * not defined by the relationships module, so this is all that is seen.
   */
  datatype RelationInfo = RelationInfo(kind: string, hasThrough: bool)

  /** `Browser.ACCEPTED_GET_RELATION_TYPES`. */
  const AcceptedRelationTypes: seq<string> := ["HasOne", "HasMany", "HasManyThrough", "HasManyGeneric"]

  /** How `retrieve` proceeds once its arguments pass. */
  datatype Retrieval = NothingToRetrieve | ThroughAssociation(rel: RelationInfo) | ByReference(rel: RelationInfo)

  predicate SameClass(models: seq<Model>)
  {
    forall i :: 0 <= i < |models| ==> models[i].cls == models[0].cls
  }

  /**
   * The argument checks of `Browser.retrieve`, with `relationships` giving a
   * model class's declared relationships. It goes on to fetch only for a
   * non-empty list of one class, with an accepted relation that is the
   * declared one when none is passed and a new one when one is passed; it
   * returns nothing without fetching exactly for an empty list or an
   * undeclared name outside strict mode.
   */
  function RetrieveCheck(models: seq<Model>, name: string, relation: Option<RelationInfo>, strict: bool,
                         relationships: string -> map<string, RelationInfo>): (r: Result<Retrieval>)
    ensures r.Success? && !r.value.NothingToRetrieve? ==>
      && models != [] && SameClass(models)
      && (if relation.Some? then name !in relationships(models[0].cls) && relation.value == r.value.rel
          else name in relationships(models[0].cls) && relationships(models[0].cls)[name] == r.value.rel)
      && r.value.rel.kind in AcceptedRelationTypes
      && (r.value.ThroughAssociation? <==> r.value.rel.hasThrough)
    ensures models != [] && SameClass(models) ==>
      var declared := relationships(models[0].cls);
      forall rel: RelationInfo ::
        (rel.kind in AcceptedRelationTypes &&
         (if relation.Some? then name !in declared && relation.value == rel
          else name in declared && declared[name] == rel)) ==>
        r == Success(if rel.hasThrough then ThroughAssociation(rel) else ByReference(rel))
    ensures r == Success(NothingToRetrieve) <==>
      models == [] || (SameClass(models) && relation.None? && name !in relationships(models[0].cls) && !strict)
    ensures models != [] && !SameClass(models) ==> r == Failure(AssertionError)
  {
    if models == [] then Success(NothingToRetrieve)
    else if !SameClass(models) then Failure(AssertionError)
    else
      var declared := relationships(models[0].cls);
      if relation.None? && name !in declared then
        if strict then Failure(BrowserError) else Success(NothingToRetrieve)
      else if relation.Some? && name in declared then Failure(BrowserError)
      else
        var rel := if relation.Some? then relation.value else declared[name];
        if rel.kind !in AcceptedRelationTypes then Failure(BrowserError)
        else if rel.hasThrough then Success(ThroughAssociation(rel))
        else Success(ByReference(rel))
  }
}

=== FILE: field_extensions.dfy ===
/**
 * The marshalling field `Relation` of `pydent/marshaller/field_extensions.py`:
 * how its constructor normalises `params`, what `get_default` returns, and
 * how `_serialize` dumps a nested object or list. The nested model's own
 * `dump` belongs to the model base class, which is not part of this model,
 * so it is a function parameter.
 */
module FieldExtensions {
  import opened Wrappers
  import opened JsonValue

  /** A `params` argument: `None`, a string, a callable of kind `L`, a list or a tuple. */
  datatype Param<L> =
    | PNone
    | PStr(s: string)
    | PCallable(f: L)
    | PList(items: seq<Param<L>>)
    | PTuple(items: seq<Param<L>>)

  predicate IsSequenceParam<L>(p: Param<L>) {
    p.PList? || p.PTuple?
  }

  /** `if not isinstance(params, (list, tuple)): params = (params,)`. */
  function NormaliseParams<L>(params: Param<L>): (r: Param<L>)
    ensures IsSequenceParam(r)
    ensures IsSequenceParam(params) ==> r == params
    ensures !IsSequenceParam(params) ==> r == PTuple([params])
  {
    if IsSequenceParam(params) then params else PTuple([params])
  }

  /** Normalising twice is normalising once. */
  lemma NormaliseParamsIdempotent<L>(params: Param<L>)
    ensures NormaliseParams(NormaliseParams(params)) == NormaliseParams(params)
  {
  }

  /** A `default` attribute: a type (called to get a fresh value) or a value. */
  datatype Default = TypeDefault(instance: Json) | ValueDefault(v: Json)

  /** The state `Relation.__init__` leaves behind. */
  datatype Relation<L> = Relation(nested: string, callback: string, params: Param<L>, many: bool,
                                  allowNone: bool, default: Option<Default>)

  /** `Relation.__init__`: `allow_none` defaults to true and `default` is reset to `None`. */
  function NewRelation<L>(model: string, callback: string, params: Param<L>, many: bool, allowNone: bool): (r: Relation<L>)
    ensures r.nested == model && r.callback == callback && r.many == many && r.allowNone == allowNone
    ensures r.default.None?
    ensures r.params == NormaliseParams(params)
  {
    Relation(model, callback, NormaliseParams(params), many, allowNone, None)
  }

  /** `get_default`: a type is instantiated, a value returned; with no default, `[]` when `many`, else `None`. */
  function GetDefault<L>(rel: Relation<L>): (r: Json)
    ensures rel.default.Some? && rel.default.value.TypeDefault? ==> r == rel.default.value.instance
    ensures rel.default.Some? && rel.default.value.ValueDefault? && rel.default.value.v != JNull ==> r == rel.default.value.v
  {
    match rel.default
    case Some(TypeDefault(instance)) => instance
    case Some(ValueDefault(v)) => if v != JNull then v else if rel.many then JArr([]) else JNull
    case None => if rel.many then JArr([]) else JNull
  }

  /** Every freshly constructed relation defaults to `[]` when `many` and to `None` otherwise. */
  lemma ConstructedDefault<L>(model: string, callback: string, params: Param<L>, many: bool, allowNone: bool)
    ensures var d := GetDefault(NewRelation(model, callback, params, many, allowNone));
            (many ==> d == JArr([])) && (!many ==> d == JNull)
  {
  }

  /**
   * `decompose_opts(attr, opts)`: the options for the nested field `attr`
   * when `opts` is a dict holding it, `{}` in every other case.
   */
  function DecomposeOpts(attr: string, opts: Json): (r: Json)
    ensures opts.JObj? && attr in opts.fields ==> r == opts.fields[attr]
    ensures !(opts.JObj? && attr in opts.fields) ==> r == EmptyObj
  {
    match opts
    case JObj(m) => if attr in m then m[attr] else EmptyObj
    case _ => EmptyObj
  }

  /** An element of a nested list: a model instance (it has `dump`) or a plain value (`JNull` is `None`). */
  datatype Elem<M> = EModel(m: M) | EPlain(j: Json)

  /** A nested object: one model instance, a plain value, or a list. */
  datatype Nested<M> = NModel(m: M) | NPlain(j: Json) | NList(items: seq<Elem<M>>)

  /** Python truthiness of a nested object; a model instance is always truthy. */
  predicate NestedTruthy<M>(n: Nested<M>) {
    match n
    case NModel(_) => true
    case NPlain(j) => Truthy(j)
    case NList(xs) => xs != []
  }

  /** The dump options handed to a nested model: the root's `only` and `relations`, decomposed by `attr`. */
  datatype DumpOpts = DumpOpts(only: Json, relations: Json)

  function OptsFor(attr: string, root: DumpOpts): DumpOpts {
    DumpOpts(DecomposeOpts(attr, root.only), DecomposeOpts(attr, root.relations))
  }

  /** `dump(nobj)` inside `_serialize`: models are dumped, other values pass through. */
  function DumpOne<M>(attr: string, root: DumpOpts, dump: (M, DumpOpts) -> Json, x: Elem<M>): Json {
    match x
    case EModel(m) => dump(m, OptsFor(attr, root))
    case EPlain(j) => j
  }

  /** The list branch of `_serialize`: `None` elements stay `None`, the rest are dumped, in order. */
  function DumpList<M>(attr: string, root: DumpOpts, dump: (M, DumpOpts) -> Json, xs: seq<Elem<M>>): (r: seq<Json>)
    ensures |r| == |xs|
    ensures forall i :: 0 <= i < |xs| ==> r[i] == DumpOne(attr, root, dump, xs[i])
    ensures forall i :: 0 <= i < |xs| && xs[i] == EPlain(JNull) ==> r[i] == JNull
    ensures forall i :: 0 <= i < |xs| && xs[i].EModel? ==> r[i] == dump(xs[i].m, OptsFor(attr, root))
    decreases |xs|
  {
    if xs == [] then []
    else [if xs[0] == EPlain(JNull) then JNull else DumpOne(attr, root, dump, xs[0])]
         + DumpList(attr, root, dump, xs[1..])
  }

  /** `Relation._serialize`: a falsy nested object, `None` or `[]` alike, becomes `None`. */
  function SerializeRelation<M>(attr: string, root: DumpOpts, dump: (M, DumpOpts) -> Json, nested: Nested<M>): (r: Json)
    ensures !NestedTruthy(nested) ==> r == JNull
    ensures nested.NList? && nested.items != [] ==>
              r.JArr? && |r.items| == |nested.items|
              && forall i :: 0 <= i < |nested.items| ==> r.items[i] == DumpOne(attr, root, dump, nested.items[i])
    ensures nested.NModel? ==> r == dump(nested.m, OptsFor(attr, root))
    ensures nested.NPlain? ==> r == (if Truthy(nested.j) then nested.j else JNull)
  {
    if !NestedTruthy(nested) then JNull
    else match nested
      case NList(xs) => JArr(DumpList(attr, root, dump, xs))
      case NModel(m) => dump(m, OptsFor(attr, root))
      case NPlain(j) => j
  }

  /** An empty nested list is dumped as `None`, not as `[]`. */
  lemma EmptyListSerialisesToNone<M>(attr: string, root: DumpOpts, dump: (M, DumpOpts) -> Json)
    ensures SerializeRelation(attr, root, dump, NList([])) == JNull
  {
  }
}

=== FILE: inflection.dfy ===
/**
 * `inflection.underscore`, which the relationship descriptors use to turn a
 * model name into an attribute prefix ("SampleType" to "sample_type"). The
 * library applies two regular-expression substitutions, replaces `-` by `_`
 * and lower-cases. Each substitution inserts `_` at every position its
 * pattern marks (the matches never overlap), which is how it is written here.
 */
module Inflection {

  predicate IsUpper(c: char) { 'A' <= c <= 'Z' }
  predicate IsLower(c: char) { 'a' <= c <= 'z' }
  predicate IsDigit(c: char) { '0' <= c <= '9' }

  /** `([A-Z]+)([A-Z][a-z])`: a break before the last capital of a run that starts a word. */
  predicate AcronymBreak(s: string, i: int) {
    1 <= i && i + 1 < |s| && IsUpper(s[i - 1]) && IsUpper(s[i]) && IsLower(s[i + 1])
  }

  /** `([a-z\d])([A-Z])`: a break between a lower-case letter or digit and a capital. */
  predicate WordBreak(s: string, i: int) {
    1 <= i < |s| && (IsLower(s[i - 1]) || IsDigit(s[i - 1])) && IsUpper(s[i])
  }

  function SplitAcronyms(s: string, i: nat): string
    requires i <= |s|
    decreases |s| - i
  {
    if i == |s| then ""
    else (if AcronymBreak(s, i) then "_" else "") + [s[i]] + SplitAcronyms(s, i + 1)
  }

  function SplitWords(s: string, i: nat): string
    requires i <= |s|
    decreases |s| - i
  {
    if i == |s| then ""
    else (if WordBreak(s, i) then "_" else "") + [s[i]] + SplitWords(s, i + 1)
  }

  function DashToUnderscore(c: char): char {
    if c == '-' then '_' else c
  }

  function ToLower(c: char): char {
    if IsUpper(c) then (c as int + 32) as char else c
  }

  function MapChars(s: string, f: char -> char): (r: string)
    ensures |r| == |s| && forall i :: 0 <= i < |s| ==> r[i] == f(s[i])
  {
    seq(|s|, i requires 0 <= i < |s| => f(s[i]))
  }

  /** `inflection.underscore(word)`. */
  function Underscore(word: string): (r: string)
    ensures forall i :: 0 <= i < |r| ==> !IsUpper(r[i]) && r[i] != '-'
  {
    var split := SplitWords(SplitAcronyms(word, 0), 0);
    MapChars(MapChars(split, DashToUnderscore), ToLower)
  }

  /** A string with no capital has no break of either kind, so both passes leave it alone. */
  lemma {:induction false} NoCapitalsNoBreaks(s: string, i: nat)
    requires i <= |s|
    requires forall k :: 0 <= k < |s| ==> !IsUpper(s[k])
    ensures SplitAcronyms(s, i) == s[i..] && SplitWords(s, i) == s[i..]
    decreases |s| - i
  {
    if i < |s| {
      NoCapitalsNoBreaks(s, i + 1);
      assert s[i..] == [s[i]] + s[i + 1..];
    }
  }

  /** Underscoring is idempotent: its output is already in snake case. */
  lemma UnderscoreIdempotent(word: string)
    ensures Underscore(Underscore(word)) == Underscore(word)
  {
    var u := Underscore(word);
    NoCapitalsNoBreaks(u, 0);
    var r := Underscore(u);
    assert MapChars(u, DashToUnderscore) == u;
    assert MapChars(u, ToLower) == u;
  }

  /** A name already in snake case is its own underscore form. */
  lemma SnakeCaseUnchanged(word: string)
    requires forall k :: 0 <= k < |word| ==> !IsUpper(word[k]) && word[k] != '-'
    ensures Underscore(word) == word
  {
    NoCapitalsNoBreaks(word, 0);
    assert MapChars(word, DashToUnderscore) == word;
    assert MapChars(word, ToLower) == word;
  }

  /** Between acronym breaks, the first pass copies the text. */
  lemma {:induction false} CopyWithoutAcronymBreaks(s: string, i: nat, j: nat)
    requires i <= j <= |s|
    requires forall k :: i <= k < j ==> !AcronymBreak(s, k)
    ensures SplitAcronyms(s, i) == s[i..j] + SplitAcronyms(s, j)
    decreases j - i
  {
    if i < j {
      CopyWithoutAcronymBreaks(s, i + 1, j);
      calc {
        SplitAcronyms(s, i);
        [s[i]] + SplitAcronyms(s, i + 1);
        [s[i]] + (s[i + 1..j] + SplitAcronyms(s, j));
        { assert s[i..j] == [s[i]] + s[i + 1..j]; }
        s[i..j] + SplitAcronyms(s, j);
      }
    }
  }

  /** Between word breaks, the second pass copies the text. */
  lemma {:induction false} CopyWithoutWordBreaks(s: string, i: nat, j: nat)
    requires i <= j <= |s|
    requires forall k :: i <= k < j ==> !WordBreak(s, k)
    ensures SplitWords(s, i) == s[i..j] + SplitWords(s, j)
    decreases j - i
  {
    if i < j {
      CopyWithoutWordBreaks(s, i + 1, j);
      calc {
        SplitWords(s, i);
        [s[i]] + SplitWords(s, i + 1);
        [s[i]] + (s[i + 1..j] + SplitWords(s, j));
        { assert s[i..j] == [s[i]] + s[i + 1..j]; }
        s[i..j] + SplitWords(s, j);
      }
    }
  }

  lemma SampleTypeNoAcronym()
    ensures SplitAcronyms("SampleType", 0) == "SampleType"
  {
    var s := "SampleType";
    forall k | 0 <= k < |s| ensures !AcronymBreak(s, k) {
      assert k != 0 && k != 6 ==> !IsUpper(s[k]);
      assert !IsUpper(s[5]) && !IsUpper(s[7]);
    }
    CopyWithoutAcronymBreaks(s, 0, |s|);
  }

  lemma SampleTypeWords()
    ensures SplitWords("SampleType", 0) == "Sample_Type"
  {
    var s := "SampleType";
    forall k | 0 <= k < 6 ensures !WordBreak(s, k) {
      assert k != 0 ==> !IsUpper(s[k]);
    }
    forall k | 7 <= k < |s| ensures !WordBreak(s, k) {
      assert !IsUpper(s[k]);
    }
    CopyWithoutWordBreaks(s, 0, 6);
    CopyWithoutWordBreaks(s, 7, |s|);
    assert WordBreak(s, 6);
  }

  lemma SampleTypeLower()
    ensures MapChars(MapChars("Sample_Type", DashToUnderscore), ToLower) == "sample_type"
  {
    var w := "Sample_Type";
    var d := MapChars(w, DashToUnderscore);
    assert d == w;
    var l := MapChars(d, ToLower);
    assert l[0] == 's' && l[7] == 't';
    forall k | 0 <= k < |l| && k != 0 && k != 7 ensures l[k] == w[k] {
      assert !IsUpper(w[k]);
    }
  }

  /** The example of the `HasOne` documentation. */
  lemma SampleTypeExample()
    ensures Underscore("SampleType") == "sample_type"
  {
    SampleTypeNoAcronym();
    SampleTypeWords();
    SampleTypeLower();
  }
}

=== FILE: json_text.dfy ===
/**
 * JSON text as Python's `json.dumps` writes it with its default settings
 * (`ensure_ascii`, separators `", "` and `": "`) and as `json.loads` reads
 * it, for the values `JsonValue.Json` holds; and the `JSON` marshalling
 * field of `pydent/marshaller/field_extensions.py` built on them, which
 * maps None to `''` in both directions.
 *
 * A dict is written in its insertion order, which a `map` does not keep:
 * the order is a parameter that lists each key set once.
 */
module JsonText {
  import opened Wrappers
  import opened JsonValue

  // ------------------------------------------------------------- numbers

  predicate IsDigit(c: char)
  {
    '0' <= c <= '9'
  }

  function DigitChar(d: int): (c: char)
    requires 0 <= d < 10
    ensures IsDigit(c)
  {
    (48 + d) as char
  }

  function DigitValue(c: char): (d: int)
    requires IsDigit(c)
    ensures 0 <= d < 10 && DigitChar(d) == c
  {
    c as int - 48
  }

  /** The decimal digits of `n`, without leading zeros. */
  function NatText(n: nat): (t: string)
    ensures |t| >= 1
    ensures forall i :: 0 <= i < |t| ==> IsDigit(t[i])
    ensures t[0] == '0' ==> n == 0
  {
    if n < 10 then [DigitChar(n)] else NatText(n / 10) + [DigitChar(n % 10)]
  }

  /** The value of a run of decimal digits. */
  function DigitsValue(ds: string): nat
    requires forall i :: 0 <= i < |ds| ==> IsDigit(ds[i])
  {
    if ds == [] then 0 else DigitsValue(ds[..|ds| - 1]) * 10 + DigitValue(ds[|ds| - 1])
  }

  /** Reading the digits written for `n` gives `n` back. */
  lemma {:induction false} NatTextValue(n: nat)
    ensures DigitsValue(NatText(n)) == n
  {
    if n >= 10 {
      NatTextValue(n / 10);
      var t := NatText(n);
      assert t[..|t| - 1] == NatText(n / 10);
    }
  }

  /** `str(i)` for an integer. */
  function IntText(i: int): string
  {
    if i < 0 then "-" + NatText(-i) else NatText(i)
  }

  /** The length of the run of digits `s` starts with. */
  function DigitRun(s: string): (n: nat)
    ensures n <= |s|
    ensures forall i :: 0 <= i < n ==> IsDigit(s[i])
    ensures n < |s| ==> !IsDigit(s[n])
  {
    if s != [] && IsDigit(s[0]) then 1 + DigitRun(s[1..]) else 0
  }

  /**
   * The digits of a JSON number, `0|[1-9][0-9]*`: their value and the text
   * after them. A fraction or exponent after them makes the number a float,
   * which the values here do not hold.
   */
  function ParseDigits(t: string): (r: Option<(nat, string)>)
    ensures r.Some? ==> |r.value.1| < |t|
  {
    var n := if t != [] && t[0] == '0' then 1 else DigitRun(t);
    if n == 0 then None
    else
      var rest := t[n..];
      if rest != [] && (rest[0] == '.' || rest[0] == 'e' || rest[0] == 'E') then None
      else Some((DigitsValue(t[..n]), rest))
  }

  /** A JSON number `-?(0|[1-9][0-9]*)`. */
  function ParseNumber(s: string): (r: Option<(Json, string)>)
    ensures r.Some? ==> |r.value.1| < |s|
  {
    if s != [] && s[0] == '-' then
      match ParseDigits(s[1..])
      case None => None
      case Some((v, rest)) => var n: int := v; Some((JInt(-n), rest))
    else
      match ParseDigits(s)
      case None => None
      case Some((v, rest)) => Some((JInt(v), rest))
  }

  /** Text that may follow a value inside a JSON document: nothing, or a separator or closing bracket. */
  predicate Delimited(rest: string)
  {
    rest == [] || rest[0] == ',' || rest[0] == ']' || rest[0] == '}'
  }

  lemma {:induction false} DigitRunOf(ds: string, rest: string)
    requires forall i :: 0 <= i < |ds| ==> IsDigit(ds[i])
    requires Delimited(rest)
    ensures DigitRun(ds + rest) == |ds|
    decreases |ds|
  {
    if ds != [] {
      assert (ds + rest)[1..] == ds[1..] + rest;
      DigitRunOf(ds[1..], rest);
    }
  }

  /** The digits written for `m` read back as `m`. */
  lemma DigitsRoundTrip(m: nat, rest: string)
    requires Delimited(rest)
    ensures ParseDigits(NatText(m) + rest) == Some((m, rest))
  {
    var ds := NatText(m);
    var t := ds + rest;
    if ds[0] == '0' {
      assert ds == "0";
    } else {
      DigitRunOf(ds, rest);
    }
    assert t[..|ds|] == ds && t[|ds|..] == rest;
    NatTextValue(m);
  }

  lemma NegativeRoundTrip(i: int, rest: string)
    requires i < 0 && Delimited(rest)
    ensures ParseNumber("-" + NatText(-i) + rest) == Some((JInt(i), rest))
  {
    var s := "-" + NatText(-i) + rest;
    assert s[0] == '-' && s[1..] == NatText(-i) + rest;
    DigitsRoundTrip(-i, rest);
  }

  lemma NonNegativeRoundTrip(i: nat, rest: string)
    requires Delimited(rest)
    ensures ParseNumber(NatText(i) + rest) == Some((JInt(i), rest))
  {
    DigitsRoundTrip(i, rest);
    assert (NatText(i) + rest)[0] == NatText(i)[0];
  }

  /** An integer's text reads back as that integer. */
  lemma NumberRoundTrip(i: int, rest: string)
    requires Delimited(rest)
    ensures ParseNumber(IntText(i) + rest) == Some((JInt(i), rest))
  {
    if i < 0 {
      NegativeRoundTrip(i, rest);
    } else {
      NonNegativeRoundTrip(i, rest);
    }
  }

  // ------------------------------------------------------------- strings

  function HexDigit(d: int): (c: char)
    requires 0 <= d < 16
  {
    if d < 10 then DigitChar(d) else (87 + d) as char
  }

  /** `'{0:04x}'.format(n)`. */
  function Hex4(n: int): (h: string)
    requires 0 <= n < 0x10000
    ensures |h| == 4
  {
    [HexDigit(n / 0x1000), HexDigit(n / 0x100 % 16), HexDigit(n / 0x10 % 16), HexDigit(n % 16)]
  }

  /** A hexadecimal digit in either case. */
  function HexValue(c: char): Option<int>
  {
    if '0' <= c <= '9' then Some(c as int - 48)
    else if 'a' <= c <= 'f' then Some(c as int - 87)
    else if 'A' <= c <= 'F' then Some(c as int - 55)
    else None
  }

  function Hex4Value(h: string): (r: Option<int>)
    requires |h| == 4
    ensures r.Some? ==> 0 <= r.value < 0x10000
  {
    match (HexValue(h[0]), HexValue(h[1]), HexValue(h[2]), HexValue(h[3]))
    case (Some(a), Some(b), Some(c), Some(d)) =>
      if 0 <= a < 16 && 0 <= b < 16 && 0 <= c < 16 && 0 <= d < 16 then
        Some(((a * 16 + b) * 16 + c) * 16 + d)
      else None
    case _ => None
  }

  lemma HexDigitValue(d: int)
    requires 0 <= d < 16
    ensures HexValue(HexDigit(d)) == Some(d)
  {
  }

  /** Four hexadecimal digits read back as the number written. */
  lemma Hex4RoundTrip(n: int)
    requires 0 <= n < 0x10000
    ensures Hex4Value(Hex4(n)) == Some(n)
  {
    var a, b, c, d := n / 0x1000, n / 0x100 % 16, n / 0x10 % 16, n % 16;
    HexDigitValue(a);
    HexDigitValue(b);
    HexDigitValue(c);
    HexDigitValue(d);
    assert n / 0x100 == a * 16 + b;
    assert n / 0x10 == (a * 16 + b) * 16 + c;
    assert n == ((a * 16 + b) * 16 + c) * 16 + d;
  }

  /** The first (high) surrogate Python writes for a character beyond the Basic Multilingual Plane. */
  function HighSurrogate(c: char): (u: int)
    requires c as int >= 0x10000
    ensures 0xD800 <= u < 0xDC00
  {
    0xD800 + (c as int - 0x10000) / 0x400
  }

  function LowSurrogate(c: char): (u: int)
    requires c as int >= 0x10000
    ensures 0xDC00 <= u < 0xE000
  {
    0xDC00 + (c as int - 0x10000) % 0x400
  }

  /** The character a surrogate pair stands for. */
  function Combine(hi: int, lo: int): (c: char)
    requires 0xD800 <= hi < 0xDC00 && 0xDC00 <= lo < 0xE000
    ensures c as int >= 0x10000
  {
    (0x10000 + (hi - 0xD800) * 0x400 + (lo - 0xDC00)) as char
  }

  lemma CombineSurrogates(c: char)
    requires c as int >= 0x10000
    ensures Combine(HighSurrogate(c), LowSurrogate(c)) == c
  {
    var v := c as int - 0x10000;
    assert v == v / 0x400 * 0x400 + v % 0x400;
  }

  /**
   * How `ensure_ascii` writes one character: the two-character escape for a
   * quote, a backslash and `\b \f \n \r \t`, the character itself when it is
   * printable ASCII, and `\uXXXX` (a surrogate pair beyond the Basic
   * Multilingual Plane) otherwise.
   */
  function EscapeChar(c: char): string
  {
    if c == '"' then "\\\""
    else if c == '\\' then "\\\\"
    else if c as int == 8 then "\\b"
    else if c as int == 12 then "\\f"
    else if c == '\n' then "\\n"
    else if c == '\r' then "\\r"
    else if c == '\t' then "\\t"
    else if ' ' <= c <= '~' then [c]
    else if c as int < 0x10000 then "\\u" + Hex4(c as int)
    else "\\u" + Hex4(HighSurrogate(c)) + "\\u" + Hex4(LowSurrogate(c))
  }

  function Escape(s: string): string
  {
    if s == [] then "" else EscapeChar(s[0]) + Escape(s[1..])
  }

  /** A string written as a JSON string literal. */
  function Quote(s: string): (t: string)
    ensures t != [] && t[0] == '"'
  {
    "\"" + Escape(s) + "\""
  }

  /** The character a two-character escape `\x` stands for. */
  function ShortEscape(c: char): Option<char>
  {
    if c == '"' || c == '\\' || c == '/' then Some(c)
    else if c == 'b' then Some(8 as char)
    else if c == 'f' then Some(12 as char)
    else if c == 'n' then Some('\n')
    else if c == 'r' then Some('\r')
    else if c == 't' then Some('\t')
    else None
  }

  /**
   * A `\uXXXX` escape at the start of `s`, joined with a following low
   * surrogate escape when it is a high surrogate: the character and the
   * length read. A surrogate left unpaired has no character here.
   */
  function ParseUnicodeEscape(s: string): (r: Option<(char, nat)>)
    requires |s| >= 2
    ensures r.Some? ==> 2 <= r.value.1 <= |s|
  {
    if |s| < 6 then None
    else match Hex4Value(s[2..6])
      case None => None
      case Some(u) =>
        if 0xD800 <= u < 0xDC00 then
          if |s| >= 12 && s[6] == '\\' && s[7] == 'u' then
            (match Hex4Value(s[8..12])
             case Some(l) => if 0xDC00 <= l < 0xE000 then Some((Combine(u, l), 12)) else None
             case None => None)
          else None
        else if 0xDC00 <= u < 0xE000 then None
        else Some((u as char, 6))
  }

  /**
   * The rest of a string literal after its opening quote, `acc` holding the
   * characters read so far: the string and the text after the closing quote.
   * Raw control characters are refused, as `strict` decoding does.
   */
  function ParseString(s: string, acc: string): (r: Option<(string, string)>)
    ensures r.Some? ==> |r.value.1| < |s|
    decreases |s|
  {
    if s == [] then None
    else if s[0] == '"' then Some((acc, s[1..]))
    else if s[0] == '\\' then
      if |s| < 2 then None
      else if s[1] == 'u' then
        match ParseUnicodeEscape(s)
        case None => None
        case Some((c, n)) => ParseString(s[n..], acc + [c])
      else
        match ShortEscape(s[1])
        case None => None
        case Some(c) => ParseString(s[2..], acc + [c])
    else if (s[0] as int) < 0x20 then None
    else ParseString(s[1..], acc + [s[0]])
  }

  /** A character written as `\\u` escapes reads back as that character. */
  lemma UnicodeEscapeParses(c: char, t: string)
    requires !(' ' <= c <= '~') && c != '"' && c != '\\'
    requires c as int != 8 && c as int != 12 && c != '\n' && c != '\r' && c != '\t'
    ensures |EscapeChar(c) + t| >= 2
    ensures ParseUnicodeEscape(EscapeChar(c) + t) == Some((c, |EscapeChar(c)|))
  {
    var s := EscapeChar(c) + t;
    if c as int < 0x10000 {
      Hex4RoundTrip(c as int);
      assert s[2..6] == Hex4(c as int);
    } else {
      Hex4RoundTrip(HighSurrogate(c));
      Hex4RoundTrip(LowSurrogate(c));
      assert s[2..6] == Hex4(HighSurrogate(c));
      assert s[8..12] == Hex4(LowSurrogate(c));
      CombineSurrogates(c);
    }
  }

  /** One escaped character reads back as that character. */
  lemma EscapeCharParses(c: char, t: string, acc: string)
    ensures ParseString(EscapeChar(c) + t, acc) == ParseString(t, acc + [c])
  {
    var s := EscapeChar(c) + t;
    if c == '"' || c == '\\' || c as int == 8 || c as int == 12 || c == '\n' || c == '\r' || c == '\t' {
      assert s[2..] == t;
    } else if ' ' <= c <= '~' {
      assert s[1..] == t;
    } else {
      UnicodeEscapeParses(c, t);
      assert s[|EscapeChar(c)|..] == t;
    }
  }

  /** An escaped string reads back as itself, up to and past its closing quote. */
  lemma {:induction false} EscapeParses(str: string, rest: string, acc: string)
    ensures ParseString(Escape(str) + "\"" + rest, acc) == Some((acc + str, rest))
    decreases |str|
  {
    if str == [] {
      assert (Escape(str) + "\"" + rest)[1..] == rest;
      assert acc + str == acc;
    } else {
      var tail := Escape(str[1..]) + "\"" + rest;
      assert Escape(str) + "\"" + rest == EscapeChar(str[0]) + tail;
      EscapeCharParses(str[0], tail, acc);
      EscapeParses(str[1..], rest, acc + [str[0]]);
      assert acc + [str[0]] + str[1..] == acc + str;
    }
  }

  // ------------------------------------------------------------- values

  /** `order` lists each key set once: a dict's insertion order. */
  ghost predicate Orders(order: set<string> -> seq<string>)
  {
    forall ks :: ListsOnce(order(ks), ks)
  }

  ghost predicate ListsOnce(keys: seq<string>, ks: set<string>)
  {
    && (forall i, j :: 0 <= i < j < |keys| ==> keys[i] != keys[j])
    && (forall k :: k in keys <==> k in ks)
  }

  /** `", ".join(parts)`. */
  function Sep(parts: seq<string>): string
  {
    if parts == [] then ""
    else if |parts| == 1 then parts[0]
    else parts[0] + ", " + Sep(parts[1..])
  }

  /** `json.dumps(v)`. */
  function Dumps(v: Json, order: set<string> -> seq<string>): (t: string)
    requires Orders(order)
    ensures t != [] && !IsWs(t[0])
    decreases v, 1
  {
    match v
    case JNull => "null"
    case JBool(b) => if b then "true" else "false"
    case JInt(i) => IntText(i)
    case JStr(s) => Quote(s)
    case JArr(xs) => "[" + Sep(Elements(v, order)) + "]"
    case JObj(m) => "{" + Sep(Members(v, order)) + "}"
  }

  /** The texts of an array's elements. */
  function Elements(v: Json, order: set<string> -> seq<string>): (ps: seq<string>)
    requires v.JArr? && Orders(order)
    ensures |ps| == |v.items|
    ensures forall i :: 0 <= i < |ps| ==> ps[i] == Dumps(v.items[i], order)
    decreases v, 0
  {
    seq(|v.items|, i requires 0 <= i < |v.items| => Dumps(v.items[i], order))
  }

  /** The `"key": value` texts of a dict's entries, in the dict's order. */
  function Members(v: Json, order: set<string> -> seq<string>): (ps: seq<string>)
    requires v.JObj? && Orders(order)
    ensures |ps| == |order(v.fields.Keys)|
    decreases v, 0
  {
    var keys := order(v.fields.Keys);
    assert ListsOnce(keys, v.fields.Keys);
    seq(|keys|, i requires 0 <= i < |keys| =>
      assert keys[i] in v.fields; Quote(keys[i]) + ": " + Dumps(v.fields[keys[i]], order))
  }

  predicate IsWs(c: char)
  {
    c == ' ' || c == '\t' || c == '\n' || c == '\r'
  }

  function SkipWs(s: string): (r: string)
    ensures |r| <= |s|
    ensures r == [] || !IsWs(r[0])
  {
    if s != [] && IsWs(s[0]) then SkipWs(s[1..]) else s
  }

  /** The literal `word` standing for `v`. */
  function ParseLiteral(s: string, word: string, v: Json): (r: Option<(Json, string)>)
    requires |word| > 0
    ensures r.Some? ==> |r.value.1| < |s|
  {
    if |s| >= |word| && s[..|word|] == word then Some((v, s[|word|..])) else None
  }

  /** A JSON value at the start of `s`, and the text after it. */
  function ParseValue(s: string): (r: Option<(Json, string)>)
    ensures r.Some? ==> |r.value.1| < |s|
    decreases |s|, 1
  {
    if s == [] then None
    else if s[0] == 'n' then ParseLiteral(s, "null", JNull)
    else if s[0] == 't' then ParseLiteral(s, "true", JBool(true))
    else if s[0] == 'f' then ParseLiteral(s, "false", JBool(false))
    else if s[0] == '"' then
      match ParseString(s[1..], "")
      case None => None
      case Some((str, rest)) => Some((JStr(str), rest))
    else if s[0] == '[' then ParseArray(SkipWs(s[1..]))
    else if s[0] == '{' then ParseObject(SkipWs(s[1..]))
    else if s[0] == '-' || IsDigit(s[0]) then ParseNumber(s)
    else None
  }

  /** An array after its `[` and any whitespace. */
  function ParseArray(s: string): (r: Option<(Json, string)>)
    ensures r.Some? ==> |r.value.1| < |s|
    decreases |s|, 3
  {
    if s != [] && s[0] == ']' then Some((JArr([]), s[1..])) else ParseElements(s, [])
  }

  /** The elements of an array from one that starts `s`, `acc` holding those read before. */
  function ParseElements(s: string, acc: seq<Json>): (r: Option<(Json, string)>)
    ensures r.Some? ==> |r.value.1| < |s|
    decreases |s|, 2
  {
    match ParseValue(s)
    case None => None
    case Some((v, rest)) =>
      var t := SkipWs(rest);
      if t != [] && t[0] == ']' then Some((JArr(acc + [v]), t[1..]))
      else if t != [] && t[0] == ',' then ParseElements(SkipWs(t[1..]), acc + [v])
      else None
  }

  /** An object after its `{` and any whitespace. */
  function ParseObject(s: string): (r: Option<(Json, string)>)
    ensures r.Some? ==> |r.value.1| < |s|
    decreases |s|, 3
  {
    if s != [] && s[0] == '}' then Some((JObj(map[]), s[1..])) else ParseMembers(s, map[])
  }

  /**
   * The entries of an object from one that starts `s`, `acc` holding those
   * read before; a repeated key takes its last value.
   */
  function ParseMembers(s: string, acc: map<string, Json>): (r: Option<(Json, string)>)
    ensures r.Some? ==> |r.value.1| < |s|
    decreases |s|, 2
  {
    if s == [] || s[0] != '"' then None
    else
      match ParseString(s[1..], "")
      case None => None
      case Some((k, rest)) =>
        var t := SkipWs(rest);
        if t == [] || t[0] != ':' then None
        else
          match ParseValue(SkipWs(t[1..]))
          case None => None
          case Some((v, rest')) =>
            var u := SkipWs(rest');
            if u != [] && u[0] == '}' then Some((JObj(acc[k := v]), u[1..]))
            else if u != [] && u[0] == ',' then ParseMembers(SkipWs(u[1..]), acc[k := v])
            else None
  }

  /** `json.loads(s)`: None for a `JSONDecodeError`. */
  function Loads(s: string): (r: Option<Json>)
  {
    match ParseValue(SkipWs(s))
    case None => None
    case Some((v, rest)) => if SkipWs(rest) == [] then Some(v) else None
  }

  // ---------------------------------------------------------- round trip

  lemma SkipWsOf(t: string)
    requires t == [] || !IsWs(t[0])
    ensures SkipWs(t) == t
  {
  }

  /** A value's text, followed by a delimiter, reads back as that value. */
  lemma {:induction false} DumpsParses(v: Json, order: set<string> -> seq<string>, rest: string)
    requires Orders(order) && Delimited(rest)
    ensures ParseValue(Dumps(v, order) + rest) == Some((v, rest))
    decreases v, 1
  {
    match v
    case JNull => LiteralParses("null", JNull, rest);
    case JBool(b) =>
      if b {
        LiteralParses("true", v, rest);
      } else {
        LiteralParses("false", v, rest);
      }
    case JInt(i) =>
      NumberRoundTrip(i, rest);
      assert IntText(i)[0] == '-' || IsDigit(IntText(i)[0]);
    case JStr(str) => StringParses(str, rest);
    case JArr(xs) => ArrayParses(v, order, rest);
    case JObj(m) => ObjectParses(v, order, rest);
  }

  lemma LiteralParses(word: string, v: Json, rest: string)
    requires word == "null" || word == "true" || word == "false"
    requires v == (if word == "null" then JNull else JBool(word == "true"))
    ensures ParseValue(word + rest) == Some((v, rest))
  {
    var s := word + rest;
    assert s[..|word|] == word && s[|word|..] == rest;
  }

  lemma StringParses(str: string, rest: string)
    ensures ParseValue(Quote(str) + rest) == Some((JStr(str), rest))
  {
    KeyParses(str, rest);
  }

  /** A string literal reads back as the string, and the text after it. */
  lemma KeyParses(k: string, t: string)
    ensures ParseString((Quote(k) + t)[1..], "") == Some((k, t))
  {
    assert (Quote(k) + t)[1..] == Escape(k) + "\"" + t;
    EscapeParses(k, t, "");
    assert "" + k == k;
  }

  lemma {:induction false} ArrayParses(v: Json, order: set<string> -> seq<string>, rest: string)
    requires Orders(order) && v.JArr? && Delimited(rest)
    ensures ParseValue(Dumps(v, order) + rest) == Some((v, rest))
    decreases v, 0, |v.items| + 1
  {
    var s := Dumps(v, order) + rest;
    var body := Sep(Elements(v, order)) + "]" + rest;
    assert s == "[" + body;
    assert s[1..] == body;
    if v.items == [] {
      assert body == "]" + rest;
      assert SkipWs(body) == body;
      assert body[1..] == rest;
    } else {
      ArrayBodyStarts(v, order, rest);
      assert ParseValue(s) == ParseArray(body);
      assert Elements(v, order)[0..] == Elements(v, order);
      assert v.items[..0] == [];
      ElementsParse(v, order, 0, [], rest);
    }
  }

  /** The elements of a non-empty array start with a value, read as elements. */
  lemma ArrayBodyStarts(v: Json, order: set<string> -> seq<string>, rest: string)
    requires Orders(order) && v.JArr? && v.items != []
    ensures var body := Sep(Elements(v, order)) + "]" + rest;
      SkipWs(body) == body && ParseArray(body) == ParseElements(body, [])
  {
    var ps := Elements(v, order);
    var body := Sep(ps) + "]" + rest;
    SepHead(ps, "]" + rest);
    assert body == Sep(ps) + ("]" + rest);
    assert body[0] == Dumps(v.items[0], order)[0];
    SkipWsOf(body);
  }

  lemma {:induction false} ObjectParses(v: Json, order: set<string> -> seq<string>, rest: string)
    requires Orders(order) && v.JObj? && Delimited(rest)
    ensures ParseValue(Dumps(v, order) + rest) == Some((v, rest))
    decreases v, 0, |order(v.fields.Keys)| + 1
  {
    var m := v.fields;
    var ps := Members(v, order);
    var keys := order(m.Keys);
    assert ListsOnce(keys, m.Keys);
    var s := Dumps(v, order) + rest;
    var body := Sep(ps) + "}" + rest;
    assert s == "{" + body;
    assert s[1..] == body;
    if ps == [] {
      assert m.Keys == {};
      assert SkipWs(body) == "}" + rest;
      assert ("}" + rest)[1..] == rest;
    } else {
      assert body[0] == '"' by {
        assert body[0] == Sep(ps)[0] == ps[0][0];
      }
      SkipWsOf(body);
      assert ParseValue(s) == ParseObject(body) == ParseMembers(body, map[]);
      assert ps[0..] == ps;
      assert Known(m, keys, 0) == map[];
      MembersParse(v, order, 0, rest);
    }
  }

  /** After an element, `", "` leads to the next one. */
  lemma ElementThenMore(d: string, x: Json, tail: string, acc: seq<Json>)
    requires ParseValue(d + (", " + tail)) == Some((x, ", " + tail))
    requires tail == [] || !IsWs(tail[0])
    ensures ParseElements(d + (", " + tail), acc) == ParseElements(tail, acc + [x])
  {
    assert (", " + tail)[1..] == " " + tail;
    SkipWsOf(tail);
    assert SkipWs(" " + tail) == tail;
  }

  /** After the last element, `]` closes the array. */
  lemma ElementThenClose(d: string, x: Json, rest: string, acc: seq<Json>)
    requires ParseValue(d + ("]" + rest)) == Some((x, "]" + rest))
    ensures ParseElements(d + ("]" + rest), acc) == Some((JArr(acc + [x]), rest))
  {
    assert ("]" + rest)[1..] == rest;
  }

  /** `", ".join` of two or more parts. */
  lemma SepCons(ps: seq<string>, tail: string)
    requires |ps| >= 2
    ensures Sep(ps) + tail == ps[0] + (", " + (Sep(ps[1..]) + tail))
  {
  }

  /**
   * The elements from the `i`-th on, separated by `", "` and closed by `]`,
   * read back as the array.
   */
  lemma {:induction false} ElementsParse(v: Json, order: set<string> -> seq<string>, i: nat, acc: seq<Json>, rest: string)
    requires Orders(order) && v.JArr? && i < |v.items| && acc == v.items[..i] && Delimited(rest)
    ensures ParseElements(Sep(Elements(v, order)[i..]) + "]" + rest, acc) == Some((v, rest))
    decreases v, 0, |v.items| - i
  {
    if i == |v.items| - 1 {
      LastElementParses(v, order, i, acc, rest);
    } else {
      NextElementParses(v, order, i, acc, rest);
      assert acc + [v.items[i]] == v.items[..i + 1];
      ElementsParse(v, order, i + 1, acc + [v.items[i]], rest);
    }
  }

  /** The last element, closed by `]`, completes the array. */
  lemma LastElementParses(v: Json, order: set<string> -> seq<string>, i: nat, acc: seq<Json>, rest: string)
    requires Orders(order) && v.JArr? && i == |v.items| - 1 && acc == v.items[..i] && Delimited(rest)
    ensures ParseElements(Sep(Elements(v, order)[i..]) + "]" + rest, acc) == Some((v, rest))
    decreases v, 0, 0
  {
    var xs := v.items;
    var ps := Elements(v, order)[i..];
    var d := Dumps(xs[i], order);
    assert ps == [d];
    assert Sep(ps) + "]" + rest == d + ("]" + rest);
    DumpsParses(xs[i], order, "]" + rest);
    ElementThenClose(d, xs[i], rest, acc);
    assert acc + [xs[i]] == xs;
  }

  /** An element followed by `", "` is read, and the next one follows. */
  lemma NextElementParses(v: Json, order: set<string> -> seq<string>, i: nat, acc: seq<Json>, rest: string)
    requires Orders(order) && v.JArr? && i + 1 < |v.items| && Delimited(rest)
    ensures ParseElements(Sep(Elements(v, order)[i..]) + "]" + rest, acc) ==
      ParseElements(Sep(Elements(v, order)[i + 1..]) + "]" + rest, acc + [v.items[i]])
    decreases v, 0, 0
  {
    var xs := v.items;
    var ps := Elements(v, order)[i..];
    var d := Dumps(xs[i], order);
    var tail := Sep(Elements(v, order)[i + 1..]) + "]" + rest;
    assert ps[0] == d;
    assert ps[1..] == Elements(v, order)[i + 1..];
    SepCons(ps, "]" + rest);
    assert Sep(ps) + "]" + rest == d + (", " + tail);
    DumpsParses(xs[i], order, ", " + tail);
    ElementThenMore(d, xs[i], tail, acc);
  }

  /** The entries of `m` for the first `i` keys. */
  function Known(m: map<string, Json>, keys: seq<string>, i: nat): map<string, Json>
    requires i <= |keys|
  {
    map k | k in m && k in keys[..i] :: m[k]
  }

  /** The `": "` after a key is passed over up to the value. */
  lemma ColonSkips(t: string)
    requires t != [] && !IsWs(t[0])
    ensures SkipWs(": " + t) == ": " + t
    ensures SkipWs((": " + t)[1..]) == t
  {
    assert (": " + t)[1..] == " " + t;
    SkipWsOf(t);
  }

  /** After an entry, `", "` leads to the next one. */
  lemma MemberThenMore(k: string, d: string, x: Json, tail: string, acc: map<string, Json>)
    requires ParseValue(d + (", " + tail)) == Some((x, ", " + tail))
    requires d != [] && !IsWs(d[0])
    requires tail == [] || !IsWs(tail[0])
    ensures ParseMembers(Quote(k) + (": " + (d + (", " + tail))), acc) == ParseMembers(tail, acc[k := x])
  {
    KeyParses(k, ": " + (d + (", " + tail)));
    ColonSkips(d + (", " + tail));
    assert (", " + tail)[1..] == " " + tail;
    SkipWsOf(tail);
    assert SkipWs(" " + tail) == tail;
  }

  /** After the last entry, `}` closes the object. */
  lemma MemberThenClose(k: string, d: string, x: Json, rest: string, acc: map<string, Json>)
    requires ParseValue(d + ("}" + rest)) == Some((x, "}" + rest))
    requires d != [] && !IsWs(d[0])
    ensures ParseMembers(Quote(k) + (": " + (d + ("}" + rest))), acc) == Some((JObj(acc[k := x]), rest))
  {
    KeyParses(k, ": " + (d + ("}" + rest)));
    ColonSkips(d + ("}" + rest));
    assert ("}" + rest)[1..] == rest;
  }

  /** Adding the next key's entry to the known entries. */
  lemma KnownNext(m: map<string, Json>, keys: seq<string>, i: nat)
    requires i < |keys| && keys[i] in m
    ensures Known(m, keys, i)[keys[i] := m[keys[i]]] == Known(m, keys, i + 1)
  {
    assert keys[..i + 1] == keys[..i] + [keys[i]];
  }

  /** All the keys known: the whole dict. */
  lemma KnownAll(m: map<string, Json>, keys: seq<string>)
    requires ListsOnce(keys, m.Keys)
    ensures Known(m, keys, |keys|) == m
  {
    assert keys[..|keys|] == keys;
  }

  /** The text of the entry for the `i`-th key. */
  lemma MemberText(v: Json, order: set<string> -> seq<string>, i: nat, after: string)
    requires Orders(order) && v.JObj? && i < |order(v.fields.Keys)|
    ensures var k := order(v.fields.Keys)[i];
      && k in v.fields
      && Members(v, order)[i] + after == Quote(k) + (": " + (Dumps(v.fields[k], order) + after))
  {
    assert ListsOnce(order(v.fields.Keys), v.fields.Keys);
  }

  /** The last entry, closed by `}`, completes the dict. */
  lemma {:induction false} LastMemberParses(v: Json, order: set<string> -> seq<string>, rest: string)
    requires Orders(order) && v.JObj? && |order(v.fields.Keys)| > 0 && Delimited(rest)
    ensures var keys := order(v.fields.Keys);
      ParseMembers(Members(v, order)[|keys| - 1] + ("}" + rest), Known(v.fields, keys, |keys| - 1)) == Some((v, rest))
    decreases v, 0, 0
  {
    var m := v.fields;
    var keys := order(m.Keys);
    assert ListsOnce(keys, m.Keys);
    var i := |keys| - 1;
    var k := keys[i];
    var acc := Known(m, keys, i);
    MemberText(v, order, i, "}" + rest);
    var d := Dumps(m[k], order);
    DumpsParses(m[k], order, "}" + rest);
    MemberThenClose(k, d, m[k], rest, acc);
    assert ParseMembers(Members(v, order)[i] + ("}" + rest), acc) == Some((JObj(acc[k := m[k]]), rest));
    KnownNext(m, keys, i);
    KnownAll(m, keys);
    assert acc[k := m[k]] == m;
  }

  /** `", ".join` starts with its first part. */
  lemma SepHead(ps: seq<string>, t: string)
    requires ps != [] && ps[0] != []
    ensures Sep(ps) + t != [] && (Sep(ps) + t)[0] == ps[0][0]
  {
    if |ps| >= 2 {
      SepCons(ps, t);
    }
  }

  /** The entries after the `i`-th start with a quote. */
  lemma MembersTailStart(v: Json, order: set<string> -> seq<string>, i: nat, rest: string)
    requires Orders(order) && v.JObj? && i + 1 < |order(v.fields.Keys)|
    ensures var tail := Sep(Members(v, order)[i + 1..]) + "}" + rest;
      tail != [] && !IsWs(tail[0])
  {
    var qs := Members(v, order)[i + 1..];
    MemberText(v, order, i + 1, "");
    assert qs[0] == Members(v, order)[i + 1];
    SepHead(qs, "}" + rest);
    assert Sep(qs) + "}" + rest == Sep(qs) + ("}" + rest);
  }

  /** The entries from the `i`-th key on, taken apart at the first one. */
  lemma MembersSplit(v: Json, order: set<string> -> seq<string>, i: nat, rest: string)
    requires Orders(order) && v.JObj? && i + 1 < |order(v.fields.Keys)|
    ensures var keys := order(v.fields.Keys);
      var k := keys[i];
      var tail := Sep(Members(v, order)[i + 1..]) + "}" + rest;
      && k in v.fields
      && Sep(Members(v, order)[i..]) + "}" + rest == Quote(k) + (": " + (Dumps(v.fields[k], order) + (", " + tail)))
  {
    var ps := Members(v, order)[i..];
    var tail := Sep(Members(v, order)[i + 1..]) + "}" + rest;
    assert ps[1..] == Members(v, order)[i + 1..];
    SepCons(ps, "}" + rest);
    MemberText(v, order, i, ", " + tail);
  }

  /** An entry followed by `", "` and the further entries reads on into them. */
  lemma {:induction false} NextMemberParses(v: Json, order: set<string> -> seq<string>, i: nat, rest: string)
    requires Orders(order) && v.JObj? && i + 1 < |order(v.fields.Keys)| && Delimited(rest)
    requires var keys := order(v.fields.Keys);
      ParseMembers(Sep(Members(v, order)[i + 1..]) + "}" + rest, Known(v.fields, keys, i + 1)) == Some((v, rest))
    ensures var keys := order(v.fields.Keys);
      ParseMembers(Sep(Members(v, order)[i..]) + "}" + rest, Known(v.fields, keys, i)) == Some((v, rest))
    decreases v, 0, 0
  {
    var m := v.fields;
    var keys := order(m.Keys);
    var k := keys[i];
    var tail := Sep(Members(v, order)[i + 1..]) + "}" + rest;
    MembersSplit(v, order, i, rest);
    MembersTailStart(v, order, i, rest);
    DumpsParses(m[k], order, ", " + tail);
    MemberThenMore(k, Dumps(m[k], order), m[k], tail, Known(m, keys, i));
    KnownNext(m, keys, i);
  }

  /**
   * The entries from the `i`-th key on, separated by `", "` and closed by
   * `}`, read back as the dict.
   */
  lemma {:induction false} MembersParse(v: Json, order: set<string> -> seq<string>, i: nat, rest: string)
    requires Orders(order) && v.JObj? && i < |order(v.fields.Keys)| && Delimited(rest)
    ensures var keys := order(v.fields.Keys);
      ParseMembers(Sep(Members(v, order)[i..]) + "}" + rest, Known(v.fields, keys, i)) == Some((v, rest))
    decreases v, 0, |order(v.fields.Keys)| - i
  {
    var ps := Members(v, order)[i..];
    if |ps| == 1 {
      assert Sep(ps) + "}" + rest == Members(v, order)[i] + ("}" + rest);
      LastMemberParses(v, order, rest);
    } else {
      MembersParse(v, order, i + 1, rest);
      NextMemberParses(v, order, i, rest);
    }
  }

  /** `json.loads(json.dumps(v)) == v`. */
  lemma LoadsDumps(v: Json, order: set<string> -> seq<string>)
    requires Orders(order)
    ensures Loads(Dumps(v, order)) == Some(v)
  {
    DumpsParses(v, order, "");
    assert Dumps(v, order) + "" == Dumps(v, order);
  }

  // ----------------------------------------------------------- the field

  /** `JSON._serialize`: None becomes `''`, anything else its JSON text. */
  function SerializeField(v: Json, order: set<string> -> seq<string>): (r: Json)
    requires Orders(order)
    ensures r.JStr?
    ensures v != JNull ==> Loads(r.s) == Some(v)
  {
    if v == JNull then JStr("")
    else
      LoadsDumps(v, order);
      JStr(Dumps(v, order))
  }

  /**
   * `JSON._deserialize`: None becomes `''`, a string is decoded and a decode
   * error becomes a ValidationError; `json.loads` refuses anything else with
   * a TypeError, which the field does not catch.
   */
  function DeserializeField(t: Json): (r: Result<Json>)
    ensures t == JNull ==> r == Success(JStr(""))
    ensures r.Failure? ==> (r.error == ValidationError <==> t.JStr?)
    ensures t.JStr? && r.Success? ==> Loads(t.s) == Some(r.value)
    ensures t.JStr? ==> (r.Success? <==> Loads(t.s).Some?)
    ensures !t.JNull? && !t.JStr? ==> r == Failure(TypeError)
  {
    match t
    case JNull => Success(JStr(""))
    case JStr(s) =>
      (match Loads(s)
       case None => Failure(ValidationError)
       case Some(v) => Success(v))
    case _ => Failure(TypeError)
  }

  /**
   * Every value but None survives the field's round trip; None is written
   * as `''`, which does not decode, so it comes back as a ValidationError.
   */
  lemma FieldRoundTrip(v: Json, order: set<string> -> seq<string>)
    requires Orders(order)
    ensures v != JNull ==> DeserializeField(SerializeField(v, order)) == Success(v)
    ensures DeserializeField(SerializeField(JNull, order)) == Failure(ValidationError)
  {
  }
}

=== FILE: json_value.dfy ===
/**
 * JSON-like values as the library handles them after decoding: Python's
 * `None`, booleans, integers, strings, lists and dicts. A dict is a map
 * because Python compares dicts without regard to insertion order.
 */
module JsonValue {
  import opened Wrappers

  datatype Json =
    | JNull
    | JBool(b: bool)
    | JInt(i: int)
    | JStr(s: string)
    | JArr(items: seq<Json>)
    | JObj(fields: map<string, Json>)

  /** The empty dict `{}`. */
  const EmptyObj: Json := JObj(map[])

  /** Python truthiness: `None`, `False`, `0`, `''`, `[]` and `{}` are falsy. */
  predicate Truthy(j: Json) {
    match j
    case JNull => false
    case JBool(b) => b
    case JInt(i) => i != 0
    case JStr(s) => s != ""
    case JArr(xs) => xs != []
    case JObj(m) => m != map[]
  }

  /** `getattr`/`dict[...]` on an attribute map: `None` when the key is absent. */
  function Lookup(m: map<string, Json>, key: string): Option<Json> {
    if key in m then Some(m[key]) else None
  }
}

=== FILE: lists.dfy ===
/**
 * The order-preserving filter the models use to look records up by
 * attribute (`filter_list`, and the list comprehensions that play the same
 * role), with the facts about first, last and unique matches that the
 * lookups rely on.
 */
module Lists {

  /** The elements of `s` satisfying `p`, in their original order. */
  function Filter<T>(s: seq<T>, p: T -> bool): (r: seq<T>)
    ensures |r| <= |s|
    ensures forall x :: x in r ==> x in s && p(x)
    ensures forall i :: 0 <= i < |s| && p(s[i]) ==> s[i] in r
    decreases |s|
  {
    if s == [] then []
    else (if p(s[0]) then [s[0]] else []) + Filter(s[1..], p)
  }

  /** `i` is the first position of `s` satisfying `p`. */
  predicate FirstMatch<T>(s: seq<T>, p: T -> bool, i: int)
  {
    0 <= i < |s| && p(s[i]) && forall j :: 0 <= j < i ==> !p(s[j])
  }

  /** `i` is the last position of `s` satisfying `p`. */
  predicate LastMatch<T>(s: seq<T>, p: T -> bool, i: int)
  {
    0 <= i < |s| && p(s[i]) && forall j :: i < j < |s| ==> !p(s[j])
  }

  /** `i` is the only position of `s` satisfying `p`. */
  predicate OnlyMatch<T>(s: seq<T>, p: T -> bool, i: int)
  {
    0 <= i < |s| && p(s[i]) && forall j :: 0 <= j < |s| && j != i ==> !p(s[j])
  }

  /** Two distinct positions of `s` satisfy `p`. */
  predicate TwoMatches<T>(s: seq<T>, p: T -> bool)
  {
    exists i, j :: 0 <= i < j < |s| && p(s[i]) && p(s[j])
  }

  /** The filter is empty exactly when nothing satisfies `p`. */
  lemma FilterEmpty<T>(s: seq<T>, p: T -> bool)
    ensures Filter(s, p) == [] <==> forall i :: 0 <= i < |s| ==> !p(s[i])
  {
  }

  /** The head of the filter is the first match. */
  lemma {:induction false} FilterHead<T>(s: seq<T>, p: T -> bool)
    requires Filter(s, p) != []
    ensures exists i :: FirstMatch(s, p, i) && Filter(s, p)[0] == s[i]
    decreases |s|
  {
    if p(s[0]) {
      assert FirstMatch(s, p, 0);
    } else {
      FilterHead(s[1..], p);
      var i :| FirstMatch(s[1..], p, i) && Filter(s[1..], p)[0] == s[1..][i];
      assert FirstMatch(s, p, i + 1);
    }
  }

  /** The last element of the filter is the last match. */
  lemma {:induction false} FilterLast<T>(s: seq<T>, p: T -> bool)
    requires Filter(s, p) != []
    ensures exists i :: LastMatch(s, p, i) && Filter(s, p)[|Filter(s, p)| - 1] == s[i]
    decreases |s|
  {
    var t := s[1..];
    var head := if p(s[0]) then [s[0]] else [];
    assert Filter(s, p) == head + Filter(t, p);
    if Filter(t, p) == [] {
      assert Filter(s, p) == [s[0]];
      FilterEmpty(t, p);
      forall j | 0 < j < |s| ensures !p(s[j]) {
        assert s[j] == t[j - 1];
      }
      assert LastMatch(s, p, 0);
    } else {
      FilterLast(t, p);
      var i :| LastMatch(t, p, i) && Filter(t, p)[|Filter(t, p)| - 1] == t[i];
      assert Filter(s, p)[|Filter(s, p)| - 1] == Filter(t, p)[|Filter(t, p)| - 1];
      forall j | i + 1 < j < |s| ensures !p(s[j]) {
        assert s[j] == t[j - 1];
      }
      assert LastMatch(s, p, i + 1);
    }
  }

  /** Two matching positions give a filter of at least two elements. */
  lemma {:induction false} TwoMatchesFilter<T>(s: seq<T>, p: T -> bool)
    requires TwoMatches(s, p)
    ensures |Filter(s, p)| >= 2
    decreases |s|
  {
    var t := s[1..];
    assert Filter(s, p) == (if p(s[0]) then [s[0]] else []) + Filter(t, p);
    var i, j :| 0 <= i < j < |s| && p(s[i]) && p(s[j]);
    assert s[j] == t[j - 1];
    if i == 0 {
      assert s[j] in Filter(t, p);
    } else {
      assert s[i] == t[i - 1];
      assert TwoMatches(t, p);
      TwoMatchesFilter(t, p);
    }
  }

  /** A filter of at least two elements comes from two matching positions. */
  lemma {:induction false} FilterTwoMatches<T>(s: seq<T>, p: T -> bool)
    requires |Filter(s, p)| >= 2
    ensures TwoMatches(s, p)
    decreases |s|
  {
    var t := s[1..];
    assert Filter(s, p) == (if p(s[0]) then [s[0]] else []) + Filter(t, p);
    if p(s[0]) {
      var x := Filter(t, p)[0];
      assert x in Filter(t, p);
      var k :| 0 <= k < |t| && t[k] == x;
      assert s[k + 1] == x;
      assert p(s[0]) && p(s[k + 1]);
    } else {
      FilterTwoMatches(t, p);
      var i, j :| 0 <= i < j < |t| && p(t[i]) && p(t[j]);
      assert s[i + 1] == t[i] && s[j + 1] == t[j];
    }
  }

  /** The filter has at least two elements exactly when two positions match. */
  lemma FilterTwo<T>(s: seq<T>, p: T -> bool)
    ensures |Filter(s, p)| >= 2 <==> TwoMatches(s, p)
  {
    if TwoMatches(s, p) {
      TwoMatchesFilter(s, p);
    }
    if |Filter(s, p)| >= 2 {
      FilterTwoMatches(s, p);
    }
  }

  /** A one-element filter holds the only match. */
  lemma FilterOne<T>(s: seq<T>, p: T -> bool)
    requires |Filter(s, p)| == 1
    ensures exists i :: OnlyMatch(s, p, i) && Filter(s, p)[0] == s[i]
  {
    FilterHead(s, p);
    FilterTwo(s, p);
    var i :| FirstMatch(s, p, i) && Filter(s, p)[0] == s[i];
    forall j | 0 <= j < |s| && j != i ensures !p(s[j]) {
      if p(s[j]) {
        assert j > i;
        assert TwoMatches(s, p);
      }
    }
  }

  /** Filtering by `p` and then by `q` is filtering once by their conjunction `r`. */
  lemma {:induction false} FilterFilter<T>(s: seq<T>, p: T -> bool, q: T -> bool, r: T -> bool)
    requires forall x :: r(x) == (p(x) && q(x))
    ensures Filter(Filter(s, p), q) == Filter(s, r)
    decreases |s|
  {
    if s != [] {
      FilterFilter(s[1..], p, q, r);
      if p(s[0]) {
        assert Filter(s, p) == [s[0]] + Filter(s[1..], p);
        assert Filter(s, p)[1..] == Filter(s[1..], p);
      } else {
        assert Filter(s, p) == Filter(s[1..], p);
      }
    }
  }

  /** Filters by pointwise-equal conditions agree. */
  lemma {:induction false} FilterCongruent<T>(s: seq<T>, p: T -> bool, q: T -> bool)
    requires forall x :: p(x) == q(x)
    ensures Filter(s, p) == Filter(s, q)
    decreases |s|
  {
    if s != [] {
      FilterCongruent(s[1..], p, q);
    }
  }

  /** Filtering after appending one element. */
  lemma {:induction false} FilterSnoc<T>(s: seq<T>, x: T, p: T -> bool)
    ensures Filter(s + [x], p) == Filter(s, p) + (if p(x) then [x] else [])
    decreases |s|
  {
    if s != [] {
      assert (s + [x])[1..] == s[1..] + [x];
      FilterSnoc(s[1..], x, p);
    }
  }
}

=== FILE: models.dfy ===
/**
 * Domain rules of `pydent/models.py` over immutable records: latest-code
 * selection, FieldType construction and its AllowableFieldTypes, creating a
 * FieldValue from a FieldType, filling a FieldValue with a value, sample,
 * item or container, and the FieldValue lookups on an Operation.
 *
 * Related models that the rules only read an id from are `TypeRef`s.
 * Methods that mutate in place and then raise return the mutated record
 * together with the error (`ValueOutcome`, `OpOutcome`).
 */
module Models {
  import opened Wrappers
  import opened JsonValue
  import opened Lists

  /** A server id: None until the record is saved. */
  type Id = Option<int>

  /** An OperationType, SampleType or ObjectType, as far as the rules read it. */
  datatype TypeRef = TypeRef(id: Id)

  // ---------------------------------------------------------------- codes

  /**
   * A Code. `childId` is None when the record has no `child_id` attribute
   * and Some(None) when the attribute is None.
   */
  datatype Code = Code(name: string, childId: Option<Id>)

  /** A code that no newer version replaces. */
  predicate IsLatest(c: Code)
  {
    c.childId.None? || c.childId.value.None?
  }

  function HasName(name: string): Code -> bool
  {
    (c: Code) => c.name == name
  }

  function IsLatestCode(): Code -> bool
  {
    (c: Code) => IsLatest(c)
  }

  /** `HasCodeMixin.code`: filter by name, then keep the latest versions, take the last. */
  function LatestCode(codes: Option<seq<Code>>, name: string): Option<Code>
  {
    if codes.None? then None
    else
      var latest := Filter(Filter(codes.value, HasName(name)), IsLatestCode());
      if |latest| > 0 then Some(latest[|latest| - 1]) else None
  }

  /** The codes `code(name)` chooses among. */
  function Selectable(name: string): Code -> bool
  {
    (c: Code) => c.name == name && IsLatest(c)
  }

  lemma SelectableFilter(codes: seq<Code>, name: string)
    ensures Filter(Filter(codes, HasName(name)), IsLatestCode()) == Filter(codes, Selectable(name))
  {
    FilterFilter(codes, HasName(name), IsLatestCode(), Selectable(name));
  }

  /**
   * `code(name)` is None when there are no codes or none of them is a
   * latest code of that name, and otherwise the last such code.
   */
  lemma LatestCodeIsLast(codes: Option<seq<Code>>, name: string)
    ensures codes.None? ==> LatestCode(codes, name).None?
    ensures codes.Some? ==>
      (LatestCode(codes, name).None? <==>
        forall i :: 0 <= i < |codes.value| ==> !Selectable(name)(codes.value[i]))
    ensures LatestCode(codes, name).Some? ==>
      (codes.Some? &&
       exists i :: LastMatch(codes.value, Selectable(name), i) && LatestCode(codes, name).value == codes.value[i])
  {
    if codes.Some? {
      var latest := Filter(codes.value, Selectable(name));
      SelectableFilter(codes.value, name);
      assert LatestCode(codes, name) == if |latest| > 0 then Some(latest[|latest| - 1]) else None;
      FilterEmpty(codes.value, Selectable(name));
      if latest != [] {
        FilterLast(codes.value, Selectable(name));
      }
    }
  }

  // ----------------------------------------------------------- field types

  /** An AllowableFieldType: one sample type / container pairing a field accepts. */
  datatype AllowableFieldType = AllowableFieldType(id: Id, sampleTypeId: Id, objectTypeId: Id)

  datatype FieldType = FieldType(
    id: Id,
    name: string,
    role: string,
    isArray: bool,
    parentClass: Option<string>,
    parentId: Id,
    allowableFieldTypes: Option<seq<AllowableFieldType>>)

  const OperationTypeClass := "OperationType"
  const SampleTypeClass := "SampleType"
  const OperationClass := "Operation"

  /** The id of an optional related model. */
  function IdOf(t: Option<TypeRef>): Id
  {
    if t.Some? then t.value.id else None
  }

  /** The AllowableFieldType `create_allowable_field_type` builds for a pairing. */
  function NewAllowableFieldType(sampleType: Option<TypeRef>, objectType: Option<TypeRef>): AllowableFieldType
  {
    AllowableFieldType(None, IdOf(sampleType), IdOf(objectType))
  }

  /** The AllowableFieldTypes of a FieldType, a missing or empty list read as empty. */
  function AftsOrEmpty(ft: FieldType): seq<AllowableFieldType>
  {
    if ft.allowableFieldTypes.Some? then ft.allowableFieldTypes.value else []
  }

  /** `FieldType.create_allowable_field_type`: the new one goes to the end of the list. */
  function CreateAllowableFieldType(ft: FieldType, sampleType: Option<TypeRef>, objectType: Option<TypeRef>)
    : (r: (FieldType, AllowableFieldType))
    ensures r.1.sampleTypeId == IdOf(sampleType) && r.1.objectTypeId == IdOf(objectType)
    ensures r.0.allowableFieldTypes.Some?
    ensures r.0.allowableFieldTypes.value == AftsOrEmpty(ft) + [r.1]
    ensures r.0 == ft.(allowableFieldTypes := r.0.allowableFieldTypes)
  {
    var afts := if ft.allowableFieldTypes.Some? && ft.allowableFieldTypes.value != []
      then ft.allowableFieldTypes.value else [];
    var aft := NewAllowableFieldType(sampleType, objectType);
    (ft.(allowableFieldTypes := Some(afts + [aft])), aft)
  }

  /** The constructor's loop over `aft_stype_and_objtype`. */
  function AddPairings(ft: FieldType, pairings: seq<(Option<TypeRef>, Option<TypeRef>)>): (r: FieldType)
    ensures pairings != [] ==> r.allowableFieldTypes.Some?
    ensures |AftsOrEmpty(r)| == |AftsOrEmpty(ft)| + |pairings|
    ensures AftsOrEmpty(r)[..|AftsOrEmpty(ft)|] == AftsOrEmpty(ft)
    ensures forall k :: 0 <= k < |pairings| ==>
      AftsOrEmpty(r)[|AftsOrEmpty(ft)| + k] == NewAllowableFieldType(pairings[k].0, pairings[k].1)
    ensures r == ft.(allowableFieldTypes := r.allowableFieldTypes)
    decreases |pairings|
  {
    if pairings == [] then ft
    else
      var next := CreateAllowableFieldType(ft, pairings[0].0, pairings[0].1).0;
      AddPairings(next, pairings[1..])
  }

  /**
   * `FieldType.__init__`. Both an operation type and a sample type is an
   * error; either one decides the parent class and parent id. Pairings are
   * only turned into AllowableFieldTypes when no list is given.
   */
  function NewFieldType(
    name: string, role: string, isArray: bool,
    parentClass: Option<string>, parentId: Id,
    operationType: Option<TypeRef>, sampleType: Option<TypeRef>,
    pairings: seq<(Option<TypeRef>, Option<TypeRef>)>,
    allowableFieldTypes: Option<seq<AllowableFieldType>>): (r: Result<FieldType>)
    ensures r.Failure? <==> operationType.Some? && sampleType.Some?
    ensures r.Failure? ==> r.error == GenericException
    ensures r.Success? && operationType.Some? ==>
      r.value.parentClass == Some(OperationTypeClass) && r.value.parentId == operationType.value.id
    ensures r.Success? && sampleType.Some? ==>
      r.value.parentClass == Some(SampleTypeClass) && r.value.parentId == sampleType.value.id
    ensures r.Success? && operationType.None? && sampleType.None? ==>
      r.value.parentClass == parentClass && r.value.parentId == parentId
    ensures r.Success? ==> r.value.name == name && r.value.role == role && r.value.isArray == isArray
    ensures r.Success? && allowableFieldTypes.Some? ==> r.value.allowableFieldTypes == allowableFieldTypes
    ensures r.Success? && allowableFieldTypes.None? ==>
      |AftsOrEmpty(r.value)| == |pairings| &&
      forall k :: 0 <= k < |pairings| ==>
        AftsOrEmpty(r.value)[k] == NewAllowableFieldType(pairings[k].0, pairings[k].1)
  {
    if operationType.Some? && sampleType.Some? then Failure(GenericException)
    else
      var pc := if operationType.Some? then Some(OperationTypeClass)
        else if sampleType.Some? then Some(SampleTypeClass) else parentClass;
      var pid := if operationType.Some? then operationType.value.id
        else if sampleType.Some? then sampleType.value.id else parentId;
      var ft := FieldType(None, name, role, isArray, pc, pid, allowableFieldTypes);
      if allowableFieldTypes.None? && pairings != [] then Success(AddPairings(ft, pairings))
      else Success(ft)
  }

  /** `FieldType.get_allowable_field_types`: an empty list is normalised to None. */
  function GetAllowableFieldTypes(ft: FieldType): (r: (FieldType, Option<seq<AllowableFieldType>>))
    ensures r.1.None? <==> ft.allowableFieldTypes.None? || ft.allowableFieldTypes.value == []
    ensures r.1.Some? ==> r.1 == ft.allowableFieldTypes
    ensures r.0 == ft.(allowableFieldTypes := r.1)
  {
    var afts := if ft.allowableFieldTypes == Some([]) then None else ft.allowableFieldTypes;
    (ft.(allowableFieldTypes := afts), afts)
  }

  // ---------------------------------------------------------- field values

  datatype Sample = Sample(id: Id, sampleTypeId: Id)

  datatype Item = Item(id: Id, objectTypeId: Id, objectType: Option<TypeRef>, sample: Option<Sample>)

  datatype FieldValue = FieldValue(
    id: Id,
    name: string,
    role: string,
    parentClass: Option<string>,
    parentId: Id,
    fieldType: Option<FieldType>,
    fieldTypeId: Id,
    allowableFieldType: Option<AllowableFieldType>,
    allowableFieldTypeId: Id,
    value: Json,
    sample: Option<Sample>,
    childSampleId: Id,
    item: Option<Item>,
    childItemId: Id,
    objectType: Option<TypeRef>)

  /** `FieldValue(name=..., role=..., field_type=...)` with nothing else given. */
  function NewFieldValue(ft: FieldType): FieldValue
  {
    FieldValue(None, ft.name, ft.role, None, None, Some(ft), ft.id, None, None,
               JNull, None, None, None, None, None)
  }

  /**
   * `FieldType.initialize_field_value`: a missing FieldValue is created from
   * the FieldType, and the first AllowableFieldType, if any, is selected.
   */
  function InitializeFieldValue(ft: FieldType, fv: Option<FieldValue>): (r: FieldValue)
    ensures fv.None? ==>
      (r.name == ft.name && r.role == ft.role && r.fieldType == Some(ft) && r.fieldTypeId == ft.id)
    ensures fv.Some? ==> r.name == fv.value.name && r.role == fv.value.role
    ensures AftsOrEmpty(ft) != [] ==>
      r.allowableFieldType == Some(AftsOrEmpty(ft)[0]) &&
      r.allowableFieldTypeId == AftsOrEmpty(ft)[0].id
    ensures AftsOrEmpty(ft) == [] ==>
      r == (if fv.Some? then fv.value else NewFieldValue(ft))
    ensures AftsOrEmpty(ft) != [] ==>
      r == (if fv.Some? then fv.value else NewFieldValue(ft)).(
        allowableFieldType := Some(AftsOrEmpty(ft)[0]), allowableFieldTypeId := AftsOrEmpty(ft)[0].id)
  {
    var f := if fv.Some? then fv.value else NewFieldValue(ft);
    if ft.allowableFieldTypes.Some? && ft.allowableFieldTypes.value != [] then
      var aft := ft.allowableFieldTypes.value[0];
      f.(allowableFieldTypeId := aft.id, allowableFieldType := Some(aft))
    else f
  }

  /** `FieldValue.set_operation`. */
  function SetOperation(fv: FieldValue, operationId: Id): (r: FieldValue)
    ensures r.parentClass == Some(OperationClass) && r.parentId == operationId
    ensures r == fv.(parentClass := r.parentClass, parentId := r.parentId)
  {
    fv.(parentClass := Some(OperationClass), parentId := operationId)
  }

  /** The sample `_set_helper` stores: the given one, or else the item's. */
  function EffectiveSample(sample: Option<Sample>, item: Option<Item>): Option<Sample>
  {
    if sample.Some? then sample else if item.Some? then item.value.sample else None
  }

  /**
   * `FieldValue._set_helper`. An item that is not in the given container is
   * an error; otherwise a truthy value, the item, the sample (defaulting to
   * the item's) and the object type (the container, else the item's) are
   * stored, and everything else is kept.
   */
  function SetHelper(fv: FieldValue, value: Json, sample: Option<Sample>, container: Option<TypeRef>,
                     item: Option<Item>): (r: Result<FieldValue>)
    ensures r.Failure? <==> item.Some? && container.Some? && item.value.objectTypeId != container.value.id
    ensures r.Failure? ==> r.error == ModelError
    ensures r.Success? ==>
      var f := r.value;
      && f.value == (if Truthy(value) then value else fv.value)
      && (item.Some? ==> f.item == item && f.childItemId == item.value.id)
      && (item.None? ==> f.item == fv.item && f.childItemId == fv.childItemId)
      && (EffectiveSample(sample, item).Some? ==>
            f.sample == EffectiveSample(sample, item) && f.childSampleId == EffectiveSample(sample, item).value.id)
      && (EffectiveSample(sample, item).None? ==> f.sample == fv.sample && f.childSampleId == fv.childSampleId)
      && f.objectType == (if container.Some? then container
                          else if item.Some? then item.value.objectType
                          else fv.objectType)
      && f == fv.(value := f.value, item := f.item, childItemId := f.childItemId,
                  sample := f.sample, childSampleId := f.childSampleId, objectType := f.objectType)
  {
    if item.Some? && container.Some? && item.value.objectTypeId != container.value.id then
      Failure(ModelError)
    else
      var f1 := if Truthy(value) then fv.(value := value) else fv;
      var f2 := if item.Some? then
          f1.(item := item, childItemId := item.value.id, objectType := item.value.objectType)
        else f1;
      var s := if sample.Some? then sample else if item.Some? then item.value.sample else None;
      var f3 := if s.Some? then f2.(sample := s, childSampleId := s.value.id) else f2;
      var f4 := if container.Some? then f3.(objectType := container) else f3;
      Success(f4)
  }

  /** What `set_value` leaves behind: the record, whether it warned, and the error it raised. */
  datatype ValueOutcome = ValueOutcome(fv: FieldValue, warned: bool, error: Option<Error>)

  /** An AllowableFieldType agrees with the sample and the object type a FieldValue holds. */
  function Fits(fv: FieldValue): AllowableFieldType -> bool
  {
    (a: AllowableFieldType) => (fv.sample.Some? ==> a.sampleTypeId == fv.sample.value.sampleTypeId) &&
         (fv.objectType.Some? ==> a.objectTypeId == fv.objectType.value.id)
  }

  function BySampleType(id: Id): AllowableFieldType -> bool
  {
    (a: AllowableFieldType) => a.sampleTypeId == id
  }

  function ByObjectType(id: Id): AllowableFieldType -> bool
  {
    (a: AllowableFieldType) => a.objectTypeId == id
  }

  /** The two successive `filter_list` calls of `set_value`. */
  function Candidates(fv: FieldValue, afts: seq<AllowableFieldType>): seq<AllowableFieldType>
  {
    var bySample := if fv.sample.Some? then Filter(afts, BySampleType(fv.sample.value.sampleTypeId)) else afts;
    if fv.objectType.Some? then Filter(bySample, ByObjectType(fv.objectType.value.id)) else bySample
  }

  /** `FieldValue.set_value`. */
  function SetValue(fv: FieldValue, value: Json, sample: Option<Sample>, container: Option<TypeRef>,
                    item: Option<Item>): ValueOutcome
  {
    match SetHelper(fv, value, sample, container, item)
    case Failure(e) => ValueOutcome(fv, false, Some(e))
    case Success(f) =>
      if sample.None? && container.None? && item.None? then ValueOutcome(f, false, None)
      else if f.fieldType.None? then ValueOutcome(f, false, Some(AttributeError))
      else
        var afts := Candidates(f, AftsOrEmpty(f.fieldType.value));
        if |afts| == 0 then ValueOutcome(f, false, Some(ModelError))
        else if |afts| > 1 then ValueOutcome(f, true, None)
        else ValueOutcome(f.(allowableFieldType := Some(afts[0]), allowableFieldTypeId := afts[0].id), false, None)
  }

  /** The two filters select exactly the AllowableFieldTypes that fit. */
  lemma CandidatesFit(fv: FieldValue, afts: seq<AllowableFieldType>)
    ensures Candidates(fv, afts) == Filter(afts, Fits(fv))
  {
    if fv.sample.Some? && fv.objectType.Some? {
      var p := BySampleType(fv.sample.value.sampleTypeId);
      var q := ByObjectType(fv.objectType.value.id);
      FilterFilter(afts, p, q, Fits(fv));
    } else if fv.sample.Some? {
      FilterCongruent(afts, BySampleType(fv.sample.value.sampleTypeId), Fits(fv));
    } else if fv.objectType.Some? {
      FilterCongruent(afts, ByObjectType(fv.objectType.value.id), Fits(fv));
    } else {
      FilterCongruent(afts, Fits(fv), x => true);
      AllPass(afts);
    }
  }

  lemma {:induction false} AllPass<T>(s: seq<T>)
    ensures Filter(s, x => true) == s
    decreases |s|
  {
    if s != [] {
      AllPass(s[1..]);
    }
  }

  /**
   * `set_value` after a successful `_set_helper` with a sample, item or
   * container: no fitting AllowableFieldType is an error, exactly one is
   * selected (record and id together), several only warn and change nothing.
   */
  lemma SetValueSelectsAllowableFieldType(fv: FieldValue, value: Json, sample: Option<Sample>,
                                          container: Option<TypeRef>, item: Option<Item>)
    requires SetHelper(fv, value, sample, container, item).Success?
    requires sample.Some? || container.Some? || item.Some?
    requires SetHelper(fv, value, sample, container, item).value.fieldType.Some?
    ensures var f := SetHelper(fv, value, sample, container, item).value;
      var afts := AftsOrEmpty(f.fieldType.value);
      var out := SetValue(fv, value, sample, container, item);
      && (out.error == Some(ModelError) <==> forall i :: 0 <= i < |afts| ==> !Fits(f)(afts[i]))
      && (out.warned <==> TwoMatches(afts, Fits(f)))
      && (out.error.None? && !out.warned ==>
            exists i :: OnlyMatch(afts, Fits(f), i) &&
              out.fv == f.(allowableFieldType := Some(afts[i]), allowableFieldTypeId := afts[i].id))
      && (out.error.Some? || out.warned ==> out.fv == f)
  {
    var f := SetHelper(fv, value, sample, container, item).value;
    var afts := AftsOrEmpty(f.fieldType.value);
    CandidatesFit(f, afts);
    FilterEmpty(afts, Fits(f));
    FilterTwo(afts, Fits(f));
    if |Filter(afts, Fits(f))| == 1 {
      FilterOne(afts, Fits(f));
    }
  }

  /** `set_value` without sample, item or container is `_set_helper` alone. */
  lemma SetValueWithoutModels(fv: FieldValue, value: Json)
    ensures SetValue(fv, value, None, None, None) ==
      ValueOutcome(SetHelper(fv, value, None, None, None).value, false, None)
    ensures Truthy(value) ==> SetValue(fv, value, None, None, None).fv == fv.(value := value)
    ensures !Truthy(value) ==> SetValue(fv, value, None, None, None).fv == fv
  {
  }

  /** `set_value` never renames a FieldValue or moves it to another role. */
  lemma SetValueKeepsNameAndRole(fv: FieldValue, value: Json, sample: Option<Sample>,
                                 container: Option<TypeRef>, item: Option<Item>)
    ensures SetValue(fv, value, sample, container, item).fv.name == fv.name
    ensures SetValue(fv, value, sample, container, item).fv.role == fv.role
    ensures SetValue(fv, value, sample, container, item).fv.parentClass == fv.parentClass
    ensures SetValue(fv, value, sample, container, item).fv.parentId == fv.parentId
    ensures SetValue(fv, value, sample, container, item).fv.fieldTypeId == fv.fieldTypeId
  {
  }

  // ------------------------------------------------------------ operations

  datatype OperationType = OperationType(
    id: Id, name: string, fieldTypes: Option<seq<FieldType>>, codes: Option<seq<Code>>)

  datatype Operation = Operation(
    id: Id, operationType: Option<OperationType>, fieldValues: Option<seq<FieldValue>>)

  /** The `filter_list(..., name=name, role=role)` condition on FieldValues. */
  function IsField(name: string, role: string): FieldValue -> bool
  {
    (fv: FieldValue) => fv.name == name && fv.role == role
  }

  /** The same condition on FieldTypes. */
  function IsFieldType(name: string, role: string): FieldType -> bool
  {
    (ft: FieldType) => ft.name == name && ft.role == role
  }

  /** The FieldValues of an Operation, a missing list read as empty. */
  function FieldValuesOf(op: Operation): seq<FieldValue>
  {
    if op.fieldValues.Some? then op.fieldValues.value else []
  }

  /** `OperationType.field_type`: the first FieldType with that name and role. */
  function FieldTypeOf(ot: OperationType, name: string, role: string): Option<FieldType>
  {
    if ot.fieldTypes.Some? && ot.fieldTypes.value != [] then
      var fts := Filter(ot.fieldTypes.value, IsFieldType(name, role));
      if fts != [] then Some(fts[0]) else None
    else None
  }

  /** `field_type(name, role)` is None exactly when no FieldType matches, and otherwise the first match. */
  lemma FieldTypeIsFirst(ot: OperationType, name: string, role: string)
    ensures FieldTypeOf(ot, name, role).None? <==>
      ot.fieldTypes.None? || forall i :: 0 <= i < |ot.fieldTypes.value| ==> !IsFieldType(name, role)(ot.fieldTypes.value[i])
    ensures FieldTypeOf(ot, name, role).Some? ==>
      (ot.fieldTypes.Some? &&
       exists i :: FirstMatch(ot.fieldTypes.value, IsFieldType(name, role), i) &&
         FieldTypeOf(ot, name, role).value == ot.fieldTypes.value[i])
  {
    if ot.fieldTypes.Some? {
      FilterEmpty(ot.fieldTypes.value, IsFieldType(name, role));
      if FieldTypeOf(ot, name, role).Some? {
        FilterHead(ot.fieldTypes.value, IsFieldType(name, role));
      }
    }
  }

  /**
   * `Operation.field_value`. Several matches raise `AquariumModelError`, or
   * `AttributeError` when the message's `self.operation_type.name` has no
   * operation type to read.
   */
  function FieldValueOf(op: Operation, name: string, role: string): Result<Option<FieldValue>>
  {
    if op.fieldValues.Some? && op.fieldValues.value != [] then
      var fvs := Filter(op.fieldValues.value, IsField(name, role));
      if fvs == [] then Success(None)
      else if |fvs| > 1 then (if op.operationType.None? then Failure(AttributeError) else Failure(ModelError))
      else Success(Some(fvs[0]))
    else Success(None)
  }

  /**
   * `field_value(name, role)` is None when no FieldValue matches, raises
   * when several do, and otherwise returns the only match.
   */
  lemma FieldValueLookup(op: Operation, name: string, role: string)
    ensures var fvs := FieldValuesOf(op);
      && (FieldValueOf(op, name, role) == Success(None) <==>
            forall i :: 0 <= i < |fvs| ==> !IsField(name, role)(fvs[i]))
      && (FieldValueOf(op, name, role).Failure? <==> TwoMatches(fvs, IsField(name, role)))
      && (FieldValueOf(op, name, role).Failure? ==>
            FieldValueOf(op, name, role).error == (if op.operationType.None? then AttributeError else ModelError))
      && (FieldValueOf(op, name, role).Success? && FieldValueOf(op, name, role).value.Some? ==>
            exists i :: OnlyMatch(fvs, IsField(name, role), i) && FieldValueOf(op, name, role).value.value == fvs[i])
  {
    var fvs := FieldValuesOf(op);
    FilterEmpty(fvs, IsField(name, role));
    FilterTwo(fvs, IsField(name, role));
    if |Filter(fvs, IsField(name, role))| == 1 {
      FilterOne(fvs, IsField(name, role));
    }
  }

  /** The position of the only match. */
  function OnlyIndex<T>(s: seq<T>, p: T -> bool): (i: int)
    requires exists i :: OnlyMatch(s, p, i)
    ensures OnlyMatch(s, p, i)
  {
    var i :| OnlyMatch(s, p, i); i
  }

  /** What a mutating Operation method leaves behind, and the error it raised. */
  datatype OpOutcome = OpOutcome(op: Operation, error: Option<Error>)

  /**
   * `Operation.set_field_value`. The FieldValue is looked up (and raises
   * when ambiguous); a missing FieldType or an array FieldType is an error;
   * a missing FieldValue is created from the FieldType, attached to the
   * Operation and appended before `set_value` fills it in, so an error from
   * `set_value` leaves the appended FieldValue in place.
   */
  function SetFieldValue(op: Operation, name: string, role: string, sample: Option<Sample>,
                         item: Option<Item>, value: Json, container: Option<TypeRef>): OpOutcome
  {
    match FieldValueOf(op, name, role)
    case Failure(e) => OpOutcome(op, Some(e))
    case Success(existing) =>
      if op.operationType.None? then OpOutcome(op, Some(AttributeError))
      else match FieldTypeOf(op.operationType.value, name, role)
        case None => OpOutcome(op, Some(ModelError))
        case Some(ft) =>
          if ft.isArray then OpOutcome(op, Some(ModelError))
          else
            var fvs := FieldValuesOf(op);
            FieldValueLookup(op, name, role);
            var fvs1 := if existing.Some? then fvs
              else fvs + [SetOperation(InitializeFieldValue(ft, None), op.id)];
            var i := if existing.Some? then OnlyIndex(fvs, IsField(name, role)) else |fvs|;
            var out := SetValue(fvs1[i], value, sample, container, item);
            OpOutcome(op.(fieldValues := Some(fvs1[i := out.fv])), out.error)
  }

  /**
   * Errors of `set_field_value` raised before anything is changed: a
   * missing or array FieldType is `AquariumModelError`, and the Operation is
   * returned as it was.
   */
  lemma SetFieldValueRejects(op: Operation, name: string, role: string, sample: Option<Sample>,
                             item: Option<Item>, value: Json, container: Option<TypeRef>)
    requires FieldValueOf(op, name, role).Success? && op.operationType.Some?
    requires FieldTypeOf(op.operationType.value, name, role).None? ||
             FieldTypeOf(op.operationType.value, name, role).value.isArray
    ensures SetFieldValue(op, name, role, sample, item, value, container) == OpOutcome(op, Some(ModelError))
  {
  }

  /** The FieldValue `set_field_value` fills: the only match, or else a new one from the FieldType. */
  function Target(op: Operation, name: string, role: string, ft: FieldType): (r: (nat, FieldValue))
    requires FieldValueOf(op, name, role).Success?
    ensures FieldValueOf(op, name, role).value.Some? ==>
      r.0 < |FieldValuesOf(op)| && FieldValuesOf(op)[r.0] == FieldValueOf(op, name, role).value.value
      && OnlyMatch(FieldValuesOf(op), IsField(name, role), r.0)
    ensures FieldValueOf(op, name, role).value.None? ==>
      r == (|FieldValuesOf(op)|, SetOperation(InitializeFieldValue(ft, None), op.id))
  {
    FieldValueLookup(op, name, role);
    var existing := FieldValueOf(op, name, role).value;
    if existing.Some? then
      var i := OnlyIndex(FieldValuesOf(op), IsField(name, role));
      (i, FieldValuesOf(op)[i])
    else (|FieldValuesOf(op)|, SetOperation(InitializeFieldValue(ft, None), op.id))
  }

  /** One unfolding of `set_field_value` past its checks. */
  lemma SetFieldValueStep(op: Operation, name: string, role: string, sample: Option<Sample>,
                          item: Option<Item>, value: Json, container: Option<TypeRef>)
    requires FieldValueOf(op, name, role).Success? && op.operationType.Some?
    requires FieldTypeOf(op.operationType.value, name, role).Some?
    requires !FieldTypeOf(op.operationType.value, name, role).value.isArray
    ensures var ft := FieldTypeOf(op.operationType.value, name, role).value;
      var t := Target(op, name, role, ft);
      var fvs1 := if FieldValueOf(op, name, role).value.Some? then FieldValuesOf(op) else FieldValuesOf(op) + [t.1];
      var sv := SetValue(t.1, value, sample, container, item);
      t.0 < |fvs1| && fvs1[t.0] == t.1 &&
      SetFieldValue(op, name, role, sample, item, value, container) ==
        OpOutcome(op.(fieldValues := Some(fvs1[t.0 := sv.fv])), sv.error)
  {
    var ft := FieldTypeOf(op.operationType.value, name, role).value;
    var t := Target(op, name, role, ft);
    var existing := FieldValueOf(op, name, role).value;
    var fvs := FieldValuesOf(op);
    FieldValueLookup(op, name, role);
    var fvs1 := if existing.Some? then fvs else fvs + [SetOperation(InitializeFieldValue(ft, None), op.id)];
    var i := if existing.Some? then OnlyIndex(fvs, IsField(name, role)) else |fvs|;
    assert i == t.0 && fvs1[i] == t.1;
    var out := SetValue(fvs1[i], value, sample, container, item);
    assert SetFieldValue(op, name, role, sample, item, value, container) ==
      OpOutcome(op.(fieldValues := Some(fvs1[i := out.fv])), out.error);
  }

  /**
   * After `set_field_value` gets past its checks, exactly one FieldValue has
   * that name and role, every other FieldValue is unchanged, and a newly
   * created one belongs to the Operation and points at the FieldType.
   */
  lemma SetFieldValueLeavesOne(op: Operation, name: string, role: string, sample: Option<Sample>,
                               item: Option<Item>, value: Json, container: Option<TypeRef>)
    requires FieldValueOf(op, name, role).Success? && op.operationType.Some?
    requires FieldTypeOf(op.operationType.value, name, role).Some?
    requires !FieldTypeOf(op.operationType.value, name, role).value.isArray
    ensures var out := SetFieldValue(op, name, role, sample, item, value, container);
      var before := FieldValuesOf(op);
      var after := FieldValuesOf(out.op);
      var ft := FieldTypeOf(op.operationType.value, name, role).value;
      var pre := if FieldValueOf(op, name, role).value.Some? then FieldValueOf(op, name, role).value.value
                 else SetOperation(InitializeFieldValue(ft, None), op.id);
      && out.op.id == op.id && out.op.operationType == op.operationType
      && |before| <= |after| <= |before| + 1
      && out.error == SetValue(pre, value, sample, container, item).error
      && exists i :: OnlyMatch(after, IsField(name, role), i)
           && after[i] == SetValue(pre, value, sample, container, item).fv
           && (forall j :: 0 <= j < |before| && j != i ==> after[j] == before[j])
           && (FieldValueOf(op, name, role) == Success(None) ==>
                 i == |before| && after[i].parentClass == Some(OperationClass) &&
                 after[i].parentId == op.id && after[i].fieldTypeId == ft.id)
  {
    var ft := FieldTypeOf(op.operationType.value, name, role).value;
    FieldTypeIsFirst(op.operationType.value, name, role);
    var t := Target(op, name, role, ft);
    SetFieldValueStep(op, name, role, sample, item, value, container);
    var sv := SetValue(t.1, value, sample, container, item);
    SetValueKeepsNameAndRole(t.1, value, sample, container, item);
    PlacedOnly(op, name, role, ft, sv.fv);
  }

  /**
   * A FieldValue with that name and role put in `set_field_value`'s target
   * position is then the only match, and nothing else changes.
   */
  lemma PlacedOnly(op: Operation, name: string, role: string, ft: FieldType, x: FieldValue)
    requires FieldValueOf(op, name, role).Success?
    requires ft.name == name && ft.role == role
    requires x.name == name && x.role == role
    ensures var before := FieldValuesOf(op);
      var t := Target(op, name, role, ft);
      var fvs1 := if FieldValueOf(op, name, role).value.Some? then before else before + [t.1];
      t.0 < |fvs1| &&
      var after := fvs1[t.0 := x];
      && |before| <= |after| <= |before| + 1
      && OnlyMatch(after, IsField(name, role), t.0)
      && (forall j :: 0 <= j < |before| && j != t.0 ==> after[j] == before[j])
      && (FieldValueOf(op, name, role) == Success(None) ==> t.0 == |before|)
  {
    var before := FieldValuesOf(op);
    var t := Target(op, name, role, ft);
    var fvs1 := if FieldValueOf(op, name, role).value.Some? then before else before + [t.1];
    var after := fvs1[t.0 := x];
    FieldValueLookup(op, name, role);
    forall j | 0 <= j < |after| && j != t.0 ensures !IsField(name, role)(after[j]) {
      assert after[j] == before[j];
    }
  }

  /**
   * `Operation.field_value_array`: the FieldValues with that name and role,
   * or None when there are none; they must belong to an array FieldType.
   */
  function FieldValueArray(op: Operation, name: string, role: string): Result<Option<seq<FieldValue>>>
  {
    if op.fieldValues.Some? && op.fieldValues.value != [] then
      var fvs := Filter(op.fieldValues.value, IsField(name, role));
      if fvs == [] then Success(None)
      else if fvs[0].fieldType.None? then Failure(AttributeError)
      else if !fvs[0].fieldType.value.isArray then
        (if op.operationType.None? then Failure(AttributeError) else Failure(ModelError))
      else Success(Some(fvs))
    else Success(None)
  }

  /** The keyword arguments of one `set_value` call in `set_field_value_array`. */
  datatype ValueArgs = ValueArgs(value: Json, sample: Option<Sample>, item: Option<Item>, container: Option<TypeRef>)

  /** How many FieldValues before position `j` have that name and role. */
  function Rank(fvs: seq<FieldValue>, name: string, role: string, j: int): nat
    requires 0 <= j <= |fvs|
  {
    |Filter(fvs[..j], IsField(name, role))|
  }

  /**
   * The `zip` loop of `set_field_value_array`: the k-th FieldValue with that
   * name and role gets the k-th arguments, in list order; the first error
   * stops the loop with the FieldValues before it already filled in.
   */
  function ApplyValues(fvs: seq<FieldValue>, name: string, role: string, values: seq<ValueArgs>)
    : (r: (seq<FieldValue>, Option<Error>))
    requires |Filter(fvs, IsField(name, role))| == |values|
    ensures |r.0| == |fvs|
    ensures forall j :: 0 <= j < |fvs| ==> r.0[j].name == fvs[j].name && r.0[j].role == fvs[j].role
    ensures forall j :: 0 <= j < |fvs| && !IsField(name, role)(fvs[j]) ==> r.0[j] == fvs[j]
    ensures r.1.None? ==> forall j :: 0 <= j < |fvs| && IsField(name, role)(fvs[j]) ==>
      Rank(fvs, name, role, j) < |values| &&
      var a := values[Rank(fvs, name, role, j)];
      r.0[j] == SetValue(fvs[j], a.value, a.sample, a.container, a.item).fv
    decreases |fvs|
  {
    if fvs == [] then ([], None)
    else
      var rest := fvs[1..];
      assert Filter(fvs, IsField(name, role)) ==
        (if IsField(name, role)(fvs[0]) then [fvs[0]] else []) + Filter(rest, IsField(name, role));
      if IsField(name, role)(fvs[0]) then
        var a := values[0];
        var out := SetValue(fvs[0], a.value, a.sample, a.container, a.item);
        SetValueKeepsNameAndRole(fvs[0], a.value, a.sample, a.container, a.item);
        if out.error.Some? then
          FilledCons(fvs, name, role, values, out.fv, rest, false);
          ([out.fv] + rest, out.error)
        else
          var tail := ApplyValues(rest, name, role, values[1..]);
          FilledCons(fvs, name, role, values, out.fv, tail.0, tail.1.None?);
          ([out.fv] + tail.0, tail.1)
      else
        var tail := ApplyValues(rest, name, role, values);
        FilledCons(fvs, name, role, values, fvs[0], tail.0, tail.1.None?);
        ([fvs[0]] + tail.0, tail.1)
  }

  /**
   * `out` is `fvs` after the `zip` loop: names and roles kept, other
   * FieldValues untouched and, when `complete`, the k-th FieldValue of that
   * name and role set from the k-th arguments.
   */
  ghost predicate Filled(fvs: seq<FieldValue>, name: string, role: string, values: seq<ValueArgs>,
                         out: seq<FieldValue>, complete: bool)
  {
    && |out| == |fvs|
    && (forall j :: 0 <= j < |fvs| ==> out[j].name == fvs[j].name && out[j].role == fvs[j].role)
    && (forall j :: 0 <= j < |fvs| && !IsField(name, role)(fvs[j]) ==> out[j] == fvs[j])
    && (complete ==> forall j :: 0 <= j < |fvs| && IsField(name, role)(fvs[j]) ==>
          Rank(fvs, name, role, j) < |values| &&
          var a := values[Rank(fvs, name, role, j)];
          out[j] == SetValue(fvs[j], a.value, a.sample, a.container, a.item).fv)
  }

  /** One step of the `zip` loop: the first FieldValue, then the rest. */
  lemma FilledCons(fvs: seq<FieldValue>, name: string, role: string, values: seq<ValueArgs>,
                   head: FieldValue, tail: seq<FieldValue>, complete: bool)
    requires fvs != [] && head.name == fvs[0].name && head.role == fvs[0].role
    requires IsField(name, role)(fvs[0]) ==> values != []
    requires complete && IsField(name, role)(fvs[0]) ==>
      head == SetValue(fvs[0], values[0].value, values[0].sample, values[0].container, values[0].item).fv
    requires !IsField(name, role)(fvs[0]) ==> head == fvs[0]
    requires Filled(fvs[1..], name, role, if IsField(name, role)(fvs[0]) then values[1..] else values, tail, complete)
    ensures Filled(fvs, name, role, values, [head] + tail, complete)
  {
    var out := [head] + tail;
    var rest := fvs[1..];
    var vs := if IsField(name, role)(fvs[0]) then values[1..] else values;
    RankStep(fvs, name, role);
    assert Rank(fvs, name, role, 0) == 0;
    forall j | 1 <= j < |fvs|
      ensures out[j] == tail[j - 1] && fvs[j] == rest[j - 1]
    {
    }
    if complete {
      forall j | 0 <= j < |fvs| && IsField(name, role)(fvs[j])
        ensures Rank(fvs, name, role, j) < |values|
        ensures var a := values[Rank(fvs, name, role, j)];
          out[j] == SetValue(fvs[j], a.value, a.sample, a.container, a.item).fv
      {
        if j > 0 {
          assert IsField(name, role)(rest[j - 1]);
          assert values[Rank(fvs, name, role, j)] == vs[Rank(rest, name, role, j - 1)];
        }
      }
    }
  }

  /** Rank past the first element. */
  lemma RankStep(fvs: seq<FieldValue>, name: string, role: string)
    requires fvs != []
    ensures forall j :: 1 <= j <= |fvs| ==>
      Rank(fvs, name, role, j) == Rank(fvs[1..], name, role, j - 1) + (if IsField(name, role)(fvs[0]) then 1 else 0)
  {
    forall j | 1 <= j <= |fvs|
      ensures Rank(fvs, name, role, j) == Rank(fvs[1..], name, role, j - 1) + (if IsField(name, role)(fvs[0]) then 1 else 0)
    {
      assert fvs[..j][1..] == fvs[1..][..j - 1];
    }
  }

  /**
   * `Operation.set_field_value_array`. The existing array FieldValues must
   * exist and match the number of values, and the OperationType must have
   * the FieldType; then the values are assigned in order.
   */
  function SetFieldValueArray(op: Operation, name: string, role: string, values: seq<ValueArgs>): OpOutcome
  {
    match FieldValueArray(op, name, role)
    case Failure(e) => OpOutcome(op, Some(e))
    case Success(arr) =>
      if op.operationType.None? then OpOutcome(op, Some(AttributeError))
      else if FieldTypeOf(op.operationType.value, name, role).None? then OpOutcome(op, Some(ModelError))
      else if arr.None? then OpOutcome(op, Some(TypeError))
      else if |arr.value| != |values| then OpOutcome(op, Some(ModelError))
      else
        var applied := ApplyValues(FieldValuesOf(op), name, role, values);
        OpOutcome(op.(fieldValues := Some(applied.0)), applied.1)
  }

  /**
   * `set_field_value_array` rejects, changing nothing, when there are no
   * FieldValues to fill (`len(None)`) or their number differs from the
   * number of values.
   */
  lemma SetFieldValueArrayRejects(op: Operation, name: string, role: string, values: seq<ValueArgs>)
    requires FieldValueArray(op, name, role).Success?
    requires op.operationType.Some? && FieldTypeOf(op.operationType.value, name, role).Some?
    ensures FieldValueArray(op, name, role).value.None? ==>
      SetFieldValueArray(op, name, role, values) == OpOutcome(op, Some(TypeError))
    ensures FieldValueArray(op, name, role).value.Some? &&
            |Filter(FieldValuesOf(op), IsField(name, role))| != |values| ==>
      SetFieldValueArray(op, name, role, values) == OpOutcome(op, Some(ModelError))
  {
  }

  /**
   * A successful `set_field_value_array` fills the k-th FieldValue of that
   * name and role with the k-th values and leaves all others as they were.
   */
  lemma SetFieldValueArrayInOrder(op: Operation, name: string, role: string, values: seq<ValueArgs>)
    requires SetFieldValueArray(op, name, role, values).error.None?
    ensures var after := FieldValuesOf(SetFieldValueArray(op, name, role, values).op);
      var before := FieldValuesOf(op);
      && |after| == |before|
      && |Filter(before, IsField(name, role))| == |values|
      && forall j :: 0 <= j < |before| ==>
           if IsField(name, role)(before[j]) then
             var a := values[Rank(before, name, role, j)];
             after[j] == SetValue(before[j], a.value, a.sample, a.container, a.item).fv
           else after[j] == before[j]
  {
  }
}

=== FILE: odict.dfy ===
/**
 * Insertion-ordered dictionaries, as Python's `dict` and `OrderedDict`
 * behave: assigning to a present key keeps its position, a new key goes to
 * the end. A dictionary is a sequence of entries with distinct keys.
 */
module ODict {
  import opened Lists

  type Dict<K, V> = seq<(K, V)>

  function Keys<K, V>(d: Dict<K, V>): (ks: seq<K>)
    ensures |ks| == |d|
    ensures forall i :: 0 <= i < |d| ==> ks[i] == d[i].0
  {
    seq(|d|, i requires 0 <= i < |d| => d[i].0)
  }

  function Values<K, V>(d: Dict<K, V>): (vs: seq<V>)
    ensures |vs| == |d|
    ensures forall i :: 0 <= i < |d| ==> vs[i] == d[i].1
  {
    seq(|d|, i requires 0 <= i < |d| => d[i].1)
  }

  predicate Distinct<K(==)>(ks: seq<K>)
  {
    forall i, j :: 0 <= i < j < |ks| ==> ks[i] != ks[j]
  }

  /** Keys are distinct. */
  predicate Valid<K(==), V>(d: Dict<K, V>)
  {
    Distinct(Keys(d))
  }

  predicate HasKey<K(==), V>(d: Dict<K, V>, k: K)
  {
    k in Keys(d)
  }

  /** The position of a key. */
  function IndexOf<K(==), V>(d: Dict<K, V>, k: K): (i: nat)
    requires HasKey(d, k)
    ensures i < |d| && d[i].0 == k
    ensures forall j :: 0 <= j < i ==> d[j].0 != k
  {
    if d[0].0 == k then 0
    else
      assert Keys(d) == [d[0].0] + Keys(d[1..]);
      1 + IndexOf(d[1..], k)
  }

  /** `d[k]`. */
  function Get<K(==), V>(d: Dict<K, V>, k: K): V
    requires HasKey(d, k)
  {
    d[IndexOf(d, k)].1
  }

  /** In a valid dictionary the entry at position `i` is the one for its key. */
  lemma GetAt<K, V>(d: Dict<K, V>, i: int)
    requires Valid(d) && 0 <= i < |d|
    ensures HasKey(d, d[i].0) && IndexOf(d, d[i].0) == i && Get(d, d[i].0) == d[i].1
  {
    assert Keys(d)[i] == d[i].0;
  }

  /** `d[k] = v`. */
  function Set<K(==), V>(d: Dict<K, V>, k: K, v: V): (r: Dict<K, V>)
    ensures HasKey(d, k) ==> Keys(r) == Keys(d)
    ensures !HasKey(d, k) ==> Keys(r) == Keys(d) + [k]
  {
    if HasKey(d, k) then
      var i := IndexOf(d, k);
      assert forall j :: 0 <= j < |d| ==> Keys(d[i := (k, v)])[j] == Keys(d)[j];
      d[i := (k, v)]
    else d + [(k, v)]
  }

  /**
   * After `d[k] = v` the key holds `v`, every other key keeps its value,
   * and the dictionary stays valid.
   */
  lemma SetGet<K, V>(d: Dict<K, V>, k: K, v: V)
    requires Valid(d)
    ensures Valid(Set(d, k, v))
    ensures HasKey(Set(d, k, v), k) && Get(Set(d, k, v), k) == v
    ensures forall k' :: k' != k ==> (HasKey(Set(d, k, v), k') <==> HasKey(d, k'))
    ensures forall k' :: k' != k && HasKey(d, k') ==> Get(Set(d, k, v), k') == Get(d, k')
  {
    var r := Set(d, k, v);
    assert Keys(r)[..|d|] == Keys(d);
    forall k' | HasKey(d, k') ensures HasKey(r, k') && (k' != k ==> Get(r, k') == Get(d, k')) {
      var i := IndexOf(d, k');
      assert Keys(r)[i] == k';
      GetAt(r, i);
    }
    if HasKey(d, k) {
      GetAt(r, IndexOf(d, k));
    } else {
      assert Keys(r)[|d|] == k;
      GetAt(r, |d|);
    }
  }

  /**
   * A dict built from pairs in order (`{k: v for ...}`, `OrderedDict(...)`):
   * a repeated key keeps its first position and takes its last value.
   */
  function FromPairs<K(==), V>(ps: seq<(K, V)>): (r: Dict<K, V>)
    ensures Valid(r)
    decreases |ps|
  {
    if ps == [] then []
    else
      var init := FromPairs(ps[..|ps| - 1]);
      SetGet(init, ps[|ps| - 1].0, ps[|ps| - 1].1);
      Set(init, ps[|ps| - 1].0, ps[|ps| - 1].1)
  }

  /** `d.update(e)`: every entry of `e` assigned in order. */
  function Update<K(==), V>(d: Dict<K, V>, e: Dict<K, V>): (r: Dict<K, V>)
    requires Valid(d)
    ensures Valid(r)
    decreases |e|
  {
    if e == [] then d
    else
      var init := Update(d, e[..|e| - 1]);
      SetGet(init, e[|e| - 1].0, e[|e| - 1].1);
      Set(init, e[|e| - 1].0, e[|e| - 1].1)
  }

  /**
   * Building from pairs keeps exactly the keys that occur, and each key
   * holds the value of its last occurrence.
   */
  lemma FromPairsLastWins<K, V>(ps: seq<(K, V)>)
    ensures forall k :: HasKey(FromPairs(ps), k) <==> exists i :: 0 <= i < |ps| && ps[i].0 == k
    ensures forall i :: 0 <= i < |ps| && (forall j :: i < j < |ps| ==> ps[j].0 != ps[i].0) ==>
      HasKey(FromPairs(ps), ps[i].0) && Get(FromPairs(ps), ps[i].0) == ps[i].1
  {
    FromPairsKeys(ps);
    forall i | 0 <= i < |ps| && (forall j :: i < j < |ps| ==> ps[j].0 != ps[i].0)
      ensures HasKey(FromPairs(ps), ps[i].0) && Get(FromPairs(ps), ps[i].0) == ps[i].1
    {
      FromPairsLast(ps, i);
    }
  }

  /** Building from pairs keeps exactly the keys that occur. */
  lemma {:induction false} FromPairsKeys<K, V>(ps: seq<(K, V)>)
    ensures forall k :: HasKey(FromPairs(ps), k) <==> exists i :: 0 <= i < |ps| && ps[i].0 == k
    decreases |ps|
  {
    if ps != [] {
      var front := ps[..|ps| - 1];
      var last := ps[|ps| - 1];
      FromPairsKeys(front);
      var init := FromPairs(front);
      SetGet(init, last.0, last.1);
      assert FromPairs(ps) == Set(init, last.0, last.1);
      forall k ensures HasKey(FromPairs(ps), k) <==> exists i :: 0 <= i < |ps| && ps[i].0 == k {
        if k != last.0 && HasKey(FromPairs(ps), k) {
          var i :| 0 <= i < |front| && front[i].0 == k;
          assert ps[i].0 == k;
        }
        if k != last.0 && (exists i :: 0 <= i < |ps| && ps[i].0 == k) {
          var i :| 0 <= i < |ps| && ps[i].0 == k;
          assert front[i].0 == k;
        }
      }
    }
  }

  /**
   * Building from pairs keeps the keys in the order of their first
   * occurrence: `IndexOf(ps, k)` is the first position of `k` among the pairs.
   */
  lemma {:induction false} FromPairsOrder<K, V>(ps: seq<(K, V)>)
    ensures forall a :: 0 <= a < |FromPairs(ps)| ==> HasKey(ps, FromPairs(ps)[a].0)
    ensures forall a, b :: 0 <= a < b < |FromPairs(ps)| ==>
      IndexOf(ps, FromPairs(ps)[a].0) < IndexOf(ps, FromPairs(ps)[b].0)
    decreases |ps|
  {
    FromPairsOccur(ps);
    var d := FromPairs(ps);
    if ps != [] {
      var front := ps[..|ps| - 1];
      var last := ps[|ps| - 1];
      FromPairsOrder(front);
      FromPairsKeys(front);
      var init := FromPairs(front);
      SetGet(init, last.0, last.1);
      assert d == Set(init, last.0, last.1);
      forall a | 0 <= a < |init| ensures d[a].0 == init[a].0 {
        assert Keys(d)[a] == Keys(init)[a];
      }
      if !HasKey(init, last.0) {
        assert Keys(d)[|init|] == last.0;
        IndexOfNewLast(ps);
      }
      forall a, b | 0 <= a < b < |d| ensures IndexOf(ps, d[a].0) < IndexOf(ps, d[b].0) {
        IndexOfPrefix(ps, init[a].0);
        if b < |init| {
          IndexOfPrefix(ps, init[b].0);
        }
      }
    }
  }

  /** A key met only in the last pair is first met there. */
  lemma IndexOfNewLast<K, V>(ps: seq<(K, V)>)
    requires ps != [] && !HasKey(FromPairs(ps[..|ps| - 1]), ps[|ps| - 1].0)
    ensures HasKey(ps, ps[|ps| - 1].0) && IndexOf(ps, ps[|ps| - 1].0) == |ps| - 1
  {
    var front := ps[..|ps| - 1];
    FromPairsKeys(front);
    assert Keys(ps)[|ps| - 1] == ps[|ps| - 1].0;
    forall j | 0 <= j < |ps| - 1 ensures ps[j].0 != ps[|ps| - 1].0 {
      assert ps[j] == front[j];
    }
  }

  /** Every key built from the pairs is the key of some pair. */
  lemma FromPairsOccur<K, V>(ps: seq<(K, V)>)
    ensures forall a :: 0 <= a < |FromPairs(ps)| ==> HasKey(ps, FromPairs(ps)[a].0)
  {
    FromPairsKeys(ps);
    var d := FromPairs(ps);
    forall a | 0 <= a < |d| ensures HasKey(ps, d[a].0) {
      assert Keys(d)[a] == d[a].0;
      assert HasKey(FromPairs(ps), d[a].0);
      var i :| 0 <= i < |ps| && ps[i].0 == d[a].0;
      assert Keys(ps)[i] == d[a].0;
    }
  }

  /** A key of all pairs but the last is first met at the same position among all of them. */
  lemma IndexOfPrefix<K, V>(ps: seq<(K, V)>, k: K)
    requires ps != [] && HasKey(ps[..|ps| - 1], k)
    ensures HasKey(ps, k) && IndexOf(ps, k) == IndexOf(ps[..|ps| - 1], k)
  {
    var front := ps[..|ps| - 1];
    var i := IndexOf(front, k);
    assert ps[i] == front[i];
    assert Keys(ps)[i] == k;
    forall j | 0 <= j < i ensures ps[j].0 != k {
      assert ps[j] == front[j];
    }
  }

  /** A pair whose key does not occur again holds in the dictionary built from the pairs. */
  lemma {:induction false} FromPairsLast<K, V>(ps: seq<(K, V)>, i: int)
    requires 0 <= i < |ps| && forall j :: i < j < |ps| ==> ps[j].0 != ps[i].0
    ensures HasKey(FromPairs(ps), ps[i].0) && Get(FromPairs(ps), ps[i].0) == ps[i].1
    decreases |ps|
  {
    var front := ps[..|ps| - 1];
    var last := ps[|ps| - 1];
    var init := FromPairs(front);
    SetGet(init, last.0, last.1);
    assert FromPairs(ps) == Set(init, last.0, last.1);
    if i < |ps| - 1 {
      assert front[i] == ps[i];
      forall j | i < j < |front| ensures front[j].0 != front[i].0 {
        assert front[j] == ps[j];
      }
      FromPairsLast(front, i);
    }
  }

  /** After `d.update(e)` a key of `e` holds its value from `e`, any other key keeps its value from `d`. */
  lemma {:induction false} UpdateGet<K, V>(d: Dict<K, V>, e: Dict<K, V>)
    requires Valid(d) && Valid(e)
    ensures forall k :: HasKey(Update(d, e), k) <==> HasKey(d, k) || HasKey(e, k)
    ensures forall k :: HasKey(e, k) ==> Get(Update(d, e), k) == Get(e, k)
    ensures forall k :: HasKey(d, k) && !HasKey(e, k) ==> Get(Update(d, e), k) == Get(d, k)
    decreases |e|
  {
    if e != [] {
      var front := e[..|e| - 1];
      var last := e[|e| - 1];
      assert Valid(front) by {
        assert forall i :: 0 <= i < |front| ==> Keys(front)[i] == Keys(e)[i];
      }
      UpdateGet(d, front);
      var init := Update(d, front);
      SetGet(init, last.0, last.1);
      GetAt(e, |e| - 1);
      forall k | HasKey(front, k) ensures HasKey(e, k) && k != last.0 && Get(e, k) == Get(front, k) {
        var i := IndexOf(front, k);
        assert Keys(e)[i] == k;
        GetAt(e, i);
      }
      forall k | HasKey(e, k) && k != last.0 ensures HasKey(front, k) {
        var i := IndexOf(e, k);
        assert Keys(front)[i] == k;
      }
    }
  }

  /** Grouping: each key of `key` maps to the elements carrying it, in input order. */
  function GroupBy<T, K(==)>(xs: seq<T>, key: T -> K): (r: Dict<K, seq<T>>)
    ensures Valid(r)
    decreases |xs|
  {
    if xs == [] then []
    else
      var init := GroupBy(xs[..|xs| - 1], key);
      var x := xs[|xs| - 1];
      var group := if HasKey(init, key(x)) then Get(init, key(x)) else [];
      SetGet(init, key(x), group + [x]);
      Set(init, key(x), group + [x])
  }

  function HasKeyOf<T, K(==)>(key: T -> K, k: K): T -> bool
  {
    (x: T) => key(x) == k
  }

  /**
   * Every element lands in the group of its key, each group holds exactly
   * the elements with that key in input order.
   */
  lemma GroupByGroups<T, K>(xs: seq<T>, key: T -> K)
    ensures forall k :: HasKey(GroupBy(xs, key), k) <==> exists i :: 0 <= i < |xs| && key(xs[i]) == k
    ensures forall k :: HasKey(GroupBy(xs, key), k) ==> Get(GroupBy(xs, key), k) == Filter(xs, HasKeyOf(key, k))
  {
    GroupByKeys(xs, key);
    forall k | HasKey(GroupBy(xs, key), k)
      ensures Get(GroupBy(xs, key), k) == Filter(xs, HasKeyOf(key, k))
    {
      GroupByGroup(xs, key, k);
    }
  }

  /** The groups are keyed by exactly the keys that occur. */
  lemma {:induction false} GroupByKeys<T, K>(xs: seq<T>, key: T -> K)
    ensures forall k :: HasKey(GroupBy(xs, key), k) <==> exists i :: 0 <= i < |xs| && key(xs[i]) == k
    decreases |xs|
  {
    if xs != [] {
      var front := xs[..|xs| - 1];
      var x := xs[|xs| - 1];
      GroupByKeys(front, key);
      var init := GroupBy(front, key);
      var group := if HasKey(init, key(x)) then Get(init, key(x)) else [];
      SetGet(init, key(x), group + [x]);
      assert GroupBy(xs, key) == Set(init, key(x), group + [x]);
      forall k ensures HasKey(GroupBy(xs, key), k) <==> exists i :: 0 <= i < |xs| && key(xs[i]) == k {
        if k != key(x) && HasKey(GroupBy(xs, key), k) {
          var i :| 0 <= i < |front| && key(front[i]) == k;
          assert xs[i] == front[i];
        }
        if k != key(x) && (exists i :: 0 <= i < |xs| && key(xs[i]) == k) {
          var i :| 0 <= i < |xs| && key(xs[i]) == k;
          assert front[i] == xs[i];
        }
      }
    }
  }

  /** The group of a key holds exactly the elements with that key, in input order. */
  lemma {:induction false} GroupByGroup<T, K>(xs: seq<T>, key: T -> K, k: K)
    requires HasKey(GroupBy(xs, key), k)
    ensures Get(GroupBy(xs, key), k) == Filter(xs, HasKeyOf(key, k))
    decreases |xs|
  {
    var front := xs[..|xs| - 1];
    var x := xs[|xs| - 1];
    var init := GroupBy(front, key);
    var group := if HasKey(init, key(x)) then Get(init, key(x)) else [];
    SetGet(init, key(x), group + [x]);
    assert GroupBy(xs, key) == Set(init, key(x), group + [x]);
    assert xs == front + [x];
    FilterSnoc(front, x, HasKeyOf(key, k));
    if k != key(x) || HasKey(init, k) {
      GroupByGroup(front, key, k);
    } else {
      GroupByKeys(front, key);
      forall i | 0 <= i < |front| ensures !HasKeyOf(key, k)(front[i]) {
      }
      FilterEmpty(front, HasKeyOf(key, k));
    }
  }
}

=== FILE: relationships.dfy ===
/**
 * The relationship descriptors of `pydent/relationships.py` as a closed set
 * of variants. Each variant builds a marshalling `Relation` whose single
 * parameter is a callable of the owning record; `Params` is that callable.
 * A record is its attribute map; a loaded relationship attribute holds the
 * related records as a list of dicts. `inflection.pluralize` is a parameter.
 */
module Relationships {
  import opened Wrappers
  import opened JsonValue
  import opened Inflection
  import opened FieldExtensions

  /** A model instance's attributes, as `getattr` sees them. */
  type Record = map<string, Json>

  datatype Descriptor =
    | HasOne(model: string, attr: string)
    | HasMany(model: string, refModel: string, attr: string, through: Option<string>)
    | HasManyThrough(model: string, throughModel: string, attr: string)
    | HasManyGeneric(model: string)

  const FindUsingSession: string := "find_using_session"
  const WhereUsingSession: string := "where_using_session"

  /** `"{}_{}".format(inflection.underscore(model), attr)`. */
  function Iden(model: string, attr: string): string {
    Underscore(model) + "_" + attr
  }

  /** `getattr(rec, name)`. */
  function GetAttr(rec: Record, name: string): (r: Result<Json>)
    ensures r.Success? <==> name in rec
    ensures r.Success? ==> r.value == rec[name]
    ensures r.Failure? ==> r.error == AttributeError
  {
    if name in rec then Success(rec[name]) else Failure(AttributeError)
  }

  /**
   * What `for x in value` visits when the relationship attribute is not a
   * list: nothing for an empty string or dict; a non-empty string or dict
   * yields values with no `<name>_id` attribute; `None` and numbers are not
   * iterable.
   */
  function Associations(value: Json): (r: Result<seq<Json>>)
    ensures value.JArr? ==> r == Success(value.items)
  {
    match value
    case JArr(xs) => Success(xs)
    case JStr(s) => if s == "" then Success([]) else Failure(AttributeError)
    case JObj(m) => if m == map[] then Success([]) else Failure(AttributeError)
    case _ => Failure(TypeError)
  }

  /** `[getattr(x, iden) for x in associations]`. */
  function IdensOf(associations: seq<Json>, iden: string): (r: Result<seq<Json>>)
    ensures r.Success? <==> forall i :: 0 <= i < |associations| ==>
                              associations[i].JObj? && iden in associations[i].fields
    ensures r.Success? ==> |r.value| == |associations|
    ensures r.Success? ==> forall i :: 0 <= i < |associations| ==> r.value[i] == associations[i].fields[iden]
    ensures r.Failure? ==> r.error == AttributeError
    decreases |associations|
  {
    if associations == [] then Success([])
    else
      var x := associations[0];
      if x.JObj? && iden in x.fields then
        var rest :- IdensOf(associations[1..], iden);
        Success([x.fields[iden]] + rest)
      else Failure(AttributeError)
  }

  /** `lambda slf: {attr: [getattr(x, iden) for x in getattr(slf, through_attr)]}`. */
  function ThroughParams(rec: Record, attr: string, iden: string, throughAttr: string): (r: Result<Json>)
    ensures throughAttr !in rec ==> r == Failure(AttributeError)
    ensures r.Success? ==> r.value.JObj? && r.value.fields.Keys == {attr} && r.value.fields[attr].JArr?
    ensures throughAttr in rec && rec[throughAttr].JArr? ==>
              (r.Success? <==> IdensOf(rec[throughAttr].items, iden).Success?)
    ensures throughAttr in rec && rec[throughAttr].JArr? && r.Success? ==>
              var assocs := rec[throughAttr].items;
              var ids := r.value.fields[attr].items;
              |ids| == |assocs| && forall i :: 0 <= i < |assocs| ==> ids[i] == assocs[i].fields[iden]
  {
    var through :- GetAttr(rec, throughAttr);
    var assocs :- Associations(through);
    var ids :- IdensOf(assocs, iden);
    Success(JObj(map[attr := JArr(ids)]))
  }

  /** `if through:` treats `None` and `""` alike. */
  predicate HasThrough(d: Descriptor)
    requires d.HasMany?
  {
    d.through.Some? && d.through.value != ""
  }

  /** The parameter callable each descriptor installs, applied to the owning record. */
  function Params(d: Descriptor, rec: Record, pluralize: string -> string): (r: Result<Json>)
    ensures d.HasOne? ==> r == GetAttr(rec, Iden(d.model, d.attr))
    ensures d.HasManyGeneric? ==>
              (r.Success? <==> "id" in rec) && (r.Success? ==> r.value == JObj(map["parent_id" := rec["id"]]))
    ensures d.HasMany? && !HasThrough(d) ==>
              (r.Success? <==> d.attr in rec)
              && (r.Success? ==> r.value == JObj(map[Iden(d.refModel, d.attr) := rec[d.attr]]))
    ensures d.HasMany? && HasThrough(d) ==>
              r == ThroughParams(rec, d.attr, Iden(d.refModel, d.attr), pluralize(Underscore(d.through.value)))
    ensures d.HasManyThrough? ==>
              r == ThroughParams(rec, d.attr, Iden(d.model, d.attr), pluralize(Underscore(d.throughModel)))
  {
    match d
    case HasOne(model, attr) => GetAttr(rec, Iden(model, attr))
    case HasMany(_, refModel, attr, through) =>
      if HasThrough(d) then
        ThroughParams(rec, attr, Iden(refModel, attr), pluralize(Underscore(through.value)))
      else
        var v :- GetAttr(rec, attr);
        Success(JObj(map[Iden(refModel, attr) := v]))
    case HasManyThrough(model, through, attr) =>
      ThroughParams(rec, attr, Iden(model, attr), pluralize(Underscore(through)))
    case HasManyGeneric(_) =>
      var id :- GetAttr(rec, "id");
      Success(JObj(map["parent_id" := id]))
  }

  /** `One.__init__`: `find_using_session` unless a callback is given; never `many`. */
  function One<L>(model: string, callback: Option<string>, params: Param<L>): (r: Relation<L>)
    ensures r.callback == (if callback.Some? then callback.value else FindUsingSession)
    ensures !r.many && r.nested == model && r.default.None?
  {
    NewRelation(model, if callback.Some? then callback.value else FindUsingSession, params, false, true)
  }

  /** `Many.__init__`: `where_using_session` unless a callback is given; always `many`. */
  function Many<L>(model: string, callback: Option<string>, params: Param<L>): (r: Relation<L>)
    ensures r.callback == (if callback.Some? then callback.value else WhereUsingSession)
    ensures r.many && r.nested == model && r.default.None?
  {
    NewRelation(model, if callback.Some? then callback.value else WhereUsingSession, params, true, true)
  }

  /** The relation a descriptor builds: `HasOne` is a `One`, the others are `Many`. */
  function ToRelation(d: Descriptor, callback: Option<string>): (r: Relation<Descriptor>)
    ensures r.many <==> !d.HasOne?
    ensures r.nested == d.model
    ensures r.params == PTuple([PCallable(d)])
  {
    if d.HasOne? then One(d.model, callback, PCallable(d))
    else Many(d.model, callback, PCallable(d))
  }

  /** With the default callback, a descriptor finds a single record and the others query many. */
  lemma DefaultCallbacks(d: Descriptor)
    ensures d.HasOne? ==> ToRelation(d, None).callback == FindUsingSession
    ensures !d.HasOne? ==> ToRelation(d, None).callback == WhereUsingSession
    ensures GetDefault(ToRelation(d, None)) == (if d.HasOne? then JNull else JArr([]))
  {
  }

  /** `HasOne("SampleType")` reads `sample_type_id` of its owner. */
  lemma HasOneSampleType(rec: Record, pluralize: string -> string)
    ensures Params(HasOne("SampleType", "id"), rec, pluralize) == GetAttr(rec, "sample_type_id")
  {
    SampleTypeIden();
  }

  /** The attribute `SampleType` with `id` derives: `sample_type_id`. */
  lemma SampleTypeIden()
    ensures Iden("SampleType", "id") == "sample_type_id"
  {
    SampleTypeExample();
    assert "sample_type" + "_" + "id" == "sample_type_id";
  }

  /** Without `through`, `HasMany("Sample", "SampleType")` queries `{sample_type_id: self.id}`. */
  lemma HasManySampleType(rec: Record, pluralize: string -> string)
    requires "id" in rec
    ensures Params(HasMany("Sample", "SampleType", "id", None), rec, pluralize)
            == Success(JObj(map["sample_type_id" := rec["id"]]))
  {
    SampleTypeIden();
  }

  /** `HasMany` with a `through` model derives the same query as `HasManyThrough` over `ref_model`. */
  lemma HasManyThroughAgree(model: string, refModel: string, through: string, attr: string,
                            rec: Record, pluralize: string -> string)
    requires through != ""
    ensures Params(HasMany(model, refModel, attr, Some(through)), rec, pluralize)
            == Params(HasManyThrough(refModel, through, attr), rec, pluralize)
  {
  }
}

=== FILE: session.dfy ===
/**
 * The older session registry of `pydent/aq/session.py`: a configuration
 * either describes one session (it has a `login` key) or names several.
 * Each `Session.create` call binds keyword arguments to
 * `create(login, password, aquarium_url, session_name=None)`; logging in
 * over the network is not modelled, so a call is recorded once its
 * arguments bind.
 */
module Session {
  import opened Wrappers
  import opened JsonValue
  import opened Strings
  import AqHttp
  import Inflection

  /** One `Session.create` call; `sessionName` is `JNull` for the default. */
  datatype CreateCall = CreateCall(login: Json, password: Json, aquariumUrl: Json, sessionName: Json)

  /** The calls made, in order, and the exception that ended the loop, if any. */
  datatype Dispatch = Dispatch(calls: seq<CreateCall>, error: Option<Error>)

  const Required: set<string> := {"login", "password", "aquarium_url"}
  const Accepted: set<string> := {"login", "password", "aquarium_url", "session_name"}

  /** Python's keyword binding for `create(**kwargs)`: unknown or missing names raise `TypeError`. */
  function BindCreate(kwargs: map<string, Json>): (r: Result<CreateCall>)
    ensures r.Success? <==> Required <= kwargs.Keys <= Accepted
    ensures r.Success? ==> r.value.login == kwargs["login"] && r.value.password == kwargs["password"]
                           && r.value.aquariumUrl == kwargs["aquarium_url"]
    ensures r.Success? ==> r.value.sessionName == (if "session_name" in kwargs then kwargs["session_name"] else JNull)
    ensures r.Failure? ==> r.error == TypeError
  {
    if Required <= kwargs.Keys <= Accepted then
      Success(CreateCall(kwargs["login"], kwargs["password"], kwargs["aquarium_url"],
                         if "session_name" in kwargs then kwargs["session_name"] else JNull))
    else Failure(TypeError)
  }

  /** A JSON object read in file order; its keys are distinct, as in any dict. */
  type Config = seq<(string, Json)>

  predicate DistinctKeys(config: Config) {
    forall i, j :: 0 <= i < j < |config| ==> config[i].0 != config[j].0
  }

  predicate HasKey(config: Config, key: string) {
    exists i :: 0 <= i < |config| && config[i].0 == key
  }

  function ToMap(config: Config): map<string, Json>
    requires DistinctKeys(config)
  {
    map i | 0 <= i < |config| :: config[i].0 := config[i].1
  }

  /** `create(**session_config, session_name=name)` for one named entry. */
  function CreateNamed(name: string, sessionConfig: Json): (r: Result<CreateCall>)
    ensures r.Success? ==> r.value.sessionName == JStr(name)
    ensures r.Success? <==> sessionConfig.JObj? && "session_name" !in sessionConfig.fields
                            && Required <= sessionConfig.fields.Keys <= Accepted
  {
    match sessionConfig
    case JObj(m) =>
      // a `session_name` key in the entry collides with the explicit keyword
      if "session_name" in m then Failure(TypeError)
      else BindCreate(m["session_name" := JStr(name)])
    case _ => Failure(TypeError)   // `**` needs a mapping
  }

  /** The `for session_name, session_config in json_config.items()` loop. */
  function CreateEach(config: Config): (r: Dispatch)
    ensures |r.calls| <= |config|
    ensures forall i :: 0 <= i < |r.calls| ==> CreateNamed(config[i].0, config[i].1) == Success(r.calls[i])
    ensures r.error.None? ==> |r.calls| == |config|
    ensures r.error.Some? ==> |r.calls| < |config|
                              && CreateNamed(config[|r.calls|].0, config[|r.calls|].1) == Failure(r.error.value)
    decreases |config|
  {
    if |config| == 0 then Dispatch([], None)
    else
      match CreateNamed(config[0].0, config[0].1)
      case Failure(e) => Dispatch([], Some(e))
      case Success(call) =>
        var rest := CreateEach(config[1..]);
        Dispatch([call] + rest.calls, rest.error)
  }

  /**
   * `Session.create_from_json`: a config with a `login` key is one session,
   * created from the whole config; otherwise each top-level entry is a
   * session named by its key, created in order until one raises.
   */
  function CreateFromJson(config: Config): (r: Dispatch)
    requires DistinctKeys(config)
    ensures |r.calls| <= |config|
    ensures HasKey(config, "login") ==> |r.calls| + (if r.error.Some? then 1 else 0) == 1
    ensures HasKey(config, "login") && r.error.None? ==>
              r.calls[0].login == ToMap(config)["login"] && BindCreate(ToMap(config)) == Success(r.calls[0])
    ensures !HasKey(config, "login") && r.error.None? ==>
              |r.calls| == |config| && forall i :: 0 <= i < |config| ==> r.calls[i].sessionName == JStr(config[i].0)
    ensures HasKey(config, "login") ==>
              (r.error.None? <==> Required <= ToMap(config).Keys <= Accepted)
    ensures HasKey(config, "login") && r.error.Some? ==> r.error == Some(TypeError)
    ensures !HasKey(config, "login") ==>
              forall i :: 0 <= i < |r.calls| ==> CreateNamed(config[i].0, config[i].1) == Success(r.calls[i])
    ensures !HasKey(config, "login") && r.error.Some? ==>
              |r.calls| < |config| && CreateNamed(config[|r.calls|].0, config[|r.calls|].1) == Failure(r.error.value)
  {
    if HasKey(config, "login") then
      match BindCreate(ToMap(config))
      case Success(call) => Dispatch([call], None)
      case Failure(e) => Dispatch([], Some(e))
    else CreateEach(config)
  }

  // ---------------------------------------------------------------------------
  // The older connector

  /** The older connector `AqHTTP`: its credentials, base URL and session name. */
  datatype Connector = Connector(login: Json, password: Json, aquariumUrl: Json, name: Json)

  /** `AqHTTP._create_session`: the connector's login and password nested under `session`. */
  function CreateSession(c: Connector): (r: Json)
    ensures r.JObj? && r.fields.Keys == {"session"}
    ensures var inner := r.fields["session"];
      inner.JObj? && inner.fields.Keys == {"login", "password"}
      && inner.fields["login"] == c.login && inner.fields["password"] == c.password
  {
    AqHttp.CreateSessionJson(c.login, c.password)
  }

  /** A header name as `requests` compares it: ASCII letters lower-cased. */
  function FoldCase(name: string): string
  {
    Inflection.MapChars(name, Inflection.ToLower)
  }

  /**
   * `r.headers[name]` for a lower-case `name`, given the response's header
   * lines in order: the lookup ignores case, and several lines with that
   * name are joined with `", "`, as urllib3 presents them to `requests`.
   */
  function HeaderValue(headers: seq<(string, string)>, name: string): (r: Option<string>)
    ensures r.Some? <==> exists i :: 0 <= i < |headers| && FoldCase(headers[i].0) == name
    decreases |headers|
  {
    if headers == [] then None
    else
      var rest := HeaderValue(headers[..|headers| - 1], name);
      var h := headers[|headers| - 1];
      if FoldCase(h.0) == name then Some(if rest.Some? then rest.value + ", " + h.1 else h.1)
      else
        assert forall i :: 0 <= i < |headers| - 1 ==> headers[..|headers| - 1][i] == headers[i];
        rest
  }

  /** A single header line with that name, in any case, is read as it is. */
  lemma {:induction false} OnlyHeader(headers: seq<(string, string)>, name: string, i: int)
    requires 0 <= i < |headers| && FoldCase(headers[i].0) == name
    requires forall j :: 0 <= j < |headers| && j != i ==> FoldCase(headers[j].0) != name
    ensures HeaderValue(headers, name) == Some(headers[i].1)
    decreases |headers|
  {
    var front := headers[..|headers| - 1];
    if i < |headers| - 1 {
      assert forall j :: 0 <= j < |front| ==> front[j] == headers[j];
      OnlyHeader(front, name, i);
    } else {
      assert forall j :: 0 <= j < |front| ==> front[j] == headers[j] && FoldCase(front[j].0) != name;
      assert HeaderValue(front, name).None?;
    }
  }

  /** A login response that spells the header `Set-Cookie` is read like one spelling it `set-cookie`. */
  lemma SetCookieAnyCase(v: string)
    ensures HeaderValue([("Set-Cookie", v)], "set-cookie") == Some(v)
  {
    assert FoldCase("Set-Cookie") == "set-cookie";
    OnlyHeader([("Set-Cookie", v)], "set-cookie", 0);
  }

  /**
   * The cookie header `AqHTTP._login` installs: the login response's
   * `set-cookie` header rewritten by `__fix_remember_token`. Unlike the newer
   * client, a response without `set-cookie` is not checked for and
   * `r.headers["set-cookie"]` raises `KeyError`.
   */
  method LoginCookie(headers: seq<(string, string)>) returns (r: Result<map<string, string>>)
    ensures HeaderValue(headers, "set-cookie").None? ==> r == Failure(KeyError)
    ensures HeaderValue(headers, "set-cookie").Some? ==>
      (r.Success? <==> AqHttp.TokensPresent(Split(HeaderValue(headers, "set-cookie").value, ';')))
    ensures HeaderValue(headers, "set-cookie").Some? && r.Failure? ==> r.error == IndexError
    ensures r.Success? ==>
      var h := HeaderValue(headers, "set-cookie");
      && h.Some?
      && r.value.Keys == {"cookie"}
      && r.value["cookie"] == AqHttp.RememberToken + "=" + AqHttp.LastToken(Split(h.value, ';')) + "; " + h.value
      && EndsWith(r.value["cookie"], "; " + h.value)
  {
    var h := HeaderValue(headers, "set-cookie");
    if h.None? {
      return Failure(KeyError);
    }
    var fixed := AqHttp.FixRememberToken(h.value);
    if fixed.Failure? {
      return Failure(fixed.error);
    }
    r := Success(map["cookie" := fixed.value]);
  }
}

=== FILE: strings.dfy ===
/** Python's `str.split(sep)` for a one-character separator, and its inverse. */
module Strings {

  /** `s.split(sep)`: the maximal runs between separators, always at least one. */
  function Split(s: string, sep: char): (parts: seq<string>)
    ensures |parts| >= 1
    ensures forall i :: 0 <= i < |parts| ==> sep !in parts[i]
    decreases |s|
  {
    if |s| == 0 then [""]
    else
      var rest := Split(s[1..], sep);
      if s[0] == sep then [""] + rest
      else [[s[0]] + rest[0]] + rest[1..]
  }

  /** `sep.join(parts)`. */
  function Join(parts: seq<string>, sep: char): string
    decreases |parts|
  {
    if |parts| == 0 then ""
    else if |parts| == 1 then parts[0]
    else parts[0] + [sep] + Join(parts[1..], sep)
  }

  /** Text before the first separator: `s.split(sep)[0]`. */
  function Head(s: string, sep: char): string {
    Split(s, sep)[0]
  }

  predicate StartsWith(s: string, prefix: string) {
    |prefix| <= |s| && s[..|prefix|] == prefix
  }

  predicate EndsWith(s: string, suffix: string) {
    |suffix| <= |s| && s[|s| - |suffix|..] == suffix
  }

  /** Python's `needle in s` for strings. */
  predicate Contains(s: string, needle: string) {
    exists i | 0 <= i <= |s| :: OccursAt(s, needle, i)
  }

  predicate OccursAt(s: string, needle: string, i: int) {
    0 <= i && i + |needle| <= |s| && s[i..i + |needle|] == needle
  }

  /** Joining the parts of a split gives back the original string. */
  lemma {:induction false} JoinSplit(s: string, sep: char)
    ensures Join(Split(s, sep), sep) == s
    decreases |s|
  {
    if |s| > 0 {
      JoinSplit(s[1..], sep);
      var rest := Split(s[1..], sep);
      if s[0] == sep {
        assert Split(s, sep) == [""] + rest;
        if |rest| == 1 {
          assert Join([""] + rest, sep) == "" + [sep] + rest[0];
        } else {
          assert ([""] + rest)[1..] == rest;
        }
        assert s == [s[0]] + s[1..];
      } else {
        var parts := [[s[0]] + rest[0]] + rest[1..];
        assert Split(s, sep) == parts;
        if |rest| == 1 {
          assert Join(parts, sep) == [s[0]] + rest[0];
        } else {
          assert parts[1..] == rest[1..];
          assert Join(rest, sep) == rest[0] + [sep] + Join(rest[1..], sep);
        }
        assert s == [s[0]] + s[1..];
      }
    }
  }

  /** Splitting a join of separator-free parts gives back the parts. */
  lemma {:induction false} SplitJoin(parts: seq<string>, sep: char)
    requires |parts| >= 1
    requires forall i :: 0 <= i < |parts| ==> sep !in parts[i]
    ensures Split(Join(parts, sep), sep) == parts
    decreases |parts|, |parts[0]|
  {
    if |parts[0]| > 0 {
      var p0 := parts[0];
      var tail := [p0[1..]] + parts[1..];
      SplitJoin(tail, sep);
      assert Join(parts, sep) == [p0[0]] + Join(tail, sep) by {
        if |parts| == 1 {
        } else {
          assert tail[1..] == parts[1..];
        }
      }
      var s := Join(parts, sep);
      assert s[1..] == Join(tail, sep);
      assert s[0] == p0[0];
      assert [p0[0]] + p0[1..] == p0;
    } else if |parts| > 1 {
      SplitJoin(parts[1..], sep);
      assert Join(parts, sep) == [sep] + Join(parts[1..], sep);
      var s := Join(parts, sep);
      assert s[1..] == Join(parts[1..], sep);
      assert [""] + parts[1..] == parts;
    }
  }
}

=== FILE: wrappers.dfy ===
/** Failure-compatible wrappers and the error kinds the library raises. */
module Wrappers {

  /** Python's `None` or a present value. */
  datatype Option<+T> = None | Some(value: T) {
    predicate IsFailure() {
      None?
    }

    function PropagateFailure<U>(): Option<U>
      requires None?
    {
      None
    }

    function Extract(): T
      requires Some?
    {
      value
    }
  }

  /** A returned value, or the exception that the source raises instead. */
  datatype Result<+T> = Success(value: T) | Failure(error: Error) {
    predicate IsFailure() {
      Failure?
    }

    function PropagateFailure<U>(): Result<U>
      requires Failure?
    {
      Failure(error)
    }

    function Extract(): T
      requires Success?
    {
      value
    }
  }

  /**
   * The exception kinds. The first six are the library's own
   * (`TridentRequestError`, `TridentJSONDataIncomplete`, `AquariumModelError`,
   * `BrowserException`, marshmallow's `ValidationError`, and the bare
   * `Exception` some constructors raise); the rest are Python built-ins that
   * the modelled code lets escape.
   */
  datatype Error =
    | RequestError
    | JsonDataIncomplete
    | ModelError
    | BrowserError
    | ValidationError
    | GenericException
    | AssertionError
    | AttributeError
    | IndexError
    | KeyError
    | TypeError
    | ValueError
}
